=== FILE: README.md ===
# Online Gurukul classroom backend, modelled in Dafny

This project models the request handlers of an Express/Mongoose classroom
backend. Teachers create classrooms, and owners add, promote and remove
members. Students join and leave. Each classroom holds course modules, and
each module holds lectures (which hold videos), notes and homeworks.
Students ask doubts under a video.

Modelling choices:

- **Database.** The store is a `class Database` (module `Store`) with one
  map from ObjectId to document per collection. It also holds `nextId`, the
  next fresh id. `Valid()` says every id in use lies below `nextId`, so a
  fresh id clashes with nothing.
- **Handlers.** Each handler is a method that changes the database and
  returns `Result<T>`: either the reply or an `ApiError(status, message)`.
  Handlers that only read are functions over the maps.
- **Error ordering.** Every handler states its error cases in the order the
  source checks them.
- **500 masking.** Most handlers wrap their body in a `try` whose `catch`
  rethrows `ApiError(500, error.message || fallback)`. So a 400, 403 or 404
  raised inside the `try` reaches the client as 500 with its own message.
  `Outcome.Rethrown` models this and the handlers return exactly that. The
  400s raised before the `try` stay 400.
- **Shared invariants.** Two invariants tie the handlers together:
  - `Store.Mirrored`: a user's `classroomID` list names exactly the
    classrooms whose roster holds the user.
  - `ContentTree.Linked`: a parent's id list names exactly the children
    that point back at it. This covers modules/lectures, modules/notes,
    modules/homeworks and lectures/videos. `Listed` is its one-way form,
    used for classrooms/modules and lectures or videos/doubts, where there
    is no back-reference.

  Each handler states which invariant it keeps and under which condition.
- **Foreign code.** bcrypt and JSON Web Tokens (RFC 7519) are abstract.
  `Bcrypt.Hash` is modelled as an injective constructor over the whole
  password, so `CompareHash` is true exactly for the hashed text. Real
  bcrypt reads only the first 72 bytes of a password (see "Left out"). A signed token is an opaque piece of wire text that
  only `JsonWebToken.Verify` opens. The asset store's `upload` and
  `destroy` calls are function parameters (oracles).
- **Strings.** `Text` models the JavaScript string operations the handlers
  use (`trim`, `split`, `toLowerCase`, unanchored regex tests) on
  `seq<char>`.
- **Request fields.** A missing request field is `None`. `Outcome.Falsy`
  is JavaScript's `!field` on an optional string.

## Model

| member | source | states |
|---|---|---|
| ApiResponses.NewApiResponse | classroom_backend/src/utils/ApiResponse.js:2-6 | `success` is true exactly when the status is below 400. The status and data are kept unchanged. The message defaults to "Success"; a supplied one is kept verbatim |
| ApiResponses.SuccessDependsOnlyOnStatus | classroom_backend/src/utils/ApiResponse.js:6 | two responses with the same status agree on `success`, whatever their data and message |
| Outcome.Rethrown | classroom_backend/src/controllers/module.controller.js:45-47 | the `catch` of a handler: the error becomes status 500, keeping its message when it has one and using the fallback otherwise |
| Outcome.NotFoundMaskedAs500 | classroom_backend/src/controllers/module.controller.js:45-47 | a 404 raised inside the `try` reaches the client as 500 with the same message |
| Text.Trim | classroom_backend/src/controllers/classroom.controller.js:102 | `trim` returns a stretch `s[i..j]` of the input whose margins `s[..i]` and `s[j..]` are blank; it is empty exactly for a blank input and otherwise neither starts nor ends with white space, so the margins cut are the longest blank ones |
| Text.Utf16Length | classroom_backend/src/controllers/classroom.controller.js:119 | `length` counts UTF-16 code units: between one and two per character, and exactly one per character precisely when no character lies outside the Basic Multilingual Plane |
| Text.TrimIdempotent | classroom_backend/src/models/user.model.js:9 | trimming twice is trimming once |
| Text.WordCountCountsWords | classroom_backend/src/controllers/classroom.controller.js:110 | for a non-blank description, `trim().split(/\s+/).length` is the number of maximal non-space runs |
| Text.ToLowerIdempotent | classroom_backend/src/models/user.model.js:30 | lower-casing yields a lower-case string, and doing it twice is doing it once |
| Text.ToLower | classroom_backend/src/middlewares/multer.js:20 | `toLowerCase` keeps the length and maps each character to its lower-case form, leaving no capital letter |
| Text.ContainsIffOccurs | classroom_backend/src/middlewares/multer.js:18-20 | an unanchored test succeeds exactly when the pattern occurs at some index |
| Text.JoinSplit | classroom_backend/src/utils/cloudinary.js:13 | joining the parts of `split(sep)` with `sep` gives back the string |
| Text.SplitFirstIsBeforeFirst | classroom_backend/src/utils/cloudinary.js:15 | `split(c)[0]` is the part before the first `c` |
| Text.SplitLastIsAfterLast | classroom_backend/src/utils/cloudinary.js:13-14 | the last part of `split(c)` (what `pop` returns) is the part after the last `c` |
| Text.Split | classroom_backend/src/utils/cloudinary.js:13 | the parts of `split(sep)`, none of which contains the separator |
| ObjectIds.IdTextInjective | classroom_backend/src/controllers/classroom.contoller.js:71 | two ids print the same only when they are equal, so `toString` comparisons compare ids |
| JsonWebToken.Sign | classroom_backend/src/models/user.model.js:78 | a signed token carries exactly the given claims |
| JsonWebToken.Verify | classroom_backend/src/middlewares/auth.middleware.js:16 | decodes exactly a token signed under the same secret that has not expired, yielding its claims; an empty token is refused with "jwt must be provided" |
| Bcrypt.CompareHash | classroom_backend/src/models/user.model.js:73-75 | comparing a text with the hash of a password succeeds exactly when the text is that password |
| JsonWebToken.VerifySigned | classroom_backend/src/middlewares/auth.middleware.js:16 | a signed token decodes to its claims under its own secret before it expires; under another secret it is refused |
| JsonWebToken.PlainTextIsMalformed | classroom_backend/src/middlewares/auth.middleware.js:16 | text that is not a token is refused as malformed |
| UserModel.RoleError | classroom_backend/src/models/user.model.js:35-40 | the `role` path fails validation exactly when a role is given that is not student, teacher or admin; "" fails `required` with "role: Please enter your role" before `enum` is tried |
| UserModel.RoleFromInput | classroom_backend/src/models/user.model.js:35-40 | no role gives "student"; a given role is accepted exactly when it is student, teacher or admin, and is stored under that name; a refused role fails with the "User validation failed" message built from the path's error |
| UserModel.ProfileOf | classroom_backend/src/middlewares/auth.middleware.js:18 | the profile selected without password and refreshToken keeps every other field of the account |
| UserModel.ProfileHidesSecrets | classroom_backend/src/controllers/user.controller.js:45 | the profile does not depend on the password or the stored refresh token |
| UserModel.StoredUsername | classroom_backend/src/models/user.model.js:27-34 | a stored username is the lower-cased username with blank margins of the typed username cut off at both ends; it is lower case and has no white space at either end |
| Text.TrimOfLower | classroom_backend/src/models/user.model.js:27-34 | lower-casing keeps white space in place, so the margins trimmed from the lower-cased text are blank in the original |
| UserModel.StoredUsernameIdempotent | classroom_backend/src/models/user.model.js:27-34 | normalising a stored username again changes nothing |
| UserModel.AssignPassword | classroom_backend/src/models/user.model.js:17-22 | assigning a password marks it modified and keeps its trimmed text |
| UserModel.PreSave | classroom_backend/src/models/user.model.js:66-71 | an unmodified password is stored as it is; a modified one is stored as a hash that accepts the plain text |
| UserModel.PreSaveHashesOnce | classroom_backend/src/models/user.model.js:66-71 | saving again without a change does not rehash, so the stored hash still accepts exactly the assigned password |
| UserModel.IsPasswordCorrectIff | classroom_backend/src/models/user.model.js:73-75 | the check accepts exactly the password whose hash is stored |
| UserModel.GenerateAccessToken | classroom_backend/src/models/user.model.js:77-90 | a token signed under the given secret whose claims are the id, email, username and full name |
| UserModel.GenerateRefreshToken | classroom_backend/src/models/user.model.js:91-102 | a token signed under the given secret whose claims are the id only |
| UserModel.TokensAreNotInterchangeable | classroom_backend/src/models/user.model.js:77-102 | with distinct secrets, an access token fails refresh verification and a refresh token fails access verification; both name the account |
| AuthMiddleware.RemoveFirst | classroom_backend/src/middlewares/auth.middleware.js:8 | `replace` with a string pattern: when the pattern first occurs at `i`, the result is the text before `i` followed by the text after that occurrence |
| AuthMiddleware.RemoveFirstAbsent | classroom_backend/src/middlewares/auth.middleware.js:8 | a header without the pattern is left as it is |
| AuthMiddleware.BearerRoundTrip | classroom_backend/src/middlewares/auth.middleware.js:8 | stripping "Bearer " from "Bearer " followed by a token gives the token back |
| AuthMiddleware.ExtractToken | classroom_backend/src/middlewares/auth.middleware.js:8 | a non-empty cookie wins; otherwise the header with its first "Bearer " removed; with neither, no token |
| AuthMiddleware.IsAuthenticated | classroom_backend/src/middlewares/auth.middleware.js:6-29 | no token gives 404 "Login First" with no call to `next`. A token that fails verification gives 401 with the verifier's message. An unknown user gives 401 "Invalid Access Token". Otherwise the request carries the user's profile and `next` runs once |
| AuthMiddleware.FreshTokenPasses | classroom_backend/src/middlewares/auth.middleware.js:16-25 | a fresh access token of an existing account, sent as a cookie or a bearer header, authenticates that account |
| AuthMiddleware.RefreshTokenRefused | classroom_backend/src/middlewares/auth.middleware.js:16-28 | a refresh token presented as an access token is refused with 401 |
| Multer.ExtName | classroom_backend/src/middlewares/multer.js:20 | `path.extname`: trailing "/" are skipped, then the result is the suffix of the last path segment that starts at its last dot; empty exactly when that segment has no dot, has only a leading dot, or is ".." |
| Multer.ExtNameOfDottedName | classroom_backend/src/middlewares/multer.js:11 | for `dir/stem.ext` with a dot-free extension, the extension comes back as ".ext" |
| Multer.ExtNameOfPlainName | classroom_backend/src/middlewares/multer.js:11 | for `stem.ext` without a directory, the extension comes back as ".ext" |
| Multer.ExtNameOfSuffix | classroom_backend/src/middlewares/multer.js:20 | a name whose text before a dotted extension ends in neither "/" nor "." yields exactly that extension |
| Multer.TrailingSlashIgnored | classroom_backend/src/middlewares/multer.js:20 | a trailing "/" leaves the extension unchanged, so "a.png/" gives ".png" |
| Multer.FileName | classroom_backend/src/middlewares/multer.js:10-12 | the stored name starts with the field name and a dash |
| Multer.FileNameKeepsExtension | classroom_backend/src/middlewares/multer.js:10-12 | the stored name has the original file's extension |
| Multer.FileFilter | classroom_backend/src/middlewares/multer.js:17-27 | a file is accepted exactly when its mimetype contains jpeg, jpg or png and so does its lower-cased extension; otherwise 400 "Only images are allowed" |
| Multer.ImageWordIffOccurs | classroom_backend/src/middlewares/multer.js:18 | the unanchored `/jpeg\|jpg\|png/` test holds exactly when one of the three words occurs |
| Multer.CapitalMimetypeRefused | classroom_backend/src/middlewares/multer.js:19 | the mimetype is not lower-cased, so a mimetype with the image word only in capitals is refused |
| Multer.CapitalExtensionAccepted | classroom_backend/src/middlewares/multer.js:20 | the extension is lower-cased, so any plain name ending in ".PNG" with an image/png mimetype is accepted |
| Cloudinary.GetPublicIdFromUrl | classroom_backend/src/utils/cloudinary.js:12-17 | the public id contains neither "/" nor "." |
| Cloudinary.PublicIdIsSegmentStem | classroom_backend/src/utils/cloudinary.js:12-17 | the public id is the last "/"-separated segment cut at its first "." |
| Cloudinary.PublicIdOfPlainName | classroom_backend/src/utils/cloudinary.js:12-17 | a string without "/" and "." is its own public id |
| Cloudinary.PublicIdIdempotent | classroom_backend/src/utils/cloudinary.js:12-17 | the public id of a public id is itself |
| Cloudinary.PublicIdOfLastSegment | classroom_backend/src/utils/cloudinary.js:12-17 | a URL and its last segment have the same public id |
| Cloudinary.UploadOnCloudinary | classroom_backend/src/utils/cloudinary.js:19-37 | an empty path gives null without calling the store; otherwise the store is called once with the path and its reply or failure is passed on |
| Cloudinary.DeleteFromCloudinary | classroom_backend/src/utils/cloudinary.js:39-58 | as written: it succeeds exactly when a non-empty path's public id is destroyed; every failure surfaces as the reference error "ApiError is not defined" |
| Cloudinary.DeleteFromCloudinaryIntended | classroom_backend/src/utils/cloudinary.js:39-58 | succeeds exactly as the written wrapper does; an empty path gives 400 "Invalid URL of cloudinary asset"; every failure is a 400 with a message |
| Cloudinary.DeleteGuardLosesItsError | classroom_backend/src/utils/cloudinary.js:41-46 | on an empty path, the written wrapper reports the reference error where the intended one reports its 400 |
| Store.Without | classroom_backend/src/controllers/classroom.controller.js:341 | filtering out an id keeps every other entry and drops that id, and never lengthens the list |
| Store.WithoutAbsent | classroom_backend/src/controllers/video.controller.js:96 | filtering out an id the list does not hold changes nothing |
| Store.WithoutAppend | classroom_backend/src/controllers/video.controller.js:96 | filtering works piecewise, so the surviving entries keep their order |
| Store.WithoutUndoesPush | classroom_backend/src/controllers/module.controller.js:198-204 | pulling an id that was just pushed onto a list without it restores the list |
| Store.Database.InsertUser | classroom_backend/src/controllers/user.controller.js:220 | `User.create`: the account is stored under a fresh id and nothing else changes |
| Store.Database.InsertClassroom | classroom_backend/src/controllers/classroom.controller.js:143 | `Classroom.create`: the classroom is stored under an id used by no classroom and no account |
| Store.Database.InsertModule | classroom_backend/src/controllers/module.controller.js:28-32 | a new module is saved under a fresh id |
| Store.Database.InsertLecture | classroom_backend/src/controllers/lecture.controller.js:24-28 | a new lecture is saved under a fresh id |
| Store.Database.InsertVideo | classroom_backend/src/controllers/video.controller.js:30-35 | a new video is saved under a fresh id |
| Store.Database.InsertHomework | classroom_backend/src/controllers/homework.controller.js:40-47 | a new homework is saved under a fresh id |
| Store.Database.InsertDoubt | classroom_backend/src/controllers/doubt.controller.js:30-35 | a new doubt is saved under a fresh id |
| Store.Database.SaveModule | classroom_backend/src/controllers/module.controller.js:160 | saving a module overwrites that document only and uses no new id |
| Store.Database.SaveUser | classroom_backend/src/controllers/classroom.controller.js:261 | saving an account overwrites that document only and uses no new id |
| Store.Database.SaveClassroom | classroom_backend/src/controllers/classroom.controller.js:263 | saving a classroom overwrites that document only and uses no new id |
| Store.Database.SaveLecture | classroom_backend/src/controllers/video.controller.js:97 | saving a lecture overwrites that document only and uses no new id |
| Store.Database.SaveVideo | classroom_backend/src/controllers/doubt.controller.js:179 | saving a video overwrites that document only and uses no new id |
| Store.Database.RemoveModule | classroom_backend/src/controllers/module.controller.js:202 | exactly that module leaves the collection, and no id becomes used |
| Store.Database.RemoveLecture | classroom_backend/src/controllers/lecture.controller.js:122 | exactly that lecture leaves the collection, and no id becomes used |
| Store.Database.KeepVideos | classroom_backend/src/controllers/lecture.controller.js:120 | the video collection becomes the given part of itself |
| Store.Database.RemoveVideo | classroom_backend/src/controllers/video.controller.js:95 | exactly that video leaves the collection, and no id becomes used |
| Store.Database.RemoveNote | classroom_backend/src/controllers/note.controller.js:118 | exactly that note leaves the collection, and no id becomes used |
| Store.Database.RemoveHomework | classroom_backend/src/controllers/homework.controller.js:190 | exactly that homework leaves the collection, and no id becomes used |
| Store.Database.RemoveDoubt | classroom_backend/src/controllers/doubt.controller.js:175 | exactly that doubt leaves the collection, and no id becomes used |
| Store.Database.SaveNewNote | classroom_backend/src/controllers/note.controller.js:34-41 | the note is saved under the id taken before the module was saved |
| Membership.JoinKeepsMirror | classroom_backend/src/controllers/classroom.controller.js:420-423 | pushing a user onto a classroom's members and the classroom onto the user's list keeps the mirror |
| Membership.PromoteKeepsMirror | classroom_backend/src/controllers/classroom.controller.js:301-302 | moving a member to the owners keeps the mirror |
| Membership.LeaveKeepsMirror | classroom_backend/src/controllers/classroom.controller.js:378-383 | filtering a user out of both lists and the classroom out of the user's list keeps the mirror |
| Membership.RemoveKeepsMirror | classroom_backend/src/controllers/classroom.controller.js:341-343 | removing a non-owner member and forgetting only that classroom keeps the mirror |
| Membership.CreateKeepsMirror | classroom_backend/src/controllers/classroom.controller.js:143-150 | a new classroom whose only roster entry is its creator, recorded on the creator's list, keeps the mirror |
| Membership.PulledEverywhere | classroom_backend/src/controllers/classroom.controller.js:180-183 | every account keeps its fields except that the classroom is pulled from its list |
| Membership.DeleteKeepsMirror | classroom_backend/src/controllers/classroom.controller.js:180-185 | deleting a classroom and pulling it from every account keeps the mirror, and no account names it any more |
| Membership.JoinThenLeaveRestores | classroom_backend/src/controllers/classroom.controller.js:420-423 | joining and then leaving restores the account and the member list |
| ClassroomController.CreateInputCheck | classroom_backend/src/controllers/classroom.controller.js:102-121 | the 400 checks in source order: name, description, at least 20 words, code, then exactly 7 UTF-16 code units with no white space. It passes exactly for valid input |
| ClassroomController.ValidCodeNotBlank | classroom_backend/src/controllers/classroom.controller.js:116-121 | a code of seven code units without white space is never missing or blank |
| ClassroomController.CreateCheck | classroom_backend/src/controllers/classroom.controller.js:102-141 | after the input checks: a caller who is not a teacher gets 403 (surfacing as 500), then a used name and a used code are refused. It passes exactly when none applies |
| ClassroomController.CreateClassRoom | classroom_backend/src/controllers/classroom.controller.js:99-161 | a failed check changes nothing. Otherwise the new classroom has the trimmed name and the caller as sole owner, and is pushed onto the caller's list; the mirror is kept |
| ClassroomController.DeleteClassRoom | classroom_backend/src/controllers/classroom.controller.js:163-197 | owners only; the classroom is deleted and pulled from every account, keeping the mirror |
| ClassroomController.UpdateClassRoom | classroom_backend/src/controllers/classroom.controller.js:199-233 | both fields are required (400), then the classroom, the owner check and the schema's name check. On success only the name (trimmed) and the description change |
| ClassroomController.AddClassRoomMember | classroom_backend/src/controllers/classroom.controller.js:235-275 | the classroom, the user by email, the owner check, then no existing membership, each with its error; a request that passes them all succeeds. The target is pushed onto the members and the classroom onto the target's list, keeping the mirror |
| ClassroomController.MakeClassRoomOwner | classroom_backend/src/controllers/classroom.controller.js:277-315 | the classroom, the user by email, the owner check, then the target must be a member; a request that passes them all succeeds. Afterwards the target is an owner and no longer a member, and the mirror is kept |
| ClassroomController.ShadowedFilter | classroom_backend/src/controllers/classroom.controller.js:343 | the filter that compares each id with itself leaves nothing |
| ClassroomController.RemoveCheck | classroom_backend/src/controllers/classroom.controller.js:322-335 | classroom, user by email, then owner check, in that order |
| ClassroomController.RemoveClassRoomMember | classroom_backend/src/controllers/classroom.controller.js:317-357 | as written: a request that passes the checks and names a member succeeds; exactly the target leaves the member list, and the target's whole classroom list is emptied |
| ClassroomController.RemoveMemberBreaksMirror | classroom_backend/src/controllers/classroom.controller.js:341-345 | a member of two classrooms removed from one is left on the other's roster with an empty list, so the mirror breaks |
| ClassroomController.RemoveClassRoomMemberFixed | classroom_backend/src/controllers/classroom.controller.js:317-357 | as intended: a request that passes the checks and names a member succeeds; only this classroom leaves the target's list, and the mirror is kept for a non-owner target |
| ClassroomController.LeaveClassRoom | classroom_backend/src/controllers/classroom.controller.js:359-395 | the caller must be on the roster. Afterwards the caller is in neither list, the classroom is gone from the caller's list, all else is unchanged, and the mirror is kept |
| ClassroomController.JoinClassRoom | classroom_backend/src/controllers/classroom.controller.js:397-435 | a code is required, then the classroom and the caller must exist. A caller already on the roster is refused, and a caller on no matching roster succeeds: the caller is pushed onto the members and the classroom onto the caller's list, keeping the mirror |
| RoutedClassroomController.Param | classroom_backend/src/controllers/classroom.contoller.js:9 | a route parameter is present exactly when the route declares it, and then holds the value the path gave |
| RoutedClassroomController.RoutedRequestsCarryNoId | classroom_backend/src/controllers/classroom.contoller.js:9 | a request routed through `/:classroomId` has no `id` parameter |
| RoutedClassroomController.FindById | classroom_backend/src/controllers/classroom.contoller.js:65 | `findById` finds a classroom exactly for a present, stored id |
| RoutedClassroomController.IdTexts | classroom_backend/src/controllers/classroom.contoller.js:71 | the printed owner array prints each id in order |
| RoutedClassroomController.OwnerCheckAsWrittenIff | classroom_backend/src/controllers/classroom.contoller.js:71-73 | comparing the printed owner array with the printed caller id passes exactly when the caller is the one and only owner |
| RoutedClassroomController.NoOwnerPassesAmongSeveral | classroom_backend/src/controllers/classroom.contoller.js:71-73 | with two owners or more, nobody passes the written check |
| RoutedClassroomController.OwnerChecksAfterPromotion | classroom_backend/src/controllers/classroom.contoller.js:186-192 | both checks agree on a single owner; after a promotion both owners pass the intended check and neither passes the written one |
| RoutedClassroomController.GetClassRoom | classroom_backend/src/controllers/classroom.contoller.js:8-34 | no id gives 400; an unknown id gives 500 "Classroom not found"; otherwise the classroom |
| RoutedClassroomController.RoutedGetNeverFinds | classroom_backend/src/controllers/classroom.contoller.js:8-34 | through the routes the handler always answers 400, even for a stored classroom |
| RoutedClassroomController.DeclaredParamFinds | classroom_backend/src/routes/classroom.routes.js:19 | reading the parameter the routes declare, the handler finds every stored classroom and answers "Classroom not found" for any other id |
| RoutedClassroomController.RequiredErrors | classroom_backend/src/models/classroom.model.js:5-19 | the schema's required errors are empty exactly when all three fields are present |
| RoutedClassroomController.CreateClassRoom | classroom_backend/src/controllers/classroom.contoller.js:36-55 | only a present blank field is refused (400). An absent one fails validation (500). A created classroom has the creator as owner, owner name and only member, and the creator passes the owner check |
| RoutedClassroomController.DeleteClassRoom | classroom_backend/src/controllers/classroom.contoller.js:57-87 | no id gives 400. Deletion succeeds exactly when the caller is the sole owner, and removes only that classroom |
| RoutedClassroomController.UpdateClassRoom | classroom_backend/src/controllers/classroom.contoller.js:89-123 | both fields are required, then the classroom, the sole-owner check and the name check. Only the name and description change, and owners stay members |
| RoutedClassroomController.RosterCheck | classroom_backend/src/controllers/classroom.contoller.js:131-144 | the classroom, the user by email, then the sole-owner check with the handler's own message |
| RoutedClassroomController.AddClassRoomMember | classroom_backend/src/controllers/classroom.contoller.js:125-164 | the shared checks, then an existing member is refused; a request that passes them all succeeds. The target is pushed onto the members only; user records are untouched |
| RoutedClassroomController.MakeClassRoomOwner | classroom_backend/src/controllers/classroom.contoller.js:166-204 | the shared checks, then the target must be a member; a request that passes them all succeeds. The member's id is pushed onto the owners and the username onto the owner names. The member list is unchanged, and afterwards nobody passes the owner check |
| RoutedClassroomController.RemoveClassRoomMember | classroom_backend/src/controllers/classroom.contoller.js:206-244 | the shared checks, then the target must be a member; a request that passes them all succeeds. Exactly the target leaves the member list; user records are untouched |
| RoutedClassroomController.LeaveClassRoom | classroom_backend/src/controllers/classroom.contoller.js:246-281 | a member leaves the member list and the classroom leaves the caller's list; the mirror is kept for a non-owner |
| RoutedClassroomController.JoinClassRoom | classroom_backend/src/controllers/classroom.contoller.js:283-321 | a code, the classroom and the caller are required; an existing member is refused, and a caller on no matching member list succeeds. Both lists gain the other, keeping the mirror |
| UserController.TokensFor | classroom_backend/src/controllers/user.controller.js:12-13 | the pair is the model's access token and refresh token for the account |
| UserController.TokensForVerify | classroom_backend/src/controllers/user.controller.js:12-13 | while fresh, each issued token decodes under its own secret to claims naming the account |
| UserController.WithRefreshToken | classroom_backend/src/controllers/user.controller.js:15-16 | only the account's refresh-token slot changes |
| UserController.IssueTokens | classroom_backend/src/controllers/user.controller.js:9-24 | the refresh-token slot is overwritten with the newly signed token and both tokens are returned; a missing account gives the fixed 500 and changes nothing |
| UserController.LoginUser | classroom_backend/src/controllers/user.controller.js:26-68 | 400 without username and email; 404 exactly when no account matches; 400 when no matching account accepts the password, and success when every one does. On success the tokens are issued and stored, and the reply holds the profile without secrets |
| UserController.UsernameLookupIgnoresCase | classroom_backend/src/controllers/user.controller.js:33-35 | an account registered under any case is found by the lower-cased name |
| UserController.IncomingRefreshToken | classroom_backend/src/controllers/user.controller.js:71 | the cookie token wins over the body token |
| UserController.RefreshCheck | classroom_backend/src/controllers/user.controller.js:77-92 | succeeds exactly when the token verifies under the refresh secret, names an existing account, and equals its stored token; every failure is 401 |
| UserController.RefreshAccessToken | classroom_backend/src/controllers/user.controller.js:70-116 | as written: 401 without a token, the check's 401 on failure. On success the slot is rotated, but the reply and cookie carry `undefined` in place of the new refresh token |
| UserController.UndefinedCookieCannotRefresh | classroom_backend/src/controllers/user.controller.js:99-104 | the cookie the written refresh leaves behind is refused as a malformed token |
| UserController.RefreshAccessTokenRotating | classroom_backend/src/controllers/user.controller.js:70-116 | as intended: the same checks, and the new refresh token is both stored and returned |
| UserController.RotatedTokenRefreshes | classroom_backend/src/controllers/user.controller.js:83-99 | once a token is stored it refreshes while fresh, and any other token is refused |
| UserController.LoggedOut | classroom_backend/src/controllers/user.controller.js:245-255 | the account's slot is unset and every other account is unchanged |
| UserController.LogoutUser | classroom_backend/src/controllers/user.controller.js:244-267 | the database becomes the logged-out one and the message is "User logged Out" |
| UserController.LogoutIdempotent | classroom_backend/src/controllers/user.controller.js:245-255 | logging out twice is logging out once, and a logged-out account cannot refresh |
| UserController.ChangeCurrentPassword | classroom_backend/src/controllers/user.controller.js:118-141 | rejects only when both passwords are missing, then 404 for no user, then 400 for a wrong old password. On success only the password changes, rehashed; the refresh token is untouched |
| UserController.ChangedPasswordAccepted | classroom_backend/src/controllers/user.controller.js:135-136 | after a change the account accepts exactly the trimmed new password, and its session slot is untouched |
| UserController.PaddedPasswordRefused | classroom_backend/src/controllers/user.controller.js:135-136 | a password typed with a leading blank is stored trimmed, so the typed text no longer logs in |
| UserController.AccountErrors | classroom_backend/src/models/user.model.js:5-55 | the schema's validation errors in path order; empty exactly when the trimmed name, email and password and the lower-cased, trimmed username are non-empty, `dob` is neither absent nor "", the role is valid and the avatar URL is non-empty |
| UserController.NewAccount | classroom_backend/src/controllers/user.controller.js:220-228 | an absent username fails with the `toLowerCase` TypeError. Otherwise the account is created exactly when no path fails validation, which happens exactly when name, email, password and username are non-blank, `dob` is non-empty, the role is valid and there is an avatar URL; failures carry "User validation failed: " and the path errors. The fields are trimmed, the username lower-cased, and the trimmed password hashed |
| UserModel.StoredUsernameEmptyIff | classroom_backend/src/models/user.model.js:27-34 | the `lowercase` and `trim` setters store "" exactly for a blank username |
| Text.BlankUnderLower | classroom_backend/src/models/user.model.js:27-34 | lower-casing keeps a string blank or non-blank |
| UserController.NewAccountNormalises | classroom_backend/src/controllers/user.controller.js:220-228 | a registered username is lower case and the same as if typed so; the password is checked in its trimmed form |
| UserController.RegisterUser | classroom_backend/src/controllers/user.controller.js:177-242 | 400 if a given field is blank; 409 if the username or email is taken; 400 without an avatar; a failed upload passes on the store's error as a 500. After a successful upload the request succeeds exactly when the new account is valid, and otherwise fails with its validation error. On success exactly one new account, whose profile is returned |
| UserController.UpdateAccountDetails | classroom_backend/src/controllers/user.controller.js:153-175 | both fields are required (400). Only the trimmed name and email of the caller change, and the reply is the updated profile |
| ContentTree.AddChildKeepsListed | classroom_backend/src/controllers/module.controller.js:32-34 | a new child pushed onto its parent's list keeps every list closed |
| ContentTree.AddChildKeepsLinked | classroom_backend/src/controllers/lecture.controller.js:20-30 | a new child pointing at its parent and pushed onto its list keeps the link |
| ContentTree.RemoveChildKeepsListed | classroom_backend/src/controllers/module.controller.js:198-204 | a deleted child pulled from the one list that names it keeps every list closed |
| ContentTree.RemoveChildKeepsLinked | classroom_backend/src/controllers/video.controller.js:96 | a deleted child pulled from the list of the parent it points at keeps the link |
| ContentTree.RemoveParentKeepsLinked | classroom_backend/src/controllers/lecture.controller.js:120-123 | a parent deleted together with its children keeps the link among the rest |
| ContentTree.ReplaceChildKeepsLinked | classroom_backend/src/controllers/homework.controller.js:134-152 | a child saved again with the same parent keeps the link |
| ContentTree.ReplaceParentKeepsLinked | classroom_backend/src/controllers/module.controller.js:150-160 | a parent saved again with the same list keeps the link |
| ContentTree.ChildrenListed | classroom_backend/src/controllers/module.controller.js:109 | exactly the stored children whose ids the list names |
| ContentTree.ChildrenOf | classroom_backend/src/controllers/lecture.controller.js:87 | exactly the stored children that point at the parent |
| ContentTree.LookupsAgree | classroom_backend/src/controllers/lecture.controller.js:87 | under the link, the lookup by list and the lookup by back-reference give the same documents |
| ModuleController.ModuleNameErrors | classroom_backend/src/models/module.model.js:4-9 | no error exactly for a present, non-blank name |
| ModuleController.CreateModule | classroom_backend/src/controllers/module.controller.js:8-48 | the classroom id (400), then the classroom, then the owner check and the name. On success a module with the trimmed name is pushed onto the classroom's list and lists stay closed |
| ModuleController.GetModule | classroom_backend/src/controllers/module.controller.js:50-90 | both ids (400), then the classroom and the caller on its roster, then the module |
| ModuleController.GetModuleIgnoresClassroom | classroom_backend/src/controllers/module.controller.js:69-80 | a reader of one classroom gets a module that classroom does not list |
| ModuleController.GetAllModules | classroom_backend/src/controllers/module.controller.js:92-123 | for an owner or member, exactly the modules the classroom lists |
| ModuleController.CreatedModuleIsFetched | classroom_backend/src/controllers/module.controller.js:28-34 | after a create, the classroom's modules are the previous ones plus the new one |
| ModuleController.DeletedModuleIsGone | classroom_backend/src/controllers/module.controller.js:198-204 | after a delete, the classroom's modules are the previous ones without it |
| ModuleController.UpdateModule | classroom_backend/src/controllers/module.controller.js:125-174 | ownership is checked before the name. Only the name changes (trimmed), and every module link is kept |
| ModuleController.RenameKeepsLinks | classroom_backend/src/controllers/module.controller.js:150-160 | a module saved with its lecture, note and homework lists untouched keeps all three links |
| ModuleController.DeleteModule | classroom_backend/src/controllers/module.controller.js:176-218 | owners only; the module is deleted and pulled from the classroom's list, keeping lists closed |
| LectureController.CreateLecture | classroom_backend/src/controllers/lecture.controller.js:8-43 | the name is checked before the module id, then the module. The new lecture points at the module and is pushed onto its list, keeping the link |
| LectureController.GetLecture | classroom_backend/src/controllers/lecture.controller.js:45-75 | both ids (400), then the module and the lecture; the lecture is returned |
| LectureController.GetLectureIgnoresModule | classroom_backend/src/controllers/lecture.controller.js:55-62 | a lecture is returned under any existing module, even one it does not belong to |
| LectureController.GetAllLectures | classroom_backend/src/controllers/lecture.controller.js:77-100 | exactly the lectures that point at the module |
| LectureController.AllLecturesAreListed | classroom_backend/src/controllers/lecture.controller.js:87 | under the link, those are exactly the lectures the module lists, each readable by `getLecture` |
| LectureController.VideosOutside | classroom_backend/src/controllers/lecture.controller.js:120 | exactly the videos that do not point at the lecture |
| LectureController.LectureRemovalKeepsLinks | classroom_backend/src/controllers/lecture.controller.js:120-123 | deleting a lecture with its videos keeps both links |
| LectureController.DeleteLecture | classroom_backend/src/controllers/lecture.controller.js:102-136 | the lecture and every video pointing at it are deleted, and the lecture is pulled from the module's list; both links are kept |
| VideoController.VideoErrors | classroom_backend/src/models/video.model.js:5-13 | no error exactly for a non-blank title and a non-empty file URL |
| VideoController.AddCheck | classroom_backend/src/controllers/video.controller.js:12-34 | lecture id, title, lecture and file, in that order, then the upload's failure and the schema. It succeeds exactly when all pass, with the trimmed title, the secure URL and a back-reference to the lecture |
| VideoController.SaveVideo | classroom_backend/src/controllers/video.controller.js:35-37 | the video is stored under a fresh id and only its lecture's list gains it; the link is kept |
| VideoController.AddVideo | classroom_backend/src/controllers/video.controller.js:8-51 | answers with the error `AddCheck` finds and changes nothing; otherwise the video it describes is stored under a fresh id and pushed onto the lecture's list, keeping the link |
| VideoController.GetVideos | classroom_backend/src/controllers/video.controller.js:53-76 | exactly the videos the lecture lists |
| VideoController.ListedVideosPointBack | classroom_backend/src/controllers/video.controller.js:63 | under the link, those are exactly the videos that point at the lecture |
| VideoController.VideoAssetPath | classroom_backend/src/controllers/video.controller.js:93 | the last segment of the file URL has the URL's public id |
| VideoController.VideoRemovalKeepsLinked | classroom_backend/src/controllers/video.controller.js:96 | pulling a video from a lecture that lists it and deleting it keeps the link |
| VideoController.DeleteVideo | classroom_backend/src/controllers/video.controller.js:78-110 | the video must exist and be listed by a lecture. The asset its URL names is destroyed, the video deleted and pulled from that lecture only; the link is kept |
| HomeworkController.HomeworkErrors | classroom_backend/src/models/homework.model.js:5-20 | no error exactly for a non-blank title and description and a non-empty file |
| HomeworkController.AddCheck | classroom_backend/src/controllers/homework.controller.js:12-46 | the module id, then the three fields together (400), then module, file, upload and schema. It succeeds exactly when all pass, with trimmed texts, the secure URL and a back-reference to the module |
| HomeworkController.SaveHomework | classroom_backend/src/controllers/homework.controller.js:47-49 | the homework is stored under a fresh id and only its module's list gains it; the link is kept |
| HomeworkController.AddHomework | classroom_backend/src/controllers/homework.controller.js:8-62 | answers with the error `AddCheck` finds and changes nothing; otherwise the homework it describes is stored under a fresh id and pushed onto the module's list, keeping the link |
| HomeworkController.GetHomeworks | classroom_backend/src/controllers/homework.controller.js:64-93 | exactly the homeworks that point at the module |
| HomeworkController.AllHomeworksAreListed | classroom_backend/src/controllers/homework.controller.js:74 | under the link, those are exactly the homeworks the module lists |
| HomeworkController.ReplacementFile | classroom_backend/src/controllers/homework.controller.js:134-145 | without a new file the stored one stays. With one, it is uploaded and the old asset destroyed, and the new URL is used |
| HomeworkController.UpdateCheck | classroom_backend/src/controllers/homework.controller.js:99-133 | module id, homework id, title, description, due date, then module, homework, and that the homework belongs to the module |
| HomeworkController.UpdateHomework | classroom_backend/src/controllers/homework.controller.js:95-168 | after the checks and the file step, title and description (trimmed), due date and file are overwritten; the link is kept |
| HomeworkController.HomeworkRemovalKeepsLinked | classroom_backend/src/controllers/homework.controller.js:184-192 | deleting a homework of the module it is pulled from keeps the link |
| HomeworkController.DeleteHomework | classroom_backend/src/controllers/homework.controller.js:170-206 | homework id before module id. The homework's asset is destroyed, and the homework deleted and pulled from the given module without a membership check |
| HomeworkController.HomeworkSubmission | classroom_backend/src/controllers/homework.controller.js:208-248 | the file is checked before the homework id. Exactly one submission with the uploaded URL is appended, and the link is kept |
| NoteController.NoteErrors | classroom_backend/src/models/note.model.js:5-8 | no error exactly for a non-empty file URL |
| NoteController.AddNote | classroom_backend/src/controllers/note.controller.js:8-55 | module id, module and file, in that order, then the upload. The id is pushed onto the module's list before validation, and the note is saved under it; the link is kept |
| NoteController.GetNotes | classroom_backend/src/controllers/note.controller.js:57-86 | exactly the notes that point at the module |
| NoteController.AllNotesAreListed | classroom_backend/src/controllers/note.controller.js:69 | under the link, those are exactly the notes the module lists |
| NoteController.DestroyNoteFile | classroom_backend/src/controllers/note.controller.js:110-111 | succeeds exactly when the URL's public id is non-empty and destroyed, returning the store's result |
| NoteController.NoteRemovalKeepsLinked | classroom_backend/src/controllers/note.controller.js:116-118 | deleting a note of the module it is pulled from keeps the link |
| NoteController.DeleteNote | classroom_backend/src/controllers/note.controller.js:88-132 | only "ok" or "not found" from the store is accepted; anything else gives 500 before any change. Then the note is pulled from the module and deleted |
| DoubtController.DoubtErrors | classroom_backend/src/models/doubt.model.js:5-23 | no error exactly when the description, the student and the module are all set |
| DoubtController.AddCheck | classroom_backend/src/controllers/doubt.controller.js:12-29 | lecture id, video id, description (400), then lecture and video, in that order |
| DoubtController.AddDoubtAsWritten | classroom_backend/src/controllers/doubt.controller.js:9-48 | as written: a request that passes the checks fails validation for the missing student and module |
| DoubtController.AddDoubtAsWrittenNeverSaves | classroom_backend/src/controllers/doubt.controller.js:30-35 | no request stores a doubt; one that passes the checks gets 500 "Doubt validation failed" naming the student and the module |
| DoubtController.AddDoubt | classroom_backend/src/controllers/doubt.controller.js:9-48 | as intended: after the checks, a doubt with the description, lecture, video, asking student and module is stored and added to no list; doubt lists stay closed |
| DoubtController.DoubtsUnder | classroom_backend/src/controllers/doubt.controller.js:67 | exactly the doubts with that lecture and video |
| DoubtController.DoubtsOnVideo | classroom_backend/src/controllers/doubt.controller.js:96 | exactly the doubts under that video |
| DoubtController.GetDoubts | classroom_backend/src/controllers/doubt.controller.js:50-80 | both ids (400), then lecture and video; the doubts matching both |
| DoubtController.GetAllDoubts | classroom_backend/src/controllers/doubt.controller.js:82-105 | the video id (400), then the video; the doubts matching the video only |
| DoubtController.DoubtsUnderLectureAreVideoDoubts | classroom_backend/src/controllers/doubt.controller.js:50-105 | the doubts of a lecture and video are the video's doubts filtered by lecture |
| DoubtController.AddedDoubtIsFound | classroom_backend/src/controllers/doubt.controller.js:30-35 | a doubt added under a lecture and video is what that lookup gains; other lookups are unchanged |
| DoubtController.UpdateCheck | classroom_backend/src/controllers/doubt.controller.js:110-134 | lecture id, video id, doubt id, description (400), then lecture, video and doubt |
| DoubtController.UpdateDoubts | classroom_backend/src/controllers/doubt.controller.js:107-149 | only the description changes, and no lookup gains or loses a doubt |
| DoubtController.DoubtRemovalKeepsListed | classroom_backend/src/controllers/doubt.controller.js:176-179 | pulling a doubt from the one lecture list that names it and deleting it keeps the lists closed |
| DoubtController.DeleteDoubts | classroom_backend/src/controllers/doubt.controller.js:151-193 | three ids (400), then lecture, video, doubt. The doubt is deleted and pulled from both lists, keeping lecture lists closed |

## Left out

- Persistence is modelled as in-memory maps. The following are not modelled:
  - Mongo queries beyond lookups by id, by a field and by an id list;
  - `populate`;
  - the aggregation pipelines of `getAllClassRoomUser` and `searchClassRooms`;
  - unique indexes (the duplicate checks the handlers make are modelled);
  - casting of malformed ObjectIds.
- Schema strict mode is not modelled. Several paths the handlers write,
  read or query are not declared in the schemas. Mongoose drops writes to
  them, and reading one gives `undefined`. The model keeps each of them as
  the handlers intend, as if the schema declared it:
  - `user.refreshToken`;
  - `classroom.ModuleID`;
  - `classroomOwner_Name`;
  - the `lecture` path of a video or a doubt;
  - `lecture.doubts` (the schema declares `doubt`);
  - `video.doubts`;
  - the users' `classroom` path;
  - the `classroomMembersID` and `classroomMemberIds` paths (the schema
    declares `classroomMembers`).

  As the source stands, calling `.includes`, `.push`, `.filter` or `.pull`
  on such an `undefined` path throws a TypeError, which the handlers'
  `catch` turns into a 500. This happens at these places:
  - all five roster handlers of `classroom.controller.js`, once past the
    user and owner checks (lines 256, 297, 337, 374 and 416);
  - `classroom.contoller.js` lines 191, 268 and 308;
  - `createModule` stores the module and then answers 500
    (`module.controller.js` line 33);
  - `deleteModule` deletes the module and then answers 500 (line 203);
  - `deleteDoubts` fails at `doubt.controller.js` lines 176 and 178.

  The model's handlers succeed at these places.
- `ModuleController.GetModule`: gives an owner or a member the module. The
  source tests `classroom.classroomMemberIds` (`module.controller.js` line
  69), a path the classroom schema does not declare. So every caller who is
  not an owner, members included, gets 500 "Cannot read properties of
  undefined (reading 'includes')". The model follows the evident intent:
  members may read.
- `ModuleController.GetAllModules`: gives an owner or a member the listed
  modules, as intended. At `module.controller.js` line 105 the source reads
  the same undeclared `classroomMemberIds`, with the same 500 for every
  caller who is not an owner.
- `ClassroomController.DeleteClassRoom`: pulls the classroom from every
  account's `classroomID`, as intended. The source's `updateMany` names a
  `classroom` path that the user schema does not declare.
- `RoutedClassroomController.LeaveClassRoom`: removes the classroom from
  the caller's `classroomID`, as intended. The source filters
  `user.classroom`, which the schema does not declare.
- `LectureController.DeleteLecture`: deletes the videos that point at the
  lecture. How `Video.deleteMany({ lecture })` behaves, given that the
  video schema has no `lecture` path, depends on query strictness and is
  not modelled.
- `RoutedClassroomController.DeleteClassRoom`: deletes the classroom as
  intended. The source calls `classroom.remove()`, a method that recent
  Mongoose releases no longer have.
- `Membership.HasEmail`, `UserController.MatchesIdentity`: an absent
  `email` or `username` is modelled as matching no account. The source
  passes it unchecked into `User.findOne({ email })` and into the
  `$or: [{ username }, { email }]` filter. Whether Mongoose then drops the
  key and matches any account depends on the library's query casting, which
  is not modelled. This affects the member-lookup handlers of both
  classroom controllers, `loginUser` and `registerUser`.
- `DoubtController.DeleteDoubts`: deletes the doubt once. The source calls
  `doubt.remove()` twice, a method that recent Mongoose releases no longer
  have.
- The route files, `app.js`, `index.js`, `asyncHandler.js` and cookie
  options are plumbing. The delete-doubt route declares no `videoId`
  parameter; the handler is modelled with the parameters it reads.
- `error.middleware.js`, `ApiError.js` and `error.js` are not part of this
  model. Errors are the pair (status, message).
- Not modelled:
  - `getAllClassRoomUser` and `searchClassRooms` (aggregations);
  - `getCurrentUser`, which only echoes the request's user;
  - `updateUserAvatar`, which sits outside the modelled flows;
  - `getVideo`, and the doubt replies, which are not among the modelled
    handlers.
- `controllers/user.js`, `models/user.models.js`,
  `models/register.models.js` and `controllers/note.contoller.js` form an
  unrouted older flow and are not modelled.
- No OTP or password-reset flow exists in the source. Only the OTP fields
  of the account schema exist, and they are not modelled.
- I/O is not modelled:
  - the temporary-file removal after an upload;
  - the network calls to the asset store, which are oracles (`upload`,
    `destroy`);
  - mail sending.
- Time is not modelled. Timestamps, `Date.now` in file names (a
  parameter), `dueDate` (kept as the text sent) and `submittedAt` are
  opaque. Date casting errors are not modelled.
- Concurrency is not modelled. Each handler is one atomic step; requests
  are not interleaved.
- `RoutedClassroomController.CreateClassRoom`: returns the new classroom's
  id. The source sends no response after a successful create.
- The content handlers call `Cloudinary.DeleteFromCloudinaryIntended`. The
  written wrapper's failure path is modelled separately (see Findings).
- The `if (!videoFile)` style checks on the upload reply are unreachable in
  the model: a non-empty path always yields a reply or a failure.
- `UserController.LoginUser` and `ChangeCurrentPassword`: a missing
  password reaches bcrypt, which throws "data and hash arguments required".
  The model returns that message with status 500, the status the error
  handler gives a plain `Error`.
- `UserModel.StoredUsername`, `ToLower`: lower-casing covers ASCII letters
  only.
- `Bcrypt.CompareHash`: `Bcrypt.Hash` is modelled over the whole password.
  Real bcrypt uses only the first 72 bytes of the UTF-8 encoding, so two
  passwords that agree on those bytes are both accepted. "Accepts exactly
  that password" therefore holds only for passwords of at most 72 bytes.
- `UserModel.PreSaveHashesOnce`: the stored hash accepts the assigned
  password, and only it, up to bcrypt's 72-byte truncation (see
  `Bcrypt.CompareHash`).
- `UserModel.IsPasswordCorrectIff`: exact only up to bcrypt's 72-byte
  truncation (see `Bcrypt.CompareHash`).
- `UserController.ChangedPasswordAccepted`: "exactly the trimmed new
  password" holds up to bcrypt's 72-byte truncation (see
  `Bcrypt.CompareHash`).
- `UserController.NewAccountNormalises`: the password equivalence holds up
  to bcrypt's 72-byte truncation (see `Bcrypt.CompareHash`).

## Findings

| source | as written | input that shows it | evidently intended | confidence | as-written member | corrected member |
|---|---|---|---|---|---|---|
| classroom_backend/src/controllers/classroom.controller.js:343 | the filter parameter `classroomId` shadows the route's id, so every entry is compared with itself and the target's whole `classroomID` list is emptied. As the source stands this line is not reached: line 337 reads the undeclared `classroomMembersID` and throws first | a user on the rosters of classrooms 10 and 11, removed from 10 | only classroom 10 is filtered out of the user's list. | not executed | ClassroomController.RemoveMemberBreaksMirror | ClassroomController.RemoveClassRoomMemberFixed |
| classroom_backend/src/controllers/user.controller.js:99 | the handler destructures `newRefreshToken` while the helper returns `refreshToken`, so the reply and the cookie carry `undefined` while the account stores a new token. As the source stands this line is not reached: `user.refreshToken` is never persisted (the schema does not declare it), so the test at line 91 always refuses | any successful refresh | the new refresh token is returned, set as the cookie, and refreshes next time. | not executed | UserController.UndefinedCookieCannotRefresh | UserController.RotatedTokenRefreshes |
| classroom_backend/src/controllers/classroom.contoller.js:71 | the owner array is printed and compared with the caller's printed id, which holds only for a single-owner classroom. As the source stands the input is not reached: the routed `makeClassRoomOwner` answers 400 because `req.params.id` is undefined (the next row), and past that, line 191 pushes onto the undeclared `classroomOwner_Name` and throws before `save` | a classroom after `makeClassRoomOwner` has promoted a second owner: every owner gets 403 | the caller is one of the owners | not executed | RoutedClassroomController.NoOwnerPassesAmongSeveral | RoutedClassroomController.OwnerChecksAfterPromotion |
| classroom_backend/src/controllers/classroom.contoller.js:9 | the handlers read `req.params.id`, but the routes declare `:classroomId`, so the id is always undefined | GET on `/:classroomId` for a stored classroom answers 400 "Classroom ID is required" | the handlers read `req.params.classroomId` | not executed | RoutedClassroomController.RoutedGetNeverFinds | RoutedClassroomController.DeclaredParamFinds |
| classroom_backend/src/utils/cloudinary.js:41-46 | `ApiError` is not imported, so the guard and the `catch` throw a reference error in place of the intended 400 | an empty file path | 400 "Invalid URL of cloudinary asset" | not executed | Cloudinary.DeleteGuardLosesItsError | Cloudinary.DeleteFromCloudinaryIntended |
| classroom_backend/src/controllers/doubt.controller.js:30-35 | the new doubt sets neither `student` nor `module`, both required by the schema, so `save` always fails validation | any request whose ids and description pass the checks | the doubt records the asking student and the lecture's module and is saved | not executed | DoubtController.AddDoubtAsWrittenNeverSaves | DoubtController.AddDoubt |

The routed classroom handlers keep the written owner check and the
`id: Option<Id>` parameter, because they model that file as it stands.
`Param(params, "id")` gives what the handlers read, and
`Param(params, "classroomId")` gives what they should read.

=== FILE: api_response.dfy ===
/** The uniform response envelope `{statusCode, data, message, success}`
    built by the `ApiResponse` constructor. */
module ApiResponses {
  import opened Outcome

  datatype ApiResponse<T> = ApiResponse(statusCode: int, data: T, message: string, success: bool)

  /** `new ApiResponse(statusCode, data, message)`; an omitted message
      (`undefined`) takes the default "Success". */
  function NewApiResponse<T>(statusCode: int, data: T, message: Option<string>): (r: ApiResponse<T>)
    ensures r.success <==> r.statusCode < 400
    ensures r.statusCode == statusCode && r.data == data
    ensures message.None? ==> r.message == "Success"
    ensures message.Some? ==> r.message == message.value
  {
    ApiResponse(statusCode, data, match message case Some(m) => m case None => "Success", statusCode < 400)
  }

  /** The flag is decided by the status code alone: the data and the message
      of two envelopes never make one a success and the other a failure. */
  lemma SuccessDependsOnlyOnStatus<T>(code: int, d1: T, d2: T, m1: Option<string>, m2: Option<string>)
    ensures NewApiResponse(code, d1, m1).success == NewApiResponse(code, d2, m2).success
  {
  }
}

=== FILE: auth_middleware.dfy ===
/** The access-token gate of `middlewares/auth.middleware.js`
    (`isAuthenticated`), which every classroom route passes through.  It
    reads the accounts and changes nothing; its outcome is either the 404
    answer, a thrown error, or one call of `next` with `req.user` set. */
module AuthMiddleware {
  import opened Outcome
  import opened ObjectIds
  import opened JsonWebToken
  import opened UserModel

  /** The scheme prefix of a bearer credential (section 2.1 of RFC 6750). */
  function BearerPrefix(): Wire
  {
    Chars("Bearer ")
  }

  /** `text.replace(pattern, "")` for a non-empty string pattern: the first
      occurrence removed and the text around it kept, or the text unchanged
      if there is none (`RemoveFirstAbsent`). */
  function RemoveFirst(text: Wire, pattern: Wire): (r: Wire)
    requires pattern != []
    ensures forall i :: FirstPatternAt(text, pattern, i) ==> r == text[..i] + text[i + |pattern|..]
  {
    if |text| < |pattern| then text
    else if text[..|pattern|] == pattern then
      // the occurrence at 0 is the first, so no later one can be
      assert PatternAt(text, pattern, 0);
      text[|pattern|..]
    else
      FirstPatternShifts(text, pattern);
      [text[0]] + RemoveFirst(text[1..], pattern)
  }

  /** `pattern` occurs in `text` starting at `i`. */
  predicate PatternAt(text: Wire, pattern: Wire, i: int)
  {
    0 <= i && i + |pattern| <= |text| && text[i..i + |pattern|] == pattern
  }

  /** `i` is where `pattern` first occurs in `text`. */
  predicate FirstPatternAt(text: Wire, pattern: Wire, i: int)
  {
    PatternAt(text, pattern, i) && forall k :: 0 <= k < i ==> !PatternAt(text, pattern, k)
  }

  /** When `text` does not start with `pattern`, its first occurrence is one
      place further on than in `text[1..]`. */
  lemma FirstPatternShifts(text: Wire, pattern: Wire)
    requires pattern != [] && |pattern| <= |text| && text[..|pattern|] != pattern
    ensures forall i :: FirstPatternAt(text, pattern, i) ==>
      i >= 1 && FirstPatternAt(text[1..], pattern, i - 1)
      && text[..i] == [text[0]] + text[1..][..i - 1]
      && text[i + |pattern|..] == text[1..][i - 1 + |pattern|..]
  {
    forall i | FirstPatternAt(text, pattern, i)
      ensures i >= 1 && FirstPatternAt(text[1..], pattern, i - 1)
    {
      assert i != 0;
      assert text[1..][i - 1..i - 1 + |pattern|] == text[i..i + |pattern|];
      forall k | 0 <= k < i - 1 ensures !PatternAt(text[1..], pattern, k) {
        assert !PatternAt(text, pattern, k + 1);
        assert text[1..][k..k + |pattern|] == text[k + 1..k + 1 + |pattern|];
      }
    }
  }

  /** Text without the pattern is left as it is. */
  lemma {:induction false} RemoveFirstAbsent(text: Wire, pattern: Wire)
    requires pattern != []
    requires forall i :: !PatternAt(text, pattern, i)
    ensures RemoveFirst(text, pattern) == text
  {
    if |text| >= |pattern| {
      assert !PatternAt(text, pattern, 0);
      forall i ensures !PatternAt(text[1..], pattern, i) {
        if PatternAt(text[1..], pattern, i) {
          assert text[1..][i..i + |pattern|] == text[i + 1..i + 1 + |pattern|];
          assert PatternAt(text, pattern, i + 1);
        }
      }
      RemoveFirstAbsent(text[1..], pattern);
      assert text == [text[0]] + text[1..];
    }
  }

  /** A token sent as "Bearer <token>" comes out as the token itself. */
  lemma BearerRoundTrip(token: Wire)
    ensures RemoveFirst(BearerPrefix() + token, BearerPrefix()) == token
  {
    var p := BearerPrefix();
    assert (p + token)[..|p|] == p;
    assert (p + token)[|p|..] == token;
  }

  /** `req.cookies?.accessToken || req.header("Authorization")?.replace("Bearer ", "")`:
      a non-empty cookie wins; otherwise the header with its first
      "Bearer " removed; `None` when both are absent. */
  function ExtractToken(cookie: Option<Wire>, authorization: Option<Wire>): (token: Option<Wire>)
    ensures cookie.Some? && cookie.value != [] ==> token == cookie
    ensures (cookie.None? || cookie.value == []) && authorization.None? ==> token.None?
    ensures (cookie.None? || cookie.value == []) && authorization.Some? ==>
      token == Some(RemoveFirst(authorization.value, BearerPrefix()))
  {
    if cookie.Some? && cookie.value != [] then cookie
    else if authorization.Some? then Some(RemoveFirst(authorization.value, BearerPrefix()))
    else None
  }

  /** How the gate ends: the JSON answer 404 `{ success: false, message:
      "Login First" }` without calling `next`; a thrown error; or `next()`
      called once with `req.user` set to the account's profile. */
  datatype GateOutcome = LoginFirst | Thrown(error: ApiError) | Next(user: Profile)

  /** `isAuthenticated`, given the accounts, the request's cookie and header,
      the access secret and the current time. */
  function IsAuthenticated(users: map<Id, Account>, cookie: Option<Wire>, authorization: Option<Wire>,
                           accessSecret: string, now: int): (r: GateOutcome)
    ensures var token := ExtractToken(cookie, authorization);
      (r == LoginFirst <==> token.None? || token.value == [])
      && (r.Next? <==> token.Some? && Verify(token.value, accessSecret, now).Decoded?
                       && Verify(token.value, accessSecret, now).claims.Subject() in users)
      && (r.Next? ==> r.user == ProfileOf(Verify(token.value, accessSecret, now).claims.Subject(),
                                          users[Verify(token.value, accessSecret, now).claims.Subject()]))
      && (r.Thrown? ==> r.error.status == 401)
      && (token.Some? && token.value != [] && Verify(token.value, accessSecret, now).Rejected? ==>
            r == Thrown(ApiError(401, Verify(token.value, accessSecret, now).message)))
      && (token.Some? && token.value != [] && Verify(token.value, accessSecret, now).Decoded?
          && Verify(token.value, accessSecret, now).claims.Subject() !in users ==>
            r == Thrown(ApiError(401, "Invalid Access Token")))
  {
    var token := ExtractToken(cookie, authorization);
    if token.None? || token.value == [] then LoginFirst
    else
      match Verify(token.value, accessSecret, now)
      case Rejected(message) =>
        // thrown by jwt.verify inside the try; the catch keeps the message
        Thrown(ApiError(401, if message == "" then "Invalid access token" else message))
      case Decoded(claims) =>
        if claims.Subject() !in users then
          // the 401 thrown inside the try passes the catch with its message
          Thrown(ApiError(401, "Invalid Access Token"))
        else Next(ProfileOf(claims.Subject(), users[claims.Subject()]))
  }

  /** A client that logged in and sends its access token, as cookie or as
      bearer header, passes the gate as itself while the token is fresh and
      the account exists. */
  lemma FreshTokenPasses(users: map<Id, Account>, id: Id, secret: string, issued: int, ttl: int, now: int, viaCookie: bool)
    requires id in users && now < issued + ttl
    ensures var token := GenerateAccessToken(id, users[id], secret, issued, ttl);
      IsAuthenticated(users, if viaCookie then Some(token) else None,
                      if viaCookie then None else Some(BearerPrefix() + token), secret, now)
        == Next(ProfileOf(id, users[id]))
  {
    var token := GenerateAccessToken(id, users[id], secret, issued, ttl);
    BearerRoundTrip(token);
  }

  /** A refresh token is not an access token: with distinct secrets it is
      turned away with 401 "invalid signature". */
  lemma RefreshTokenRefused(users: map<Id, Account>, id: Id, accessSecret: string, refreshSecret: string,
                            issued: int, ttl: int, now: int)
    requires accessSecret != refreshSecret
    ensures IsAuthenticated(users, Some(GenerateRefreshToken(id, refreshSecret, issued, ttl)), None, accessSecret, now)
      == Thrown(ApiError(401, "invalid signature"))
  {
  }
}

=== FILE: bcrypt.dfy ===
/** Password hashing through the `bcrypt` package, as an abstract oracle:
    hashing is injective and `compare` accepts exactly the password that was
    hashed.  Salts and cost factors are not modelled. */
module Bcrypt {

  /** A stored password hash. */
  datatype Digest = Digest(hashed: string)

  /** `bcrypt.hash(plain, 10)`. */
  function Hash(plain: string): Digest
  {
    Digest(plain)
  }

  /** `bcrypt.compare(plain, digest)`. */
  predicate Compare(plain: string, digest: Digest)
  {
    digest == Hash(plain)
  }

  /** A hash matches one password only: the one it was made from. */
  lemma CompareHash(plain: string, other: string)
    ensures Compare(other, Hash(plain)) <==> other == plain
  {
  }
}

=== FILE: classroom_controller.dfy ===
/** The classroom handlers of `controllers/classroom.controller.js`: create,
    delete, update, and the roster operations add, promote, remove, leave
    and join.  The caller is the account the access-token gate resolved.
    Errors raised inside each handler's `try` are rethrown by its `catch`
    as 500 with the same message (see `Outcome.Rethrown`); the contracts
    state the status that reaches the client. */
module ClassroomController {
  import opened Outcome
  import opened Text
  import opened ObjectIds
  import opened Bcrypt
  import opened UserModel
  import opened Store
  import opened Membership

  /** `!field || field.trim() === ""` */
  predicate Missing(field: Option<string>)
  {
    field.None? || Blank(field.value)
  }

  /** `/\s/.test(s)` */
  predicate HasSpace(s: string)
  {
    exists i :: 0 <= i < |s| && IsSpace(s[i])
  }

  /** What a creatable classroom's input is: a name and a description that
      are not blank, a description of at least twenty words, and a code of
      exactly seven UTF-16 code units (JavaScript's `length`) none of which
      is white space. */
  predicate ValidCreateInput(name: Option<string>, desc: Option<string>, code: Option<string>)
  {
    !Missing(name) && !Missing(desc) && Runs(Trim(desc.value), false) >= 20
    && code.Some? && Utf16Length(code.value) == 7 && !HasSpace(code.value)
  }

  /** The input checks of `createClassRoom`, in order; the first that fails
      gives its 400. */
  function CreateInputCheck(name: Option<string>, desc: Option<string>, code: Option<string>): (r: Option<ApiError>)
    ensures r.None? <==> ValidCreateInput(name, desc, code)
    ensures Missing(name) ==> r == Some(ApiError(400, "Classroom name is required"))
    ensures !Missing(name) && Missing(desc) ==> r == Some(ApiError(400, "Classroom description is required"))
    ensures !Missing(name) && !Missing(desc) && Runs(Trim(desc.value), false) < 20 ==>
      r == Some(ApiError(400, "Classroom description must be at least 20 words"))
    ensures !Missing(name) && !Missing(desc) && Runs(Trim(desc.value), false) >= 20 && Missing(code) ==>
      r == Some(ApiError(400, "Classroom code is required"))
    ensures !Missing(name) && !Missing(desc) && Runs(Trim(desc.value), false) >= 20 && !Missing(code)
            && (Utf16Length(code.value) != 7 || HasSpace(code.value)) ==>
      r == Some(ApiError(400, "Classroom code must be exactly 7 characters long and contain no spaces"))
  {
    if Missing(name) then Some(ApiError(400, "Classroom name is required"))
    else if Missing(desc) then Some(ApiError(400, "Classroom description is required"))
    else
      WordCountCountsWords(desc.value);
      if WordCount(desc.value) < 20 then Some(ApiError(400, "Classroom description must be at least 20 words"))
      else if Missing(code) then
        ValidCodeNotBlank(code);
        Some(ApiError(400, "Classroom code is required"))
      else if Utf16Length(code.value) != 7 || HasSpace(code.value) then
        Some(ApiError(400, "Classroom code must be exactly 7 characters long and contain no spaces"))
      else None
  }

  /** A code of seven code units without white space is never blank, so
      the "required" check on the code is implied by the length-and-space
      check. */
  lemma ValidCodeNotBlank(code: Option<string>)
    ensures code.Some? && Utf16Length(code.value) == 7 && !HasSpace(code.value) ==> !Missing(code)
  {
    if code.Some? && Utf16Length(code.value) == 7 && !HasSpace(code.value) {
      assert !IsSpace(code.value[0]);
    }
  }

  /** The checks of `createClassRoom`, in order: the input checks (400),
      then, inside the `try`, the teacher check (403) and the name and code
      uniqueness checks (400), the last three reaching the client as 500. */
  function CreateCheck(users: map<Id, Account>, classrooms: map<Id, Classroom>, caller: Id,
                       name: Option<string>, desc: Option<string>, code: Option<string>): (r: Option<ApiError>)
    requires caller in users
    ensures CreateInputCheck(name, desc, code).Some? ==> r == CreateInputCheck(name, desc, code)
    ensures ValidCreateInput(name, desc, code) && users[caller].role != Teacher ==>
      r == Some(ApiError(500, "You are not authorized to create a classroom"))
    ensures ValidCreateInput(name, desc, code) && users[caller].role == Teacher
            && NameTaken(classrooms, Trim(name.value)) ==>
      r == Some(ApiError(500, "Classroom name already exists"))
    ensures ValidCreateInput(name, desc, code) && users[caller].role == Teacher
            && !NameTaken(classrooms, Trim(name.value)) && CodeTaken(classrooms, code.value) ==>
      r == Some(ApiError(500, "Classroom code already exists"))
    ensures r.None? <==> (ValidCreateInput(name, desc, code) && users[caller].role == Teacher
                          && !NameTaken(classrooms, Trim(name.value)) && !CodeTaken(classrooms, code.value))
  {
    var check := CreateInputCheck(name, desc, code);
    if check.Some? then check
    else if users[caller].role != Teacher then Some(Rethrown(ApiError(403, "You are not authorized to create a classroom"), ""))
    else if NameTaken(classrooms, Trim(name.value)) then Some(Rethrown(ApiError(400, "Classroom name already exists"), ""))
    else if CodeTaken(classrooms, code.value) then Some(Rethrown(ApiError(400, "Classroom code already exists"), ""))
    else None
  }

  /** `createClassRoom` by the authenticated caller: once the checks pass,
      the new classroom has the caller as its only owner and no members, and
      its id is pushed onto the caller's list. */
  method CreateClassRoom(db: Database, caller: Id, name: Option<string>, desc: Option<string>, code: Option<string>)
    returns (r: Result<Id>)
    requires db.Valid() && caller in db.users
    modifies db`classrooms, db`users, db`nextId
    ensures db.Valid()
    ensures CreateCheck(old(db.users), old(db.classrooms), caller, name, desc, code).Some? ==>
      r == Err(CreateCheck(old(db.users), old(db.classrooms), caller, name, desc, code).value)
      && db.users == old(db.users) && db.classrooms == old(db.classrooms)
    ensures CreateCheck(old(db.users), old(db.classrooms), caller, name, desc, code).None? ==>
      r.Ok? && r.value !in old(db.classrooms)
      && db.classrooms == old(db.classrooms)[r.value := Classroom(Trim(name.value), desc.value, code.value, [caller], [], [], [])]
      && db.users == old(db.users)[caller := Enrolled(old(db.users)[caller], r.value)]
    ensures r.Ok? && Mirrored(old(db.users), old(db.classrooms)) ==> Mirrored(db.users, db.classrooms)
  {
    var check := CreateCheck(db.users, db.classrooms, caller, name, desc, code);
    if check.Some? {
      return Err(check.value);
    }
    var room := Classroom(Trim(name.value), desc.value, code.value, [caller], [], [], []);
    var id := db.InsertClassroom(room);
    db.SaveUser(caller, Enrolled(db.users[caller], id));
    if Mirrored(old(db.users), old(db.classrooms)) {
      CreateKeepsMirror(old(db.users), old(db.classrooms), id, room, caller);
    }
    r := Ok(id);
  }

  /** `deleteClassRoom`: owners only; the classroom is deleted and pulled
      from every user's list. */
  method DeleteClassRoom(db: Database, caller: Id, classroomId: Id) returns (r: Result<string>)
    modifies db`users, db`classrooms
    ensures r.Err? ==> db.users == old(db.users) && db.classrooms == old(db.classrooms)
    ensures classroomId !in old(db.classrooms) ==> r == Err(ApiError(500, "Classroom not found"))
    ensures classroomId in old(db.classrooms) && caller !in old(db.classrooms)[classroomId].ownerIds ==>
      r == Err(ApiError(500, "You are not authorized to remove members from this classroom"))
    ensures r.Ok? <==> classroomId in old(db.classrooms) && caller in old(db.classrooms)[classroomId].ownerIds
    ensures r.Ok? ==>
      r.value == "Classroom deleted successfully"
      && db.classrooms == old(db.classrooms) - {classroomId}
      && db.users == PulledEverywhere(old(db.users), classroomId)
    ensures r.Ok? && Mirrored(old(db.users), old(db.classrooms)) ==> Mirrored(db.users, db.classrooms)
    ensures old(db.Valid()) ==> db.Valid()
  {
    if classroomId !in db.classrooms {
      return Err(Rethrown(ApiError(404, "Classroom not found"), ""));
    }
    if caller !in db.classrooms[classroomId].ownerIds {
      return Err(Rethrown(ApiError(403, "You are not authorized to remove members from this classroom"), ""));
    }
    ghost var users0, classrooms0 := db.users, db.classrooms;
    db.users := PulledEverywhere(db.users, classroomId);
    db.classrooms := db.classrooms - {classroomId};
    if Mirrored(users0, classrooms0) {
      DeleteKeepsMirror(users0, classrooms0, classroomId);
    }
    assert db.AllIds() <= old(db.AllIds());
    r := Ok("Classroom deleted successfully");
  }

  /** `updateClassRoom`: both fields required (400), then owners only.  The
      name passes the `trim` setter, and an all-blank name then fails the
      schema's `required` validator on save. */
  method UpdateClassRoom(db: Database, caller: Id, classroomId: Id, name: Option<string>, desc: Option<string>)
    returns (r: Result<Classroom>)
    modifies db`classrooms
    ensures r.Err? ==> db.classrooms == old(db.classrooms)
    ensures Falsy(name) || Falsy(desc) ==> r == Err(ApiError(400, "All fields are required"))
    ensures !Falsy(name) && !Falsy(desc) && classroomId !in old(db.classrooms) ==>
      r == Err(ApiError(500, "Classroom not found"))
    ensures !Falsy(name) && !Falsy(desc) && classroomId in old(db.classrooms)
            && caller !in old(db.classrooms)[classroomId].ownerIds ==>
      r == Err(ApiError(500, "You are not authorized to remove members from this classroom"))
    ensures !Falsy(name) && !Falsy(desc) && classroomId in old(db.classrooms)
            && caller in old(db.classrooms)[classroomId].ownerIds && Blank(name.value) ==>
      r == Err(ApiError(500, "Classroom validation failed: classroomName: Please enter classroom name"))
    ensures r.Ok? <==> (!Falsy(name) && !Falsy(desc) && classroomId in old(db.classrooms)
                        && caller in old(db.classrooms)[classroomId].ownerIds && !Blank(name.value))
    ensures r.Ok? ==>
      db.classrooms == old(db.classrooms)[classroomId := old(db.classrooms)[classroomId].(name := Trim(name.value), desc := desc.value)]
      && r.value == db.classrooms[classroomId]
  {
    if Falsy(name) || Falsy(desc) {
      return Err(ApiError(400, "All fields are required"));
    }
    if classroomId !in db.classrooms {
      return Err(Rethrown(ApiError(404, "Classroom not found"), ""));
    }
    if caller !in db.classrooms[classroomId].ownerIds {
      return Err(Rethrown(ApiError(403, "You are not authorized to remove members from this classroom"), ""));
    }
    if Blank(name.value) {
      return Err(Rethrown(ApiError(400, "Classroom validation failed: classroomName: Please enter classroom name"), ""));
    }
    var room := db.classrooms[classroomId].(name := Trim(name.value), desc := desc.value);
    db.SaveClassroom(classroomId, room);
    r := Ok(room);
  }

  /** `addClassRoomMember`: the target, found by email, is pushed onto the
      members and the classroom onto the target's list. */
  method AddClassRoomMember(db: Database, caller: Id, classroomId: Id, email: Option<string>)
    returns (r: Result<MemberChange>)
    modifies db`users, db`classrooms
    ensures r.Err? ==> db.users == old(db.users) && db.classrooms == old(db.classrooms)
    ensures classroomId !in old(db.classrooms) ==> r == Err(ApiError(500, "Classroom not found"))
    ensures classroomId in old(db.classrooms) && !EmailKnown(old(db.users), email) ==>
      r == Err(ApiError(500, "User not found"))
    ensures classroomId in old(db.classrooms) && EmailKnown(old(db.users), email)
            && caller !in old(db.classrooms)[classroomId].ownerIds ==>
      r == Err(ApiError(500, "You are not authorized to add members from this classroom"))
    ensures classroomId in old(db.classrooms) && EmailKnown(old(db.users), email)
            && caller in old(db.classrooms)[classroomId].ownerIds
            && (forall u :: u in old(db.users) && HasEmail(old(db.users)[u], email) ==> u in old(db.classrooms)[classroomId].memberIds) ==>
      r == Err(ApiError(500, "User is already a member of this classroom"))
    ensures classroomId in old(db.classrooms) && EmailKnown(old(db.users), email)
            && caller in old(db.classrooms)[classroomId].ownerIds
            && (forall u :: u in old(db.users) && HasEmail(old(db.users)[u], email) ==> u !in old(db.classrooms)[classroomId].memberIds) ==>
      r.Ok?
    ensures r.Ok? ==>
      var t := r.value.target;
      classroomId in old(db.classrooms) && caller in old(db.classrooms)[classroomId].ownerIds
      && t in old(db.users) && HasEmail(old(db.users)[t], email) && t !in old(db.classrooms)[classroomId].memberIds
      && db.users == old(db.users)[t := Enrolled(old(db.users)[t], classroomId)]
      && db.classrooms == old(db.classrooms)[classroomId := WithMember(old(db.classrooms)[classroomId], t)]
      && r.value.classroom == db.classrooms[classroomId]
    ensures r.Ok? && Mirrored(old(db.users), old(db.classrooms)) ==> Mirrored(db.users, db.classrooms)
    ensures old(db.Valid()) ==> db.Valid()
  {
    if classroomId !in db.classrooms {
      return Err(Rethrown(ApiError(404, "Classroom not found"), ""));
    }
    if !EmailKnown(db.users, email) {
      return Err(Rethrown(ApiError(404, "User not found"), ""));
    }
    var t :| t in db.users && HasEmail(db.users[t], email);
    if caller !in db.classrooms[classroomId].ownerIds {
      return Err(Rethrown(ApiError(403, "You are not authorized to add members from this classroom"), ""));
    }
    if t in db.classrooms[classroomId].memberIds {
      return Err(Rethrown(ApiError(400, "User is already a member of this classroom"), ""));
    }
    ghost var users0, classrooms0 := db.users, db.classrooms;
    db.SaveUser(t, Enrolled(db.users[t], classroomId));
    db.SaveClassroom(classroomId, WithMember(db.classrooms[classroomId], t));
    if Mirrored(users0, classrooms0) {
      JoinKeepsMirror(users0, classrooms0, classroomId, t);
    }
    r := Ok(MemberChange(t, db.classrooms[classroomId]));
  }

  /** `makeClassRoomOwner`: a member becomes an owner and leaves the member
      list; the user's list is untouched, as the user stays on the roster. */
  method MakeClassRoomOwner(db: Database, caller: Id, classroomId: Id, email: Option<string>)
    returns (r: Result<MemberChange>)
    modifies db`classrooms
    ensures r.Err? ==> db.classrooms == old(db.classrooms)
    ensures classroomId !in old(db.classrooms) ==> r == Err(ApiError(500, "Classroom not found"))
    ensures classroomId in old(db.classrooms) && !EmailKnown(db.users, email) ==>
      r == Err(ApiError(500, "User not found"))
    ensures classroomId in old(db.classrooms) && EmailKnown(db.users, email)
            && caller !in old(db.classrooms)[classroomId].ownerIds ==>
      r == Err(ApiError(500, "You are not authorized to remove members from this classroom"))
    ensures classroomId in old(db.classrooms) && EmailKnown(db.users, email)
            && caller in old(db.classrooms)[classroomId].ownerIds
            && (forall u :: u in db.users && HasEmail(db.users[u], email) ==> u !in old(db.classrooms)[classroomId].memberIds) ==>
      r == Err(ApiError(500, "User is not a member of this classroom"))
    ensures classroomId in old(db.classrooms) && EmailKnown(db.users, email)
            && caller in old(db.classrooms)[classroomId].ownerIds
            && (forall u :: u in db.users && HasEmail(db.users[u], email) ==> u in old(db.classrooms)[classroomId].memberIds) ==>
      r.Ok?
    ensures r.Ok? ==>
      var t := r.value.target;
      classroomId in old(db.classrooms) && caller in old(db.classrooms)[classroomId].ownerIds
      && t in db.users && HasEmail(db.users[t], email) && t in old(db.classrooms)[classroomId].memberIds
      && db.classrooms == old(db.classrooms)[classroomId := Promoted(old(db.classrooms)[classroomId], t)]
      && t in db.classrooms[classroomId].ownerIds && t !in db.classrooms[classroomId].memberIds
      && r.value.classroom == db.classrooms[classroomId]
    ensures r.Ok? && Mirrored(db.users, old(db.classrooms)) ==> Mirrored(db.users, db.classrooms)
    ensures old(db.Valid()) ==> db.Valid()
  {
    if classroomId !in db.classrooms {
      return Err(Rethrown(ApiError(404, "Classroom not found"), ""));
    }
    if !EmailKnown(db.users, email) {
      return Err(Rethrown(ApiError(404, "User not found"), ""));
    }
    var t :| t in db.users && HasEmail(db.users[t], email);
    if caller !in db.classrooms[classroomId].ownerIds {
      return Err(Rethrown(ApiError(403, "You are not authorized to remove members from this classroom"), ""));
    }
    if t !in db.classrooms[classroomId].memberIds {
      return Err(Rethrown(ApiError(400, "User is not a member of this classroom"), ""));
    }
    ghost var classrooms0 := db.classrooms;
    db.SaveClassroom(classroomId, Promoted(db.classrooms[classroomId], t));
    if Mirrored(db.users, classrooms0) {
      PromoteKeepsMirror(db.users, classrooms0, classroomId, t);
    }
    r := Ok(MemberChange(t, db.classrooms[classroomId]));
  }

  /** The user-side filter of `removeClassRoomMember` as written: the arrow
      parameter `classroomId` shadows the route's `classroomId`, so every
      entry is compared with itself and none survives. */
  function ShadowedFilter(xs: seq<Id>): (r: seq<Id>)
    ensures r == []
  {
    if xs == [] then []
    else
      var x := xs[0];
      (if IdText(x) != IdText(x) then [x] else []) + ShadowedFilter(xs[1..])
  }

  /** The checks shared by both versions of `removeClassRoomMember`. */
  function RemoveCheck(users: map<Id, Account>, classrooms: map<Id, Classroom>, caller: Id, classroomId: Id,
                       email: Option<string>): (r: Option<ApiError>)
    ensures classroomId !in classrooms ==> r == Some(ApiError(500, "Classroom not found"))
    ensures classroomId in classrooms && !EmailKnown(users, email) ==> r == Some(ApiError(500, "User not found"))
    ensures classroomId in classrooms && EmailKnown(users, email) && caller !in classrooms[classroomId].ownerIds ==>
      r == Some(ApiError(500, "You are not authorized to remove members from this classroom"))
    ensures r.None? <==> classroomId in classrooms && EmailKnown(users, email) && caller in classrooms[classroomId].ownerIds
  {
    if classroomId !in classrooms then Some(Rethrown(ApiError(404, "Classroom not found"), ""))
    else if !EmailKnown(users, email) then Some(Rethrown(ApiError(404, "User not found"), ""))
    else if caller !in classrooms[classroomId].ownerIds then
      Some(Rethrown(ApiError(403, "You are not authorized to remove members from this classroom"), ""))
    else None
  }

  /** `removeClassRoomMember` as written: the target leaves the member list,
      and the shadowed filter empties the target's whole classroom list. */
  method RemoveClassRoomMember(db: Database, caller: Id, classroomId: Id, email: Option<string>)
    returns (r: Result<MemberChange>)
    modifies db`users, db`classrooms
    ensures r.Err? ==> db.users == old(db.users) && db.classrooms == old(db.classrooms)
    ensures RemoveCheck(old(db.users), old(db.classrooms), caller, classroomId, email).Some? ==>
      r == Err(RemoveCheck(old(db.users), old(db.classrooms), caller, classroomId, email).value)
    ensures RemoveCheck(old(db.users), old(db.classrooms), caller, classroomId, email).None?
            && (forall u :: u in old(db.users) && HasEmail(old(db.users)[u], email) ==> u !in old(db.classrooms)[classroomId].memberIds) ==>
      r == Err(ApiError(500, "User is not a member of this classroom"))
    ensures RemoveCheck(old(db.users), old(db.classrooms), caller, classroomId, email).None?
            && (forall u :: u in old(db.users) && HasEmail(old(db.users)[u], email) ==> u in old(db.classrooms)[classroomId].memberIds) ==>
      r.Ok?
    ensures r.Ok? ==>
      var t := r.value.target;
      RemoveCheck(old(db.users), old(db.classrooms), caller, classroomId, email).None?
      && t in old(db.users) && HasEmail(old(db.users)[t], email) && t in old(db.classrooms)[classroomId].memberIds
      && db.classrooms == old(db.classrooms)[classroomId := WithoutMember(old(db.classrooms)[classroomId], t)]
      && db.users == old(db.users)[t := old(db.users)[t].(classroomIds := ShadowedFilter(old(db.users)[t].classroomIds))]
      && db.users[t].classroomIds == []
      && r.value.classroom == db.classrooms[classroomId]
  {
    var check := RemoveCheck(db.users, db.classrooms, caller, classroomId, email);
    if check.Some? {
      return Err(check.value);
    }
    var t :| t in db.users && HasEmail(db.users[t], email);
    if t !in db.classrooms[classroomId].memberIds {
      return Err(Rethrown(ApiError(400, "User is not a member of this classroom"), ""));
    }
    db.SaveClassroom(classroomId, WithoutMember(db.classrooms[classroomId], t));
    db.SaveUser(t, db.users[t].(classroomIds := ShadowedFilter(db.users[t].classroomIds)));
    r := Ok(MemberChange(t, db.classrooms[classroomId]));
  }

  /** A member of two classrooms removed from one of them by the as-written
      handler is left on the other's roster with an empty classroom list. */
  lemma RemoveMemberBreaksMirror()
    ensures var account := Account("Ada", "ada@example.org", "ada", Hash("pw"), Student, "a.png", [10, 11], None);
      var room := Classroom("Room", "desc", "ABCDEFG", [2], [1], [], []);
      var users := map[1 := account];
      var classrooms := map[10 := room, 11 := room];
      Mirrored(users, classrooms)
      && !Mirrored(users[1 := account.(classroomIds := ShadowedFilter(account.classroomIds))],
                   classrooms[10 := WithoutMember(room, 1)])
  {
    var account := Account("Ada", "ada@example.org", "ada", Hash("pw"), Student, "a.png", [10, 11], None);
    var room := Classroom("Room", "desc", "ABCDEFG", [2], [1], [], []);
    var users' := map[1 := account][1 := account.(classroomIds := ShadowedFilter(account.classroomIds))];
    var classrooms' := map[10 := room, 11 := room][10 := WithoutMember(room, 1)];
    assert InRoster(classrooms'[11], 1) && 11 !in users'[1].classroomIds;
  }

  /** `removeClassRoomMember` as evidently intended: only this classroom
      is filtered out of the target's list. */
  method RemoveClassRoomMemberFixed(db: Database, caller: Id, classroomId: Id, email: Option<string>)
    returns (r: Result<MemberChange>)
    modifies db`users, db`classrooms
    ensures r.Err? ==> db.users == old(db.users) && db.classrooms == old(db.classrooms)
    ensures RemoveCheck(old(db.users), old(db.classrooms), caller, classroomId, email).Some? ==>
      r == Err(RemoveCheck(old(db.users), old(db.classrooms), caller, classroomId, email).value)
    ensures RemoveCheck(old(db.users), old(db.classrooms), caller, classroomId, email).None?
            && (forall u :: u in old(db.users) && HasEmail(old(db.users)[u], email) ==> u !in old(db.classrooms)[classroomId].memberIds) ==>
      r == Err(ApiError(500, "User is not a member of this classroom"))
    ensures RemoveCheck(old(db.users), old(db.classrooms), caller, classroomId, email).None?
            && (forall u :: u in old(db.users) && HasEmail(old(db.users)[u], email) ==> u in old(db.classrooms)[classroomId].memberIds) ==>
      r.Ok?
    ensures r.Ok? ==>
      var t := r.value.target;
      RemoveCheck(old(db.users), old(db.classrooms), caller, classroomId, email).None?
      && t in old(db.users) && HasEmail(old(db.users)[t], email) && t in old(db.classrooms)[classroomId].memberIds
      && db.classrooms == old(db.classrooms)[classroomId := WithoutMember(old(db.classrooms)[classroomId], t)]
      && db.users == old(db.users)[t := Forget(old(db.users)[t], classroomId)]
      && r.value.classroom == db.classrooms[classroomId]
    ensures r.Ok? && Mirrored(old(db.users), old(db.classrooms))
              && r.value.target !in old(db.classrooms)[classroomId].ownerIds ==>
            Mirrored(db.users, db.classrooms)
    ensures old(db.Valid()) ==> db.Valid()
  {
    var check := RemoveCheck(db.users, db.classrooms, caller, classroomId, email);
    if check.Some? {
      return Err(check.value);
    }
    var t :| t in db.users && HasEmail(db.users[t], email);
    if t !in db.classrooms[classroomId].memberIds {
      return Err(Rethrown(ApiError(400, "User is not a member of this classroom"), ""));
    }
    ghost var users0, classrooms0 := db.users, db.classrooms;
    db.SaveClassroom(classroomId, WithoutMember(db.classrooms[classroomId], t));
    db.SaveUser(t, Forget(db.users[t], classroomId));
    if Mirrored(users0, classrooms0) && t !in classrooms0[classroomId].ownerIds {
      RemoveKeepsMirror(users0, classrooms0, classroomId, t);
    }
    r := Ok(MemberChange(t, db.classrooms[classroomId]));
  }

  /** `leaveClassRoom` by the authenticated caller: a member or owner is
      filtered out of both lists, and the classroom out of the caller's list. */
  method LeaveClassRoom(db: Database, caller: Id, classroomId: Id) returns (r: Result<Classroom>)
    modifies db`users, db`classrooms
    ensures r.Err? ==> db.users == old(db.users) && db.classrooms == old(db.classrooms)
    ensures classroomId !in old(db.classrooms) ==> r == Err(ApiError(500, "Classroom not found"))
    ensures classroomId in old(db.classrooms) && caller !in old(db.users) ==> r == Err(ApiError(500, "User not found"))
    ensures classroomId in old(db.classrooms) && caller in old(db.users) && !InRoster(old(db.classrooms)[classroomId], caller) ==>
      r == Err(ApiError(500, "You are not a member or owner of this classroom"))
    ensures r.Ok? <==> classroomId in old(db.classrooms) && caller in old(db.users) && InRoster(old(db.classrooms)[classroomId], caller)
    ensures r.Ok? ==>
      db.classrooms == old(db.classrooms)[classroomId := Departed(old(db.classrooms)[classroomId], caller)]
      && db.users == old(db.users)[caller := Forget(old(db.users)[caller], classroomId)]
      && !InRoster(db.classrooms[classroomId], caller) && classroomId !in db.users[caller].classroomIds
      && r.value == db.classrooms[classroomId]
    ensures r.Ok? && Mirrored(old(db.users), old(db.classrooms)) ==> Mirrored(db.users, db.classrooms)
    ensures old(db.Valid()) ==> db.Valid()
  {
    if classroomId !in db.classrooms {
      return Err(Rethrown(ApiError(404, "Classroom not found"), ""));
    }
    if caller !in db.users {
      return Err(Rethrown(ApiError(404, "User not found"), ""));
    }
    if !InRoster(db.classrooms[classroomId], caller) {
      return Err(Rethrown(ApiError(400, "You are not a member or owner of this classroom"), ""));
    }
    ghost var users0, classrooms0 := db.users, db.classrooms;
    db.SaveClassroom(classroomId, Departed(db.classrooms[classroomId], caller));
    db.SaveUser(caller, Forget(db.users[caller], classroomId));
    if Mirrored(users0, classrooms0) {
      LeaveKeepsMirror(users0, classrooms0, classroomId, caller);
    }
    r := Ok(db.classrooms[classroomId]);
  }

  /** `joinClassRoom` by the authenticated caller, with the classroom found
      by its code: a caller not yet on the roster is pushed onto the members
      and the classroom onto the caller's list. */
  method JoinClassRoom(db: Database, caller: Id, code: Option<string>) returns (r: Result<Id>)
    modifies db`users, db`classrooms
    ensures r.Err? ==> db.users == old(db.users) && db.classrooms == old(db.classrooms)
    ensures Falsy(code) ==> r == Err(ApiError(400, "Classroom code is required"))
    ensures !Falsy(code) && !CodeTaken(old(db.classrooms), code.value) ==> r == Err(ApiError(500, "Classroom not found"))
    ensures !Falsy(code) && CodeTaken(old(db.classrooms), code.value) && caller !in old(db.users) ==>
      r == Err(ApiError(500, "User not found"))
    ensures !Falsy(code) && CodeTaken(old(db.classrooms), code.value) && caller in old(db.users)
            && (forall c :: c in old(db.classrooms) && old(db.classrooms)[c].code == code.value ==> InRoster(old(db.classrooms)[c], caller)) ==>
      r == Err(ApiError(500, "You are already a member of this classroom"))
    ensures !Falsy(code) && CodeTaken(old(db.classrooms), code.value) && caller in old(db.users)
            && (forall c :: c in old(db.classrooms) && old(db.classrooms)[c].code == code.value ==> !InRoster(old(db.classrooms)[c], caller)) ==>
      r.Ok?
    ensures r.Ok? ==>
      var c := r.value;
      !Falsy(code) && c in old(db.classrooms) && old(db.classrooms)[c].code == code.value
      && caller in old(db.users) && !InRoster(old(db.classrooms)[c], caller)
      && db.classrooms == old(db.classrooms)[c := WithMember(old(db.classrooms)[c], caller)]
      && db.users == old(db.users)[caller := Enrolled(old(db.users)[caller], c)]
    ensures r.Ok? && Mirrored(old(db.users), old(db.classrooms)) ==> Mirrored(db.users, db.classrooms)
    ensures old(db.Valid()) ==> db.Valid()
  {
    if Falsy(code) {
      return Err(ApiError(400, "Classroom code is required"));
    }
    if !CodeTaken(db.classrooms, code.value) {
      return Err(Rethrown(ApiError(404, "Classroom not found"), ""));
    }
    var c :| c in db.classrooms && db.classrooms[c].code == code.value;
    if caller !in db.users {
      return Err(Rethrown(ApiError(404, "User not found"), ""));
    }
    if InRoster(db.classrooms[c], caller) {
      return Err(Rethrown(ApiError(400, "You are already a member of this classroom"), ""));
    }
    ghost var users0, classrooms0 := db.users, db.classrooms;
    db.SaveClassroom(c, WithMember(db.classrooms[c], caller));
    db.SaveUser(caller, Enrolled(db.users[caller], c));
    if Mirrored(users0, classrooms0) {
      JoinKeepsMirror(users0, classrooms0, c, caller);
    }
    r := Ok(c);
  }
}

=== FILE: cloudinary.dfy ===
/** The asset-store helpers of `utils/cloudinary.js`: deriving an asset's
    public id from its delivery URL, the guard in front of an upload, and the
    delete wrapper.  The store itself (upload, destroy) is an oracle passed in
    as a function; removing the local temporary file is not modelled. */
module Cloudinary {
  import opened Outcome
  import opened Text

  /** `getPublicIdFromUrl`: the last "/"-separated segment of the URL, cut at
      its first ".". */
  function GetPublicIdFromUrl(url: string): (id: string)
    ensures '/' !in id && '.' !in id
  {
    var parts := Split(url, '/');
    var lastPart := parts[|parts| - 1];
    PublicIdFacts(lastPart);
    Split(lastPart, '.')[0]
  }

  /** The first "."-piece of a segment without "/" is a prefix of it, so it
      has neither "/" nor ".". */
  lemma PublicIdFacts(segment: string)
    requires '/' !in segment
    ensures '/' !in Split(segment, '.')[0]
  {
    SplitFirstIsBeforeFirst(segment, '.');
    BeforeFirstFacts(segment, '.');
  }

  /** The public id is the part of the last path segment before its first
      dot, stated without splitting. */
  lemma PublicIdIsSegmentStem(url: string)
    ensures GetPublicIdFromUrl(url) == BeforeFirst(AfterLast(url, '/'), '.')
  {
    SplitLastIsAfterLast(url, '/');
    SplitFirstIsBeforeFirst(AfterLast(url, '/'), '.');
  }

  /** A string with neither "/" nor "." is its own public id. */
  lemma PublicIdOfPlainName(s: string)
    requires '/' !in s && '.' !in s
    ensures GetPublicIdFromUrl(s) == s
  {
    SplitWithoutSeparator(s, '/');
    SplitWithoutSeparator(s, '.');
  }

  /** Applying the derivation to its own output changes nothing, so callers
      that pass an already stripped id get the same id back. */
  lemma PublicIdIdempotent(url: string)
    ensures GetPublicIdFromUrl(GetPublicIdFromUrl(url)) == GetPublicIdFromUrl(url)
  {
    PublicIdOfPlainName(GetPublicIdFromUrl(url));
  }

  /** Passing only the last segment of the URL (as the video handler does)
      yields the same public id as passing the whole URL. */
  lemma PublicIdOfLastSegment(url: string)
    ensures GetPublicIdFromUrl(AfterLast(url, '/')) == GetPublicIdFromUrl(url)
  {
    AfterLastFacts(url, '/');
    var seg := AfterLast(url, '/');
    PublicIdIsSegmentStem(url);
    PublicIdIsSegmentStem(seg);
    NoSepAfterLast(seg, '/');
  }

  /** What the store's upload call does with a local file: a response
      carrying the delivery URLs, or a thrown error. */
  datatype UploadOutcome = Uploaded(url: string, secureUrl: string) | UploadFailed(message: string)

  /** What `uploadOnCloudinary` gives its caller: `null`, the store's
      response, or the error it rethrows; `storeCalls` lists the paths the
      store was asked to upload. */
  datatype UploadReply = UploadReply(response: Result<Option<UploadOutcome>>, storeCalls: seq<string>)

  /** `uploadOnCloudinary(localFilePath)`: a missing or empty path yields
      `null` without calling the store; otherwise the store is called once and
      its response returned, or its error rethrown. */
  function UploadOnCloudinary(localFilePath: Option<string>, upload: string -> UploadOutcome): (r: UploadReply)
    ensures localFilePath == None || localFilePath == Some("") <==> r.storeCalls == []
    ensures r.storeCalls == [] ==> r.response == Ok(None)
    ensures r.storeCalls != [] ==> r.storeCalls == [localFilePath.value]
    ensures r.response.Ok? && r.response.value.Some? ==> r.response.value.value.Uploaded?
    ensures r.storeCalls != [] && upload(localFilePath.value).Uploaded? ==> r.response == Ok(Some(upload(localFilePath.value)))
    ensures r.storeCalls != [] && upload(localFilePath.value).UploadFailed? ==> r.response == Err(ApiError(500, upload(localFilePath.value).message))
  {
    match localFilePath
    case None => UploadReply(Ok(None), [])
    case Some(path) =>
      if path == "" then UploadReply(Ok(None), [])
      else
        var outcome := upload(path);
        if outcome.Uploaded? then UploadReply(Ok(Some(outcome)), [path])
        else UploadReply(Err(ApiError(500, outcome.message)), [path])
  }

  /** What the store's destroy call does: a response whose `result` field is
      a status word ("ok", "not found", ...), or a thrown error. */
  datatype DestroyOutcome = Destroyed(result: string) | DestroyFailed(message: string)

  /** `deleteFromCloudinary(path)` as written.  The module throws `ApiError`
      without importing it, so evaluating `new ApiError(...)` raises a
      ReferenceError; both the guard for an empty path and the catch block
      do so, and every failure reaches the caller as that ReferenceError. */
  function DeleteFromCloudinary(path: Option<string>, destroy: string -> DestroyOutcome): (r: Result<string>)
    ensures r.Ok? <==> path.Some? && path.value != "" && destroy(GetPublicIdFromUrl(path.value)).Destroyed?
    ensures r.Ok? ==> r.value == destroy(GetPublicIdFromUrl(path.value)).result
    ensures r.Err? ==> r.error == ApiError(500, "ApiError is not defined")
  {
    if path.None? || path.value == "" then Err(ApiError(500, "ApiError is not defined"))
    else
      var outcome := destroy(GetPublicIdFromUrl(path.value));
      if outcome.Destroyed? then Ok(outcome.result) else Err(ApiError(500, "ApiError is not defined"))
  }

  /** The delete wrapper as evidently intended (with `ApiError` imported):
      an empty path is a 400 "Invalid URL of cloudinary asset", and a failing
      store call is a 400 carrying the store's message (or a default). */
  function DeleteFromCloudinaryIntended(path: Option<string>, destroy: string -> DestroyOutcome): (r: Result<string>)
    ensures r.Ok? <==> DeleteFromCloudinary(path, destroy).Ok?
    ensures r.Ok? ==> r == DeleteFromCloudinary(path, destroy)
    ensures (path.None? || path.value == "") ==> r == Err(ApiError(400, "Invalid URL of cloudinary asset"))
    ensures r.Err? ==> r.error.status == 400 && r.error.message != ""
  {
    if path.None? || path.value == "" then
      // the guard's own error passes through the catch block with its message
      Err(ApiError(400, "Invalid URL of cloudinary asset"))
    else
      var outcome := destroy(GetPublicIdFromUrl(path.value));
      if outcome.Destroyed? then Ok(outcome.result)
      else Err(ApiError(400, if outcome.message == "" then "Error occured while destroying the asset" else outcome.message))
  }

  /** The discrepancy: for an empty path the caller sees the ReferenceError,
      not the 400 the wrapper was written to raise. */
  lemma DeleteGuardLosesItsError(destroy: string -> DestroyOutcome)
    ensures DeleteFromCloudinary(Some(""), destroy).error.message == "ApiError is not defined"
    ensures DeleteFromCloudinaryIntended(Some(""), destroy).error == ApiError(400, "Invalid URL of cloudinary asset")
  {
  }
}

=== FILE: content_tree.dfy ===
/** The links of the course content: a classroom lists its modules; a
    module lists its lectures, notes and homeworks, each of which points
    back at its module; a lecture lists its videos, which point back at it.
    `Linked` is the invariant the create and delete handlers are meant to
    keep, and the lemmas say which changes keep it. */
module ContentTree {
  import opened ObjectIds
  import opened Store

  function ModuleIdsOf(room: Classroom): seq<Id> { room.moduleIds }
  function LectureIdsOf(m: CourseModule): seq<Id> { m.lectureIds }
  function NoteIdsOf(m: CourseModule): seq<Id> { m.noteIds }
  function HomeworkIdsOf(m: CourseModule): seq<Id> { m.homeworkIds }
  function VideoIdsOf(l: Lecture): seq<Id> { l.videoIds }
  function ModuleOfLecture(l: Lecture): Id { l.moduleId }
  function ModuleOfNote(n: Note): Id { n.moduleId }
  function ModuleOfHomework(h: Homework): Id { h.moduleId }
  function LectureOfVideo(v: Video): Id { v.lectureId }
  function DoubtIdsOfLecture(l: Lecture): seq<Id> { l.doubtIds }
  function DoubtIdsOfVideo(v: Video): seq<Id> { v.doubtIds }

  /** Every id on a parent's list names an existing child. */
  predicate Listed<P, C>(parents: map<Id, P>, children: map<Id, C>, list: P -> seq<Id>)
  {
    forall p, c :: p in parents && c in list(parents[p]) ==> c in children
  }

  /** On top of `Listed`: a parent lists a child exactly when the child
      points back at that parent. */
  predicate Linked<P, C>(parents: map<Id, P>, children: map<Id, C>, list: P -> seq<Id>, parent: C -> Id)
  {
    Listed(parents, children, list)
    && forall p, c :: p in parents && c in children ==> (c in list(parents[p]) <==> parent(children[c]) == p)
  }

  /** A new child stored under a fresh id and pushed onto its parent's list
      keeps the lists closed. */
  lemma AddChildKeepsListed<P, C>(parents: map<Id, P>, children: map<Id, C>, list: P -> seq<Id>,
                                   p: Id, c: Id, newParent: P, child: C)
    requires Listed(parents, children, list) && p in parents
    requires list(newParent) == list(parents[p]) + [c]
    ensures Listed(parents[p := newParent], children[c := child], list)
  {
  }

  /** A new child stored under a fresh id, pointing at its parent and
      pushed onto that parent's list, keeps the link. */
  lemma AddChildKeepsLinked<P, C>(parents: map<Id, P>, children: map<Id, C>, list: P -> seq<Id>, parent: C -> Id,
                                   p: Id, c: Id, newParent: P, child: C)
    requires Linked(parents, children, list, parent) && p in parents && c !in children
    requires list(newParent) == list(parents[p]) + [c] && parent(child) == p
    ensures Linked(parents[p := newParent], children[c := child], list, parent)
  {
    var parents', children' := parents[p := newParent], children[c := child];
    forall q, d | q in parents' && d in children'
      ensures d in list(parents'[q]) <==> parent(children'[d]) == q
    {
      if d == c && q != p {
        // c is not yet a child, so no other list can name it
        assert c !in list(parents[q]);
      }
    }
  }

  /** A child deleted and pulled from the one list that names it keeps the
      lists closed. */
  lemma RemoveChildKeepsListed<P, C>(parents: map<Id, P>, children: map<Id, C>, list: P -> seq<Id>,
                                      p: Id, c: Id, newParent: P)
    requires Listed(parents, children, list) && p in parents
    requires forall q :: q in parents && q != p ==> c !in list(parents[q])
    requires list(newParent) == Without(list(parents[p]), c)
    ensures Listed(parents[p := newParent], children - {c}, list)
  {
  }

  /** A child deleted and pulled from the list of the parent it points at
      keeps the link. */
  lemma RemoveChildKeepsLinked<P, C>(parents: map<Id, P>, children: map<Id, C>, list: P -> seq<Id>, parent: C -> Id,
                                      p: Id, c: Id, newParent: P)
    requires Linked(parents, children, list, parent) && p in parents && c in children && parent(children[c]) == p
    requires list(newParent) == Without(list(parents[p]), c)
    ensures Linked(parents[p := newParent], children - {c}, list, parent)
  {
    forall q | q in parents && q != p
      ensures c !in list(parents[q])
    {
      assert c in list(parents[q]) <==> parent(children[c]) == q;
    }
    RemoveChildKeepsListed(parents, children, list, p, c, newParent);
  }

  /** A parent deleted together with any of the children that point at it
      keeps the link among the rest. */
  lemma RemoveParentKeepsLinked<P, C>(parents: map<Id, P>, children: map<Id, C>, list: P -> seq<Id>, parent: C -> Id,
                                       p: Id, children': map<Id, C>)
    requires Linked(parents, children, list, parent)
    requires forall c :: c in children' ==> c in children && children'[c] == children[c]
    requires forall c :: c in children && parent(children[c]) != p ==> c in children'
    ensures Linked(parents - {p}, children', list, parent)
  {
    var parents' := parents - {p};
    forall q, c | q in parents' && c in list(parents'[q])
      ensures c in children'
    {
      assert c in children && parent(children[c]) == q;
    }
  }

  /** A child saved again with the same parent keeps the link. */
  lemma ReplaceChildKeepsLinked<P, C>(parents: map<Id, P>, children: map<Id, C>, list: P -> seq<Id>, parent: C -> Id,
                                       c: Id, child: C)
    requires Linked(parents, children, list, parent) && c in children && parent(child) == parent(children[c])
    ensures Linked(parents, children[c := child], list, parent)
  {
    var children' := children[c := child];
    forall p, d | p in parents && d in children'
      ensures d in list(parents[p]) <==> parent(children'[d]) == p
    {
      assert d in list(parents[p]) <==> parent(children[d]) == p;
    }
  }

  /** A parent saved again with the same list keeps the link. */
  lemma ReplaceParentKeepsLinked<P, C>(parents: map<Id, P>, children: map<Id, C>, list: P -> seq<Id>, parent: C -> Id,
                                        p: Id, newParent: P)
    requires Linked(parents, children, list, parent) && p in parents && list(newParent) == list(parents[p])
    ensures Linked(parents[p := newParent], children, list, parent)
  {
    var parents' := parents[p := newParent];
    forall q, d | q in parents' && d in children
      ensures d in list(parents'[q]) <==> parent(children[d]) == q
    {
      assert d in list(parents[q]) <==> parent(children[d]) == q;
    }
  }

  /** `Module.find({ _id: { $in: ids } })`, and every other lookup by a
      parent's list: the children whose ids the list names. */
  function ChildrenListed<C>(children: map<Id, C>, ids: seq<Id>): (r: map<Id, C>)
    ensures forall c :: c in r <==> c in children && c in ids
    ensures forall c :: c in r ==> r[c] == children[c]
  {
    map c | c in children && c in ids :: children[c]
  }

  /** `Lecture.find({ module: m })`, and every other lookup by the
      back-reference: the children that point at `p`. */
  function ChildrenOf<C>(children: map<Id, C>, parent: C -> Id, p: Id): (r: map<Id, C>)
    ensures forall c :: c in r <==> c in children && parent(children[c]) == p
    ensures forall c :: c in r ==> r[c] == children[c]
  {
    map c | c in children && parent(children[c]) == p :: children[c]
  }

  /** Under the link, looking children up by the parent's list and by the
      back-reference give the same documents. */
  lemma LookupsAgree<P, C>(parents: map<Id, P>, children: map<Id, C>, list: P -> seq<Id>, parent: C -> Id, p: Id)
    requires Linked(parents, children, list, parent) && p in parents
    ensures ChildrenListed(children, list(parents[p])) == ChildrenOf(children, parent, p)
  {
    var a, b := ChildrenListed(children, list(parents[p])), ChildrenOf(children, parent, p);
    forall c ensures c in a <==> c in b {
      if c in children {
        assert c in list(parents[p]) <==> parent(children[c]) == p;
      }
    }
    assert a.Keys == b.Keys;
  }
}

=== FILE: doubt_controller.dfy ===
/** The handlers of `controllers/doubt.controller.js`.  A doubt is asked
    under a video of a lecture; it records both, and the lecture's and the
    video's doubt lists are only ever pulled from, never pushed onto.  No
    handler checks the caller's place on a roster. */
module DoubtController {
  import opened Outcome
  import opened ObjectIds
  import opened Store
  import opened ContentTree

  /** The `Doubt` schema's validation of a document about to be saved: the
      description, the student and the module are required (the video is
      always set by the handlers), in schema order. */
  function DoubtErrors(description: string, student: Option<Id>, moduleId: Option<Id>): (r: seq<string>)
    ensures r == [] <==> description != "" && student.Some? && moduleId.Some?
  {
    (if description == "" then ["doubtDescription: Please enter your doubt"] else [])
    + (if student.None? then ["student: Please enter student id"] else [])
    + (if moduleId.None? then ["module: Please enter module id"] else [])
  }

  /** The checks `addDoubt` makes before building the document, in order. */
  function AddCheck(lectures: map<Id, Lecture>, videos: map<Id, Video>, lectureId: Option<Id>, videoId: Option<Id>,
                    description: Option<string>): (r: Option<ApiError>)
    ensures r.None? <==> lectureId.Some? && videoId.Some? && !Falsy(description)
                         && lectureId.value in lectures && videoId.value in videos
    ensures lectureId.None? ==> r == Some(ApiError(400, "Lecture Id is required"))
    ensures lectureId.Some? && videoId.None? ==> r == Some(ApiError(400, "Video Id is required"))
    ensures lectureId.Some? && videoId.Some? && Falsy(description) ==> r == Some(ApiError(400, "Doubt Description is required"))
    ensures lectureId.Some? && videoId.Some? && !Falsy(description) && lectureId.value !in lectures ==>
      r == Some(ApiError(500, "Lecture not found"))
    ensures lectureId.Some? && videoId.Some? && !Falsy(description) && lectureId.value in lectures
            && videoId.value !in videos ==>
      r == Some(ApiError(500, "Video not found"))
  {
    if lectureId.None? then Some(ApiError(400, "Lecture Id is required"))
    else if videoId.None? then Some(ApiError(400, "Video Id is required"))
    else if Falsy(description) then Some(ApiError(400, "Doubt Description is required"))
    else if lectureId.value !in lectures then Some(Rethrown(ApiError(404, "Lecture not found"), ""))
    else if videoId.value !in videos then Some(Rethrown(ApiError(404, "Video not found"), ""))
    else None
  }

  /** `addDoubt` as written: the document is built with the description,
      the lecture and the video only, so the schema's required student and
      module are missing and the save is refused. */
  function AddDoubtAsWritten(lectures: map<Id, Lecture>, videos: map<Id, Video>, lectureId: Option<Id>,
                             videoId: Option<Id>, description: Option<string>): (r: Result<Doubt>)
    ensures AddCheck(lectures, videos, lectureId, videoId, description).Some? ==>
      r == Err(AddCheck(lectures, videos, lectureId, videoId, description).value)
    ensures AddCheck(lectures, videos, lectureId, videoId, description).None? ==>
      r == Err(ApiError(500, ValidationMessage("Doubt", DoubtErrors(description.value, None, None))))
  {
    var check := AddCheck(lectures, videos, lectureId, videoId, description);
    if check.Some? then Err(check.value)
    else
      // neither the student nor the module is set, so validation always fails
      Err(Rethrown(ApiError(400, ValidationMessage("Doubt", DoubtErrors(description.value, None, None))), ""))
  }

  /** The discrepancy: no request to `addDoubt` as written stores a doubt;
      one that passes every check is refused for the missing student and
      module. */
  lemma AddDoubtAsWrittenNeverSaves(lectures: map<Id, Lecture>, videos: map<Id, Video>, lectureId: Option<Id>,
                                    videoId: Option<Id>, description: Option<string>)
    ensures AddDoubtAsWritten(lectures, videos, lectureId, videoId, description).Err?
    ensures AddCheck(lectures, videos, lectureId, videoId, description).None? ==>
      AddDoubtAsWritten(lectures, videos, lectureId, videoId, description).error
        == ApiError(500, ValidationMessage("Doubt", ["student: Please enter student id", "module: Please enter module id"]))
  {
    if AddCheck(lectures, videos, lectureId, videoId, description).None? {
      var errors := DoubtErrors(description.value, None, None);
      assert errors == ["student: Please enter student id", "module: Please enter module id"];
    }
  }

  /** `addDoubt` as evidently intended: the doubt also records the asking
      student and the lecture's module, so a request that passes the checks
      is saved.  It is added to no list. */
  method AddDoubt(db: Database, caller: Id, lectureId: Option<Id>, videoId: Option<Id>, description: Option<string>)
    returns (r: Result<Id>)
    requires db.Valid()
    modifies db`doubts, db`nextId
    ensures db.Valid()
    ensures r.Err? ==> db.doubts == old(db.doubts)
    ensures AddCheck(db.lectures, db.videos, lectureId, videoId, description).Some? ==>
      r == Err(AddCheck(db.lectures, db.videos, lectureId, videoId, description).value)
    ensures r.Ok? <==> AddCheck(db.lectures, db.videos, lectureId, videoId, description).None?
    ensures r.Ok? ==>
      var l := lectureId.value;
      r.value !in old(db.doubts)
      && db.doubts == old(db.doubts)[r.value := Doubt(description.value, l, videoId.value, caller, db.lectures[l].moduleId)]
    ensures Listed(db.lectures, old(db.doubts), DoubtIdsOfLecture) ==> Listed(db.lectures, db.doubts, DoubtIdsOfLecture)
    ensures Listed(db.videos, old(db.doubts), DoubtIdsOfVideo) ==> Listed(db.videos, db.doubts, DoubtIdsOfVideo)
  {
    var check := AddCheck(db.lectures, db.videos, lectureId, videoId, description);
    if check.Some? {
      return Err(check.value);
    }
    var l := lectureId.value;
    var doubt := Doubt(description.value, l, videoId.value, caller, db.lectures[l].moduleId);
    var id := db.InsertDoubt(doubt);
    r := Ok(id);
  }

  /** `Doubt.find({ lecture: l, video: v })`. */
  function DoubtsUnder(doubts: map<Id, Doubt>, l: Id, v: Id): (r: map<Id, Doubt>)
    ensures forall d :: d in r <==> d in doubts && doubts[d].lectureId == l && doubts[d].videoId == v
    ensures forall d :: d in r ==> r[d] == doubts[d]
  {
    map d | d in doubts && doubts[d].lectureId == l && doubts[d].videoId == v :: doubts[d]
  }

  /** `Doubt.find({ video: v })`. */
  function DoubtsOnVideo(doubts: map<Id, Doubt>, v: Id): (r: map<Id, Doubt>)
    ensures forall d :: d in r <==> d in doubts && doubts[d].videoId == v
    ensures forall d :: d in r ==> r[d] == doubts[d]
  {
    map d | d in doubts && doubts[d].videoId == v :: doubts[d]
  }

  /** `getDoubts`: both ids (400), the lecture, the video; then the doubts
      asked under that lecture and video. */
  function GetDoubts(lectures: map<Id, Lecture>, videos: map<Id, Video>, doubts: map<Id, Doubt>,
                     lectureId: Option<Id>, videoId: Option<Id>): (r: Result<map<Id, Doubt>>)
    ensures lectureId.None? ==> r == Err(ApiError(400, "Lecture Id is required"))
    ensures lectureId.Some? && videoId.None? ==> r == Err(ApiError(400, "Video Id is required"))
    ensures lectureId.Some? && videoId.Some? && lectureId.value !in lectures ==> r == Err(ApiError(500, "Lecture not found"))
    ensures lectureId.Some? && videoId.Some? && lectureId.value in lectures && videoId.value !in videos ==>
      r == Err(ApiError(500, "Video not found"))
    ensures r.Ok? <==> lectureId.Some? && videoId.Some? && lectureId.value in lectures && videoId.value in videos
    ensures r.Ok? ==> r.value == DoubtsUnder(doubts, lectureId.value, videoId.value)
  {
    if lectureId.None? then Err(ApiError(400, "Lecture Id is required"))
    else if videoId.None? then Err(ApiError(400, "Video Id is required"))
    else if lectureId.value !in lectures then Err(Rethrown(ApiError(404, "Lecture not found"), ""))
    else if videoId.value !in videos then Err(Rethrown(ApiError(404, "Video not found"), ""))
    else Ok(DoubtsUnder(doubts, lectureId.value, videoId.value))
  }

  /** `getAllDoubts`: the video id (400), the video; then every doubt asked
      under the video, whatever its lecture. */
  function GetAllDoubts(videos: map<Id, Video>, doubts: map<Id, Doubt>, videoId: Option<Id>): (r: Result<map<Id, Doubt>>)
    ensures videoId.None? ==> r == Err(ApiError(400, "Video Id is required"))
    ensures videoId.Some? && videoId.value !in videos ==> r == Err(ApiError(500, "Video not found"))
    ensures r.Ok? <==> videoId.Some? && videoId.value in videos
    ensures r.Ok? ==> r.value == DoubtsOnVideo(doubts, videoId.value)
  {
    if videoId.None? then Err(ApiError(400, "Video Id is required"))
    else if videoId.value !in videos then Err(Rethrown(ApiError(404, "Video not found"), ""))
    else Ok(DoubtsOnVideo(doubts, videoId.value))
  }

  /** The doubts of a lecture and video are those of the video that were
      asked under that lecture. */
  lemma DoubtsUnderLectureAreVideoDoubts(lectures: map<Id, Lecture>, videos: map<Id, Video>, doubts: map<Id, Doubt>,
                                         l: Id, v: Id)
    requires l in lectures && v in videos
    ensures GetDoubts(lectures, videos, doubts, Some(l), Some(v)).Ok?
    ensures GetDoubts(lectures, videos, doubts, Some(l), Some(v)).value
         == map d | d in GetAllDoubts(videos, doubts, Some(v)).value && doubts[d].lectureId == l :: doubts[d]
  {
    var under := GetDoubts(lectures, videos, doubts, Some(l), Some(v)).value;
    var all := GetAllDoubts(videos, doubts, Some(v)).value;
    var filtered := map d | d in all && doubts[d].lectureId == l :: doubts[d];
    assert under.Keys == filtered.Keys;
  }

  /** A doubt added under a lecture and video is what the lookup for that
      lecture and video gains, and the lookup for any other pair is
      unchanged. */
  lemma AddedDoubtIsFound(doubts: map<Id, Doubt>, id: Id, doubt: Doubt, l: Id, v: Id)
    requires id !in doubts
    ensures doubt.lectureId == l && doubt.videoId == v ==>
      DoubtsUnder(doubts[id := doubt], l, v) == DoubtsUnder(doubts, l, v)[id := doubt]
    ensures doubt.lectureId != l || doubt.videoId != v ==>
      DoubtsUnder(doubts[id := doubt], l, v) == DoubtsUnder(doubts, l, v)
  {
    var after, before := DoubtsUnder(doubts[id := doubt], l, v), DoubtsUnder(doubts, l, v);
    if doubt.lectureId == l && doubt.videoId == v {
      assert after.Keys == before.Keys + {id};
    } else {
      assert after.Keys == before.Keys;
    }
  }

  /** The checks `updateDoubts` makes, in order. */
  function UpdateCheck(lectures: map<Id, Lecture>, videos: map<Id, Video>, doubts: map<Id, Doubt>,
                       lectureId: Option<Id>, videoId: Option<Id>, doubtId: Option<Id>, description: Option<string>)
    : (r: Option<ApiError>)
    ensures r.None? <==> lectureId.Some? && videoId.Some? && doubtId.Some? && !Falsy(description)
                         && lectureId.value in lectures && videoId.value in videos && doubtId.value in doubts
    ensures lectureId.None? ==> r == Some(ApiError(400, "Lecture Id is required"))
    ensures lectureId.Some? && videoId.None? ==> r == Some(ApiError(400, "Video Id is required"))
    ensures lectureId.Some? && videoId.Some? && doubtId.None? ==> r == Some(ApiError(400, "Doubt Id is required"))
    ensures lectureId.Some? && videoId.Some? && doubtId.Some? && Falsy(description) ==>
      r == Some(ApiError(400, "Doubt Description is required"))
    ensures lectureId.Some? && videoId.Some? && doubtId.Some? && !Falsy(description) && lectureId.value !in lectures ==>
      r == Some(ApiError(500, "Lecture not found"))
    ensures lectureId.Some? && videoId.Some? && doubtId.Some? && !Falsy(description) && lectureId.value in lectures
            && videoId.value !in videos ==>
      r == Some(ApiError(500, "Video not found"))
    ensures lectureId.Some? && videoId.Some? && doubtId.Some? && !Falsy(description) && lectureId.value in lectures
            && videoId.value in videos && doubtId.value !in doubts ==>
      r == Some(ApiError(500, "Doubt not found"))
  {
    if lectureId.None? then Some(ApiError(400, "Lecture Id is required"))
    else if videoId.None? then Some(ApiError(400, "Video Id is required"))
    else if doubtId.None? then Some(ApiError(400, "Doubt Id is required"))
    else if Falsy(description) then Some(ApiError(400, "Doubt Description is required"))
    else if lectureId.value !in lectures then Some(Rethrown(ApiError(404, "Lecture not found"), ""))
    else if videoId.value !in videos then Some(Rethrown(ApiError(404, "Video not found"), ""))
    else if doubtId.value !in doubts then Some(Rethrown(ApiError(404, "Doubt not found"), ""))
    else None
  }

  /** `updateDoubts`: after the checks, only the description of the doubt
      changes.  The doubt is not checked to belong to the lecture or the
      video. */
  method UpdateDoubts(db: Database, lectureId: Option<Id>, videoId: Option<Id>, doubtId: Option<Id>,
                      description: Option<string>) returns (r: Result<Doubt>)
    modifies db`doubts
    ensures r.Err? ==> db.doubts == old(db.doubts)
    ensures UpdateCheck(db.lectures, db.videos, old(db.doubts), lectureId, videoId, doubtId, description).Some? ==>
      r == Err(UpdateCheck(db.lectures, db.videos, old(db.doubts), lectureId, videoId, doubtId, description).value)
    ensures r.Ok? <==> UpdateCheck(db.lectures, db.videos, old(db.doubts), lectureId, videoId, doubtId, description).None?
    ensures r.Ok? ==>
      var d := doubtId.value;
      r.value == old(db.doubts)[d].(description := description.value)
      && db.doubts == old(db.doubts)[d := r.value]
    ensures forall l, v :: DoubtsUnder(db.doubts, l, v).Keys == DoubtsUnder(old(db.doubts), l, v).Keys
  {
    var check := UpdateCheck(db.lectures, db.videos, db.doubts, lectureId, videoId, doubtId, description);
    if check.Some? {
      return Err(check.value);
    }
    var d := doubtId.value;
    var updated := db.doubts[d].(description := description.value);
    db.doubts := db.doubts[d := updated];
    r := Ok(updated);
  }

  /** A doubt deleted and pulled from the one lecture list that names it
      keeps the lecture lists closed. */
  lemma DoubtRemovalKeepsListed(lectures: map<Id, Lecture>, doubts: map<Id, Doubt>, l: Id, d: Id)
    requires l in lectures
    ensures Listed(lectures, doubts, DoubtIdsOfLecture)
            && (forall k :: k in lectures && k != l ==> d !in lectures[k].doubtIds) ==>
      Listed(lectures[l := lectures[l].(doubtIds := Without(lectures[l].doubtIds, d))], doubts - {d}, DoubtIdsOfLecture)
  {
    if Listed(lectures, doubts, DoubtIdsOfLecture) && (forall k :: k in lectures && k != l ==> d !in lectures[k].doubtIds) {
      var lecture := lectures[l].(doubtIds := Without(lectures[l].doubtIds, d));
      RemoveChildKeepsListed(lectures, doubts, DoubtIdsOfLecture, l, d, lecture);
    }
  }

  /** `deleteDoubts`: after the checks, the doubt is deleted and pulled from
      the lecture's and the video's doubt lists. */
  method DeleteDoubts(db: Database, lectureId: Option<Id>, videoId: Option<Id>, doubtId: Option<Id>)
    returns (r: Result<string>)
    modifies db`lectures, db`videos, db`doubts
    ensures r.Err? ==> db.lectures == old(db.lectures) && db.videos == old(db.videos) && db.doubts == old(db.doubts)
    ensures lectureId.None? ==> r == Err(ApiError(400, "Lecture Id is required"))
    ensures lectureId.Some? && videoId.None? ==> r == Err(ApiError(400, "Video Id is required"))
    ensures lectureId.Some? && videoId.Some? && doubtId.None? ==> r == Err(ApiError(400, "Doubt Id is required"))
    ensures lectureId.Some? && videoId.Some? && doubtId.Some? && lectureId.value !in old(db.lectures) ==>
      r == Err(ApiError(500, "Lecture not found"))
    ensures lectureId.Some? && videoId.Some? && doubtId.Some? && lectureId.value in old(db.lectures)
            && videoId.value !in old(db.videos) ==>
      r == Err(ApiError(500, "Video not found"))
    ensures lectureId.Some? && videoId.Some? && doubtId.Some? && lectureId.value in old(db.lectures)
            && videoId.value in old(db.videos) && doubtId.value !in old(db.doubts) ==>
      r == Err(ApiError(500, "Doubt not found"))
    ensures r.Ok? <==> lectureId.Some? && videoId.Some? && doubtId.Some? && lectureId.value in old(db.lectures)
                       && videoId.value in old(db.videos) && doubtId.value in old(db.doubts)
    ensures r.Ok? ==>
      var l, v, d := lectureId.value, videoId.value, doubtId.value;
      r.value == "Doubt deleted successfully"
      && db.doubts == old(db.doubts) - {d}
      && db.lectures == old(db.lectures)[l := old(db.lectures)[l].(doubtIds := Without(old(db.lectures)[l].doubtIds, d))]
      && db.videos == old(db.videos)[v := old(db.videos)[v].(doubtIds := Without(old(db.videos)[v].doubtIds, d))]
    ensures r.Ok? && Listed(old(db.lectures), old(db.doubts), DoubtIdsOfLecture)
            && (forall k :: k in old(db.lectures) && k != lectureId.value ==> doubtId.value !in old(db.lectures)[k].doubtIds) ==>
      Listed(db.lectures, db.doubts, DoubtIdsOfLecture)
    ensures old(db.Valid()) ==> db.Valid()
  {
    if lectureId.None? {
      return Err(ApiError(400, "Lecture Id is required"));
    }
    if videoId.None? {
      return Err(ApiError(400, "Video Id is required"));
    }
    if doubtId.None? {
      return Err(ApiError(400, "Doubt Id is required"));
    }
    var l, v, d := lectureId.value, videoId.value, doubtId.value;
    if l !in db.lectures {
      return Err(Rethrown(ApiError(404, "Lecture not found"), "An error occurred while deleting the doubt"));
    }
    if v !in db.videos {
      return Err(Rethrown(ApiError(404, "Video not found"), "An error occurred while deleting the doubt"));
    }
    if d !in db.doubts {
      return Err(Rethrown(ApiError(404, "Doubt not found"), "An error occurred while deleting the doubt"));
    }
    DoubtRemovalKeepsListed(db.lectures, db.doubts, l, d);
    db.RemoveDoubt(d);
    db.SaveLecture(l, db.lectures[l].(doubtIds := Without(db.lectures[l].doubtIds, d)));
    db.SaveVideo(v, db.videos[v].(doubtIds := Without(db.videos[v].doubtIds, d)));
    r := Ok("Doubt deleted successfully");
  }
}

=== FILE: homework_controller.dfy ===
/** The handlers of `controllers/homework.controller.js`.  A homework belongs
    to a module: the module lists it and the homework points back at the
    module.  Its file is the secure URL the asset store returns for the
    upload; students append submissions.  No handler checks the caller's
    place on a roster. */
module HomeworkController {
  import opened Outcome
  import opened Text
  import opened ObjectIds
  import opened Store
  import opened ContentTree
  import opened Cloudinary

  /** The `Homework` schema's validation of the title, description and file
      about to be saved (the `trim` setters have run), in schema order. */
  function HomeworkErrors(title: string, description: string, file: string): (r: seq<string>)
    ensures r == [] <==> !Blank(title) && !Blank(description) && file != ""
  {
    (if Blank(title) then ["title: Please enter title"] else [])
    + (if Blank(description) then ["description: Please enter description"] else [])
    + (if file == "" then ["homeworkFile: Please upload a file"] else [])
  }

  /** The messages `addHomework` answers with. */
  const ModuleIdRequired := "Module Id is required"
  const FieldsRequired := "Title, Homework Description, and Due Date are required"
  const ModuleNotFound := "Module not found"
  const FileRequired := "Homework file is required"
  const AddFailed := "An error occurred while adding homework"

  /** What `addHomework` decides before it writes: the module id, then the
      three text fields together (400); the module, the uploaded file, the
      store's reply and the schema follow inside the `try`.  On success, the
      homework it saves: trimmed title and description, the secure URL, and
      a back-reference to the module. */
  function AddCheck(modules: map<Id, CourseModule>, moduleId: Option<Id>, title: Option<string>,
                    description: Option<string>, dueDate: Option<string>, file: Option<string>,
                    upload: string -> UploadOutcome): (r: Result<Homework>)
    ensures moduleId.None? ==> r == Err(ApiError(400, ModuleIdRequired))
    ensures moduleId.Some? && (Falsy(title) || Falsy(description) || Falsy(dueDate)) ==>
      r == Err(ApiError(400, FieldsRequired))
    ensures moduleId.Some? && !Falsy(title) && !Falsy(description) && !Falsy(dueDate)
            && moduleId.value !in modules ==>
      r == Err(ApiError(500, ModuleNotFound))
    ensures moduleId.Some? && !Falsy(title) && !Falsy(description) && !Falsy(dueDate)
            && moduleId.value in modules && Falsy(file) ==>
      r == Err(ApiError(500, FileRequired))
    ensures moduleId.Some? && !Falsy(title) && !Falsy(description) && !Falsy(dueDate)
            && moduleId.value in modules && !Falsy(file) && upload(file.value).UploadFailed? ==>
      r == Err(Rethrown(ApiError(500, upload(file.value).message), AddFailed))
    ensures moduleId.Some? && !Falsy(title) && !Falsy(description) && !Falsy(dueDate)
            && moduleId.value in modules && !Falsy(file) && upload(file.value).Uploaded?
            && HomeworkErrors(Trim(title.value), Trim(description.value), upload(file.value).secureUrl) != [] ==>
      r == Err(ApiError(500, ValidationMessage("Homework",
                 HomeworkErrors(Trim(title.value), Trim(description.value), upload(file.value).secureUrl))))
    ensures r.Ok? <==> moduleId.Some? && !Falsy(title) && !Falsy(description) && !Falsy(dueDate)
                       && moduleId.value in modules && !Falsy(file) && upload(file.value).Uploaded?
                       && HomeworkErrors(Trim(title.value), Trim(description.value), upload(file.value).secureUrl) == []
    ensures r.Ok? ==>
      r.value == Homework(Trim(title.value), Trim(description.value), upload(file.value).secureUrl,
                          dueDate.value, moduleId.value, [])
  {
    if moduleId.None? then Err(ApiError(400, ModuleIdRequired))
    else if Falsy(title) || Falsy(description) || Falsy(dueDate) then
      Err(ApiError(400, FieldsRequired))
    else if moduleId.value !in modules then
      Err(Rethrown(ApiError(404, ModuleNotFound), AddFailed))
    else if Falsy(file) then
      Err(Rethrown(ApiError(400, FileRequired), AddFailed))
    else
      var uploaded := UploadOnCloudinary(file, upload);
      if uploaded.response.Err? then Err(Rethrown(uploaded.response.error, AddFailed))
      else
        // the path is not empty, so the store was called and its response is a value
        var url := uploaded.response.value.value.secureUrl;
        var errors := HomeworkErrors(Trim(title.value), Trim(description.value), url);
        if errors != [] then
          Err(Rethrown(ApiError(400, ValidationMessage("Homework", errors)), AddFailed))
        else Ok(Homework(Trim(title.value), Trim(description.value), url, dueDate.value, moduleId.value, []))
  }

  /** `homework.save()` followed by the push onto the module's list and
      `module.save()`: the new homework is stored under a fresh id, the
      module lists it, and the link is kept. */
  method SaveHomework(db: Database, m: Id, homework: Homework) returns (id: Id)
    requires db.Valid() && m in db.modules && homework.moduleId == m
    modifies db`modules, db`homeworks, db`nextId
    ensures db.Valid()
    ensures id !in old(db.homeworks) && db.homeworks == old(db.homeworks)[id := homework]
    ensures db.modules == old(db.modules)[m := old(db.modules)[m].(homeworkIds := old(db.modules)[m].homeworkIds + [id])]
    ensures Linked(old(db.modules), old(db.homeworks), HomeworkIdsOf, ModuleOfHomework) ==>
      Linked(db.modules, db.homeworks, HomeworkIdsOf, ModuleOfHomework)
  {
    id := db.InsertHomework(homework);
    ghost var ids := db.AllIds();
    var updated := db.modules[m].(homeworkIds := db.modules[m].homeworkIds + [id]);
    if Linked(old(db.modules), old(db.homeworks), HomeworkIdsOf, ModuleOfHomework) {
      AddChildKeepsLinked(old(db.modules), old(db.homeworks), HomeworkIdsOf, ModuleOfHomework, m, id, updated, homework);
    }
    db.modules := db.modules[m := updated];
    assert db.AllIds() == ids;
  }

  /** `addHomework`: answers with the error `AddCheck` finds, changing
      nothing; otherwise the homework it describes is saved and pushed onto
      the module's homework list. */
  method AddHomework(db: Database, moduleId: Option<Id>, title: Option<string>, description: Option<string>,
                     dueDate: Option<string>, file: Option<string>, upload: string -> UploadOutcome)
    returns (r: Result<Id>)
    requires db.Valid()
    modifies db`modules, db`homeworks, db`nextId
    ensures db.Valid()
    ensures r.Ok? <==> AddCheck(old(db.modules), moduleId, title, description, dueDate, file, upload).Ok?
    ensures r.Err? ==>
      r.error == AddCheck(old(db.modules), moduleId, title, description, dueDate, file, upload).error
      && db.modules == old(db.modules) && db.homeworks == old(db.homeworks)
    ensures r.Ok? ==>
      var m := moduleId.value;
      r.value !in old(db.homeworks)
      && db.homeworks == old(db.homeworks)[r.value := AddCheck(old(db.modules), moduleId, title, description,
                                                               dueDate, file, upload).value]
      && db.modules == old(db.modules)[m := old(db.modules)[m].(homeworkIds := old(db.modules)[m].homeworkIds + [r.value])]
    ensures r.Ok? && Linked(old(db.modules), old(db.homeworks), HomeworkIdsOf, ModuleOfHomework) ==>
      Linked(db.modules, db.homeworks, HomeworkIdsOf, ModuleOfHomework)
  {
    var checked := AddCheck(db.modules, moduleId, title, description, dueDate, file, upload);
    if checked.Err? {
      return Err(checked.error);
    }
    var id := SaveHomework(db, moduleId.value, checked.value);
    r := Ok(id);
  }

  /** `getHomeworks`: the homeworks that point at the module.  (`find`
      yields a list, possibly empty, never nothing, so the "No homeworks
      found" branch is never taken.) */
  function GetHomeworks(modules: map<Id, CourseModule>, homeworks: map<Id, Homework>, moduleId: Option<Id>)
    : (r: Result<map<Id, Homework>>)
    ensures moduleId.None? ==> r == Err(ApiError(400, "Module Id is required"))
    ensures moduleId.Some? && moduleId.value !in modules ==> r == Err(ApiError(500, "Module not found"))
    ensures r.Ok? <==> moduleId.Some? && moduleId.value in modules
    ensures r.Ok? ==> forall h :: h in r.value <==> h in homeworks && homeworks[h].moduleId == moduleId.value
    ensures r.Ok? ==> forall h :: h in r.value ==> r.value[h] == homeworks[h]
  {
    if moduleId.None? then Err(ApiError(400, "Module Id is required"))
    else if moduleId.value !in modules then Err(Rethrown(ApiError(404, "Module not found"), ""))
    else Ok(ChildrenOf(homeworks, ModuleOfHomework, moduleId.value))
  }

  /** While modules and homeworks are linked, the homeworks found by their
      back-reference are exactly those the module lists. */
  lemma AllHomeworksAreListed(modules: map<Id, CourseModule>, homeworks: map<Id, Homework>, m: Id)
    requires Linked(modules, homeworks, HomeworkIdsOf, ModuleOfHomework) && m in modules
    ensures GetHomeworks(modules, homeworks, Some(m)) == Ok(ChildrenListed(homeworks, modules[m].homeworkIds))
  {
    LookupsAgree(modules, homeworks, HomeworkIdsOf, ModuleOfHomework, m);
  }

  /** The file step of `updateHomework`: with no file sent the stored file
      stays; with one, it is uploaded, the old asset is destroyed, and the new
      secure URL replaces the stored one. */
  function ReplacementFile(current: string, file: Option<string>, upload: string -> UploadOutcome,
                           destroy: string -> DestroyOutcome): (r: Result<string>)
    ensures file.None? ==> r == Ok(current)
    ensures file == Some("") ==> r == Err(ApiError(400, "Homework file is required"))
    ensures file.Some? && file.value != "" && upload(file.value).UploadFailed? ==>
      r == Err(ApiError(500, upload(file.value).message))
    ensures file.Some? && file.value != "" && upload(file.value).Uploaded? ==>
      r == (if DeleteFromCloudinaryIntended(Some(current), destroy).Err?
            then Err(DeleteFromCloudinaryIntended(Some(current), destroy).error)
            else Ok(upload(file.value).secureUrl))
    ensures r.Ok? && file.Some? ==>
      upload(file.value).Uploaded? && current != "" && destroy(GetPublicIdFromUrl(current)).Destroyed?
  {
    if file.None? then Ok(current)
    else if file.value == "" then Err(ApiError(400, "Homework file is required"))
    else
      var uploaded := UploadOnCloudinary(file, upload);
      if uploaded.response.Err? then Err(uploaded.response.error)
      else
        var destroyed := DeleteFromCloudinaryIntended(Some(current), destroy);
        if destroyed.Err? then Err(destroyed.error)
        // the path is not empty, so the store was called and its response is a value
        else Ok(uploaded.response.value.value.secureUrl)
  }

  /** The checks of `updateHomework` up to the file step, in the order the
      handler makes them. */
  function UpdateCheck(modules: map<Id, CourseModule>, homeworks: map<Id, Homework>, moduleId: Option<Id>,
                       homeworkId: Option<Id>, title: Option<string>, description: Option<string>,
                       dueDate: Option<string>): (r: Option<ApiError>)
    ensures r.None? <==> moduleId.Some? && homeworkId.Some? && !Falsy(title) && !Falsy(description)
                         && !Falsy(dueDate) && moduleId.value in modules && homeworkId.value in homeworks
                         && homeworks[homeworkId.value].moduleId == moduleId.value
    ensures moduleId.None? ==> r == Some(ApiError(400, "Module Id is required"))
    ensures moduleId.Some? && homeworkId.None? ==> r == Some(ApiError(400, "Homework Id is required"))
    ensures moduleId.Some? && homeworkId.Some? && Falsy(title) ==> r == Some(ApiError(400, "Title is required"))
    ensures moduleId.Some? && homeworkId.Some? && !Falsy(title) && Falsy(description) ==>
      r == Some(ApiError(400, "Homework Description is required"))
    ensures moduleId.Some? && homeworkId.Some? && !Falsy(title) && !Falsy(description) && Falsy(dueDate) ==>
      r == Some(ApiError(400, "Due Date is required"))
    ensures moduleId.Some? && homeworkId.Some? && !Falsy(title) && !Falsy(description) && !Falsy(dueDate)
            && moduleId.value !in modules ==>
      r == Some(ApiError(500, "Module not found"))
    ensures moduleId.Some? && homeworkId.Some? && !Falsy(title) && !Falsy(description) && !Falsy(dueDate)
            && moduleId.value in modules && homeworkId.value !in homeworks ==>
      r == Some(ApiError(500, "Homework not found"))
    ensures moduleId.Some? && homeworkId.Some? && !Falsy(title) && !Falsy(description) && !Falsy(dueDate)
            && moduleId.value in modules && homeworkId.value in homeworks
            && homeworks[homeworkId.value].moduleId != moduleId.value ==>
      r == Some(ApiError(500, "Homework does not belong to the specified module"))
  {
    if moduleId.None? then Some(ApiError(400, "Module Id is required"))
    else if homeworkId.None? then Some(ApiError(400, "Homework Id is required"))
    else if Falsy(title) then Some(ApiError(400, "Title is required"))
    else if Falsy(description) then Some(ApiError(400, "Homework Description is required"))
    else if Falsy(dueDate) then Some(ApiError(400, "Due Date is required"))
    else if moduleId.value !in modules then Some(Rethrown(ApiError(404, "Module not found"), ""))
    else if homeworkId.value !in homeworks then Some(Rethrown(ApiError(404, "Homework not found"), ""))
    else if homeworks[homeworkId.value].moduleId != moduleId.value then
      Some(Rethrown(ApiError(400, "Homework does not belong to the specified module"), ""))
    else None
  }

  /** `updateHomework`: after the checks and the file step, the title,
      description and due date are overwritten and the document validated
      and saved; nothing else changes, and the homework stays in its
      module. */
  method UpdateHomework(db: Database, moduleId: Option<Id>, homeworkId: Option<Id>, title: Option<string>,
                        description: Option<string>, dueDate: Option<string>, file: Option<string>,
                        upload: string -> UploadOutcome, destroy: string -> DestroyOutcome)
    returns (r: Result<Homework>)
    modifies db`homeworks
    ensures r.Err? ==> db.homeworks == old(db.homeworks)
    ensures UpdateCheck(db.modules, old(db.homeworks), moduleId, homeworkId, title, description, dueDate).Some? ==>
      r == Err(UpdateCheck(db.modules, old(db.homeworks), moduleId, homeworkId, title, description, dueDate).value)
    ensures UpdateCheck(db.modules, old(db.homeworks), moduleId, homeworkId, title, description, dueDate).None?
            && ReplacementFile(old(db.homeworks)[homeworkId.value].file, file, upload, destroy).Err? ==>
      r == Err(Rethrown(ReplacementFile(old(db.homeworks)[homeworkId.value].file, file, upload, destroy).error,
                        "An error occurred while updating homework"))
    ensures r.Ok? <==>
      UpdateCheck(db.modules, old(db.homeworks), moduleId, homeworkId, title, description, dueDate).None?
      && ReplacementFile(old(db.homeworks)[homeworkId.value].file, file, upload, destroy).Ok?
      && HomeworkErrors(Trim(title.value), Trim(description.value),
                        ReplacementFile(old(db.homeworks)[homeworkId.value].file, file, upload, destroy).value) == []
    ensures r.Ok? ==>
      var h := homeworkId.value;
      var fileNow := ReplacementFile(old(db.homeworks)[h].file, file, upload, destroy).value;
      r.value == old(db.homeworks)[h].(title := Trim(title.value), description := Trim(description.value),
                                       dueDate := dueDate.value, file := fileNow)
      && db.homeworks == old(db.homeworks)[h := r.value]
    ensures Linked(db.modules, old(db.homeworks), HomeworkIdsOf, ModuleOfHomework) ==>
      Linked(db.modules, db.homeworks, HomeworkIdsOf, ModuleOfHomework)
  {
    var check := UpdateCheck(db.modules, db.homeworks, moduleId, homeworkId, title, description, dueDate);
    if check.Some? {
      return Err(check.value);
    }
    var h := homeworkId.value;
    var fileNow := ReplacementFile(db.homeworks[h].file, file, upload, destroy);
    if fileNow.Err? {
      return Err(Rethrown(fileNow.error, "An error occurred while updating homework"));
    }
    var errors := HomeworkErrors(Trim(title.value), Trim(description.value), fileNow.value);
    if errors != [] {
      return Err(Rethrown(ApiError(400, ValidationMessage("Homework", errors)), "An error occurred while updating homework"));
    }
    var updated := db.homeworks[h].(title := Trim(title.value), description := Trim(description.value),
                                    dueDate := dueDate.value, file := fileNow.value);
    if Linked(db.modules, db.homeworks, HomeworkIdsOf, ModuleOfHomework) {
      ReplaceChildKeepsLinked(db.modules, db.homeworks, HomeworkIdsOf, ModuleOfHomework, h, updated);
    }
    db.homeworks := db.homeworks[h := updated];
    r := Ok(updated);
  }

  /** Deleting a homework that points at the module it is pulled from keeps
      modules and homeworks linked. */
  lemma HomeworkRemovalKeepsLinked(modules: map<Id, CourseModule>, homeworks: map<Id, Homework>, m: Id, h: Id)
    requires m in modules && h in homeworks
    ensures Linked(modules, homeworks, HomeworkIdsOf, ModuleOfHomework) && homeworks[h].moduleId == m ==>
      Linked(modules[m := modules[m].(homeworkIds := Without(modules[m].homeworkIds, h))], homeworks - {h},
             HomeworkIdsOf, ModuleOfHomework)
  {
    if Linked(modules, homeworks, HomeworkIdsOf, ModuleOfHomework) && homeworks[h].moduleId == m {
      var updated := modules[m].(homeworkIds := Without(modules[m].homeworkIds, h));
      RemoveChildKeepsLinked(modules, homeworks, HomeworkIdsOf, ModuleOfHomework, m, h, updated);
    }
  }

  /** `deleteHomework`: the homework id is checked before the module id;
      then the module, the homework, the asset is destroyed, the homework
      deleted and pulled from this module's list.  The homework is not
      checked to be one of the module's. */
  method DeleteHomework(db: Database, moduleId: Option<Id>, homeworkId: Option<Id>, destroy: string -> DestroyOutcome)
    returns (r: Result<string>)
    modifies db`modules, db`homeworks
    ensures r.Err? ==> db.modules == old(db.modules) && db.homeworks == old(db.homeworks)
    ensures homeworkId.None? ==> r == Err(ApiError(400, "Homework Id is required"))
    ensures homeworkId.Some? && moduleId.None? ==> r == Err(ApiError(400, "Module Id is required"))
    ensures homeworkId.Some? && moduleId.Some? && moduleId.value !in old(db.modules) ==>
      r == Err(ApiError(500, "Module not found"))
    ensures homeworkId.Some? && moduleId.Some? && moduleId.value in old(db.modules) && homeworkId.value !in old(db.homeworks) ==>
      r == Err(ApiError(500, "Homework not found"))
    ensures homeworkId.Some? && moduleId.Some? && moduleId.value in old(db.modules) && homeworkId.value in old(db.homeworks)
            && DeleteFromCloudinaryIntended(Some(old(db.homeworks)[homeworkId.value].file), destroy).Err? ==>
      r == Err(Rethrown(DeleteFromCloudinaryIntended(Some(old(db.homeworks)[homeworkId.value].file), destroy).error,
                        "An error occurred while deleting homework"))
    ensures r.Ok? <==> homeworkId.Some? && moduleId.Some? && moduleId.value in old(db.modules)
                       && homeworkId.value in old(db.homeworks)
                       && DeleteFromCloudinaryIntended(Some(old(db.homeworks)[homeworkId.value].file), destroy).Ok?
    ensures r.Ok? ==>
      var m, h := moduleId.value, homeworkId.value;
      r.value == "Homework deleted successfully"
      && destroy(GetPublicIdFromUrl(old(db.homeworks)[h].file)).Destroyed?
      && db.homeworks == old(db.homeworks) - {h}
      && db.modules == old(db.modules)[m := old(db.modules)[m].(homeworkIds := Without(old(db.modules)[m].homeworkIds, h))]
    ensures r.Ok? && Linked(old(db.modules), old(db.homeworks), HomeworkIdsOf, ModuleOfHomework)
            && old(db.homeworks)[homeworkId.value].moduleId == moduleId.value ==>
      Linked(db.modules, db.homeworks, HomeworkIdsOf, ModuleOfHomework)
    ensures old(db.Valid()) ==> db.Valid()
  {
    if homeworkId.None? {
      return Err(ApiError(400, "Homework Id is required"));
    }
    if moduleId.None? {
      return Err(ApiError(400, "Module Id is required"));
    }
    var m, h := moduleId.value, homeworkId.value;
    if m !in db.modules {
      return Err(Rethrown(ApiError(404, "Module not found"), "An error occurred while deleting homework"));
    }
    if h !in db.homeworks {
      return Err(Rethrown(ApiError(404, "Homework not found"), "An error occurred while deleting homework"));
    }
    var destroyed := DeleteFromCloudinaryIntended(Some(db.homeworks[h].file), destroy);
    if destroyed.Err? {
      return Err(Rethrown(destroyed.error, "An error occurred while deleting homework"));
    }
    HomeworkRemovalKeepsLinked(db.modules, db.homeworks, m, h);
    db.RemoveHomework(h);
    db.SaveModule(m, db.modules[m].(homeworkIds := Without(db.modules[m].homeworkIds, h)));
    r := Ok("Homework deleted successfully");
  }

  /** The validation error for a submission saved without a file: the
      subdocument path carries its index in the list. */
  function SubmissionError(index: nat): string
  {
    "submissions." + DecimalString(index) + ".submissionFile: Path `submissionFile` is required."
  }

  /** `homeworkSubmission`: the uploaded file is checked before the homework
      id; the store's secure URL is appended as one submission and nothing
      else about the homework changes. */
  method HomeworkSubmission(db: Database, homeworkId: Option<Id>, file: Option<string>, upload: string -> UploadOutcome)
    returns (r: Result<Homework>)
    modifies db`homeworks
    ensures r.Err? ==> db.homeworks == old(db.homeworks)
    ensures Falsy(file) ==> r == Err(ApiError(400, "Submission file is required"))
    ensures !Falsy(file) && homeworkId.None? ==> r == Err(ApiError(400, "Homework Id is required"))
    ensures !Falsy(file) && homeworkId.Some? && homeworkId.value !in old(db.homeworks) ==>
      r == Err(ApiError(500, "Homework not found"))
    ensures !Falsy(file) && homeworkId.Some? && homeworkId.value in old(db.homeworks) && upload(file.value).UploadFailed? ==>
      r == Err(Rethrown(ApiError(500, upload(file.value).message), "An error occurred while submitting homework"))
    ensures !Falsy(file) && homeworkId.Some? && homeworkId.value in old(db.homeworks) && upload(file.value).Uploaded?
            && upload(file.value).secureUrl == "" ==>
      r == Err(ApiError(500, ValidationMessage("Homework",
                 [SubmissionError(|old(db.homeworks)[homeworkId.value].submissions|)])))
    ensures r.Ok? <==> !Falsy(file) && homeworkId.Some? && homeworkId.value in old(db.homeworks)
                       && upload(file.value).Uploaded? && upload(file.value).secureUrl != ""
    ensures r.Ok? ==>
      var h := homeworkId.value;
      r.value == old(db.homeworks)[h].(submissions := old(db.homeworks)[h].submissions + [Submission(upload(file.value).secureUrl)])
      && db.homeworks == old(db.homeworks)[h := r.value]
    ensures Linked(db.modules, old(db.homeworks), HomeworkIdsOf, ModuleOfHomework) ==>
      Linked(db.modules, db.homeworks, HomeworkIdsOf, ModuleOfHomework)
  {
    if Falsy(file) {
      return Err(ApiError(400, "Submission file is required"));
    }
    if homeworkId.None? {
      return Err(ApiError(400, "Homework Id is required"));
    }
    var h := homeworkId.value;
    if h !in db.homeworks {
      return Err(Rethrown(ApiError(404, "Homework not found"), "An error occurred while submitting homework"));
    }
    var uploaded := UploadOnCloudinary(file, upload);
    if uploaded.response.Err? {
      return Err(Rethrown(uploaded.response.error, "An error occurred while submitting homework"));
    }
    // the path is not empty, so the store was called and its response is a value
    var url := uploaded.response.value.value.secureUrl;
    var homework := db.homeworks[h];
    if url == "" {
      return Err(Rethrown(ApiError(400, ValidationMessage("Homework", [SubmissionError(|homework.submissions|)])),
                          "An error occurred while submitting homework"));
    }
    var updated := homework.(submissions := homework.submissions + [Submission(url)]);
    if Linked(db.modules, db.homeworks, HomeworkIdsOf, ModuleOfHomework) {
      ReplaceChildKeepsLinked(db.modules, db.homeworks, HomeworkIdsOf, ModuleOfHomework, h, updated);
    }
    db.homeworks := db.homeworks[h := updated];
    r := Ok(updated);
  }
}

=== FILE: jsonwebtoken.dfy ===
/** JSON Web Tokens (RFC 7519) as the backend uses them through the
    `jsonwebtoken` package: `sign` and `verify` with a shared secret and an
    expiry time.  No cryptography is modelled: a signed token is an opaque
    value that records its claims, the secret it was signed with and its
    issue and expiry times (in seconds).  Tokens travel inside text (a cookie,
    a header, a request body), so text is a sequence of pieces, each an
    ordinary character or a whole signed token. */
module JsonWebToken {
  import opened ObjectIds

  /** The payloads the account model signs. */
  datatype Claims =
    | AccessClaims(id: Id, email: string, username: string, fullName: string)
    | RefreshClaims(id: Id)
  {
    /** `decodedToken?._id` */
    function Subject(): Id
    {
      match this
      case AccessClaims(id, _, _, _) => id
      case RefreshClaims(id) => id
    }
  }

  datatype Token = Token(claims: Claims, secret: string, issuedAt: int, expiresAt: int)

  datatype Piece = Chr(c: char) | Signed(token: Token)

  /** Text as it travels in cookies, headers and bodies. */
  type Wire = seq<Piece>

  /** Plain text as wire text. */
  function Chars(s: string): (w: Wire)
    ensures |w| == |s|
    ensures forall i :: 0 <= i < |s| ==> w[i] == Chr(s[i])
  {
    if s == [] then [] else [Chr(s[0])] + Chars(s[1..])
  }

  /** `jwt.sign(claims, secret, { expiresIn: ttl })` at time `now`. */
  function Sign(claims: Claims, secret: string, now: int, ttl: int): (w: Wire)
    ensures |w| == 1 && w[0].Signed? && w[0].token.claims == claims
  {
    [Signed(Token(claims, secret, now, now + ttl))]
  }

  /** What `jwt.verify` gives: the decoded claims, or the message of the
      error it throws. */
  datatype Verified = Decoded(claims: Claims) | Rejected(message: string)

  /** `jwt.verify(text, secret)` at time `now`. */
  function Verify(text: Wire, secret: string, now: int): (r: Verified)
    ensures r.Decoded? <==> |text| == 1 && text[0].Signed? && text[0].token.secret == secret && now < text[0].token.expiresAt
    ensures r.Decoded? ==> r.claims == text[0].token.claims
    ensures text == [] ==> r == Rejected("jwt must be provided")
  {
    if text == [] then Rejected("jwt must be provided")
    else if |text| != 1 || !text[0].Signed? then Rejected("jwt malformed")
    else if text[0].token.secret != secret then Rejected("invalid signature")
    else if now >= text[0].token.expiresAt then Rejected("jwt expired")
    else Decoded(text[0].token.claims)
  }

  /** Round trip: a signed token verifies under the same secret, before it
      expires, to the claims it was signed with, and under no other secret. */
  lemma VerifySigned(claims: Claims, secret: string, issued: int, ttl: int, key: string, now: int)
    ensures Verify(Sign(claims, secret, issued, ttl), key, now) == Decoded(claims)
       <==> key == secret && now < issued + ttl
    ensures key != secret ==> Verify(Sign(claims, secret, issued, ttl), key, now) == Rejected("invalid signature")
  {
  }

  /** Text made only of characters is never a token. */
  lemma PlainTextIsMalformed(s: string, key: string, now: int)
    requires s != ""
    ensures Verify(Chars(s), key, now) == Rejected("jwt malformed")
  {
    assert Chars(s)[0] == Chr(s[0]);
  }
}

=== FILE: lecture_controller.dfy ===
/** The handlers of `controllers/lecture.controller.js`.  A lecture belongs
    to a module: the module lists it and the lecture points back at the
    module.  Any signed-in user may create, read and delete lectures; no
    handler checks the caller's place on a roster. */
module LectureController {
  import opened Outcome
  import opened ObjectIds
  import opened Store
  import opened ContentTree

  /** `createLecture`: the name is checked before the module id; the new
      lecture points at the module and is pushed onto its lecture list.
      The name is stored as sent: the `lecturename` path has no `trim`. */
  method CreateLecture(db: Database, moduleId: Option<Id>, lecturename: Option<string>) returns (r: Result<Id>)
    requires db.Valid()
    modifies db`modules, db`lectures, db`nextId
    ensures db.Valid()
    ensures r.Err? ==> db.modules == old(db.modules) && db.lectures == old(db.lectures)
    ensures Falsy(lecturename) ==> r == Err(ApiError(400, "Lecture name is required"))
    ensures !Falsy(lecturename) && moduleId.None? ==> r == Err(ApiError(400, "Module Id is required"))
    ensures !Falsy(lecturename) && moduleId.Some? && moduleId.value !in old(db.modules) ==>
      r == Err(ApiError(500, "Module not found"))
    ensures r.Ok? <==> !Falsy(lecturename) && moduleId.Some? && moduleId.value in old(db.modules)
    ensures r.Ok? ==>
      var m := moduleId.value;
      r.value !in old(db.lectures)
      && db.lectures == old(db.lectures)[r.value := Lecture(lecturename.value, m, [], [])]
      && db.modules == old(db.modules)[m := old(db.modules)[m].(lectureIds := old(db.modules)[m].lectureIds + [r.value])]
    ensures r.Ok? && Linked(old(db.modules), old(db.lectures), LectureIdsOf, ModuleOfLecture) ==>
      Linked(db.modules, db.lectures, LectureIdsOf, ModuleOfLecture)
  {
    if Falsy(lecturename) {
      return Err(ApiError(400, "Lecture name is required"));
    }
    if moduleId.None? {
      return Err(ApiError(400, "Module Id is required"));
    }
    var m := moduleId.value;
    if m !in db.modules {
      return Err(Rethrown(ApiError(404, "Module not found"), "An error occurred while creating lecture"));
    }
    var lecture := Lecture(lecturename.value, m, [], []);
    var id := db.InsertLecture(lecture);
    ghost var ids := db.AllIds();
    var updated := db.modules[m].(lectureIds := db.modules[m].lectureIds + [id]);
    if Linked(old(db.modules), old(db.lectures), LectureIdsOf, ModuleOfLecture) {
      AddChildKeepsLinked(old(db.modules), old(db.lectures), LectureIdsOf, ModuleOfLecture, m, id, updated, lecture);
    }
    db.modules := db.modules[m := updated];
    assert db.AllIds() == ids;
    r := Ok(id);
  }

  /** `getLecture`: both ids required (400), then the module and the
      lecture.  The lecture is not checked to be one of the module's. */
  function GetLecture(modules: map<Id, CourseModule>, lectures: map<Id, Lecture>,
                      moduleId: Option<Id>, lectureId: Option<Id>): (r: Result<Lecture>)
    ensures moduleId.None? ==> r == Err(ApiError(400, "Module Id is required"))
    ensures moduleId.Some? && lectureId.None? ==> r == Err(ApiError(400, "Lecture Id is required"))
    ensures moduleId.Some? && lectureId.Some? && moduleId.value !in modules ==> r == Err(ApiError(500, "Module not found"))
    ensures moduleId.Some? && lectureId.Some? && moduleId.value in modules && lectureId.value !in lectures ==>
      r == Err(ApiError(500, "Lecture not found"))
    ensures r.Ok? <==> moduleId.Some? && lectureId.Some? && moduleId.value in modules && lectureId.value in lectures
    ensures r.Ok? ==> r.value == lectures[lectureId.value]
  {
    if moduleId.None? then Err(ApiError(400, "Module Id is required"))
    else if lectureId.None? then Err(ApiError(400, "Lecture Id is required"))
    else if moduleId.value !in modules then Err(Rethrown(ApiError(404, "Module not found"), ""))
    else if lectureId.value !in lectures then Err(Rethrown(ApiError(404, "Lecture not found"), ""))
    else Ok(lectures[lectureId.value])
  }

  /** A lecture of one module is returned under any other existing module's
      id as well. */
  lemma GetLectureIgnoresModule(modules: map<Id, CourseModule>, lectures: map<Id, Lecture>, m: Id, l: Id)
    requires m in modules && l in lectures && lectures[l].moduleId != m
    ensures GetLecture(modules, lectures, Some(m), Some(l)) == Ok(lectures[l])
  {
  }

  /** `getAllLectures`: the lectures that point at the module. */
  function GetAllLectures(modules: map<Id, CourseModule>, lectures: map<Id, Lecture>, moduleId: Option<Id>)
    : (r: Result<map<Id, Lecture>>)
    ensures moduleId.None? ==> r == Err(ApiError(400, "Module Id is required"))
    ensures moduleId.Some? && moduleId.value !in modules ==> r == Err(ApiError(500, "Module not found"))
    ensures r.Ok? <==> moduleId.Some? && moduleId.value in modules
    ensures r.Ok? ==> forall l :: l in r.value <==> l in lectures && lectures[l].moduleId == moduleId.value
    ensures r.Ok? ==> forall l :: l in r.value ==> r.value[l] == lectures[l]
  {
    if moduleId.None? then Err(ApiError(400, "Module Id is required"))
    else if moduleId.value !in modules then Err(Rethrown(ApiError(404, "Module not found"), ""))
    else Ok(ChildrenOf(lectures, ModuleOfLecture, moduleId.value))
  }

  /** While modules and lectures are linked, the lectures found by their
      back-reference are exactly those the module lists, and each of them is
      what `getLecture` returns under that module. */
  lemma AllLecturesAreListed(modules: map<Id, CourseModule>, lectures: map<Id, Lecture>, m: Id)
    requires Linked(modules, lectures, LectureIdsOf, ModuleOfLecture) && m in modules
    ensures GetAllLectures(modules, lectures, Some(m)) == Ok(ChildrenListed(lectures, modules[m].lectureIds))
    ensures forall l :: l in modules[m].lectureIds ==> GetLecture(modules, lectures, Some(m), Some(l)) == Ok(lectures[l])
  {
    LookupsAgree(modules, lectures, LectureIdsOf, ModuleOfLecture, m);
  }

  /** The videos left by `Video.deleteMany({ lecture: l })`. */
  function VideosOutside(videos: map<Id, Video>, l: Id): (r: map<Id, Video>)
    ensures forall v :: v in r <==> v in videos && videos[v].lectureId != l
    ensures forall v :: v in r ==> r[v] == videos[v]
  {
    map v | v in videos && videos[v].lectureId != l :: videos[v]
  }

  /** Deleting a lecture with its videos keeps the lectures and videos
      linked, and, when the lecture was the module's, keeps the modules and
      lectures linked. */
  lemma LectureRemovalKeepsLinks(modules: map<Id, CourseModule>, lectures: map<Id, Lecture>, videos: map<Id, Video>,
                                 m: Id, l: Id)
    requires m in modules && l in lectures
    ensures Linked(lectures, videos, VideoIdsOf, LectureOfVideo) ==>
      Linked(lectures - {l}, VideosOutside(videos, l), VideoIdsOf, LectureOfVideo)
    ensures Linked(modules, lectures, LectureIdsOf, ModuleOfLecture) && lectures[l].moduleId == m ==>
      Linked(modules[m := modules[m].(lectureIds := Without(modules[m].lectureIds, l))], lectures - {l},
             LectureIdsOf, ModuleOfLecture)
  {
    if Linked(lectures, videos, VideoIdsOf, LectureOfVideo) {
      RemoveParentKeepsLinked(lectures, videos, VideoIdsOf, LectureOfVideo, l, VideosOutside(videos, l));
    }
    if Linked(modules, lectures, LectureIdsOf, ModuleOfLecture) && lectures[l].moduleId == m {
      var updated := modules[m].(lectureIds := Without(modules[m].lectureIds, l));
      RemoveChildKeepsLinked(modules, lectures, LectureIdsOf, ModuleOfLecture, m, l, updated);
    }
  }

  /** `deleteLecture`: both ids (400), the module, the lecture; then the
      lecture's videos are deleted, the lecture is pulled from this module's
      list and deleted.  The lecture is not checked to be one of the
      module's. */
  method DeleteLecture(db: Database, moduleId: Option<Id>, lectureId: Option<Id>) returns (r: Result<string>)
    modifies db`modules, db`lectures, db`videos
    ensures r.Err? ==> db.modules == old(db.modules) && db.lectures == old(db.lectures) && db.videos == old(db.videos)
    ensures moduleId.None? ==> r == Err(ApiError(400, "Module Id is required"))
    ensures moduleId.Some? && lectureId.None? ==> r == Err(ApiError(400, "Lecture Id is required"))
    ensures moduleId.Some? && lectureId.Some? && moduleId.value !in old(db.modules) ==> r == Err(ApiError(500, "Module not found"))
    ensures moduleId.Some? && lectureId.Some? && moduleId.value in old(db.modules) && lectureId.value !in old(db.lectures) ==>
      r == Err(ApiError(500, "Lecture not found"))
    ensures r.Ok? <==> moduleId.Some? && lectureId.Some? && moduleId.value in old(db.modules) && lectureId.value in old(db.lectures)
    ensures r.Ok? ==>
      var m, l := moduleId.value, lectureId.value;
      r.value == "Lecture deleted successfully"
      && db.lectures == old(db.lectures) - {l}
      && db.videos == VideosOutside(old(db.videos), l)
      && db.modules == old(db.modules)[m := old(db.modules)[m].(lectureIds := Without(old(db.modules)[m].lectureIds, l))]
    ensures r.Ok? && Linked(old(db.modules), old(db.lectures), LectureIdsOf, ModuleOfLecture)
            && old(db.lectures)[lectureId.value].moduleId == moduleId.value ==>
      Linked(db.modules, db.lectures, LectureIdsOf, ModuleOfLecture)
    ensures Linked(old(db.lectures), old(db.videos), VideoIdsOf, LectureOfVideo) ==>
      Linked(db.lectures, db.videos, VideoIdsOf, LectureOfVideo)
    ensures old(db.Valid()) ==> db.Valid()
  {
    if moduleId.None? {
      return Err(ApiError(400, "Module Id is required"));
    }
    if lectureId.None? {
      return Err(ApiError(400, "Lecture Id is required"));
    }
    var m, l := moduleId.value, lectureId.value;
    if m !in db.modules {
      return Err(Rethrown(ApiError(404, "Module not found"), "An error occurred while deleting lecture"));
    }
    if l !in db.lectures {
      return Err(Rethrown(ApiError(404, "Lecture not found"), "An error occurred while deleting lecture"));
    }
    LectureRemovalKeepsLinks(db.modules, db.lectures, db.videos, m, l);
    var updated := db.modules[m].(lectureIds := Without(db.modules[m].lectureIds, l));
    db.KeepVideos(VideosOutside(db.videos, l));
    db.SaveModule(m, updated);
    db.RemoveLecture(l);
    r := Ok("Lecture deleted successfully");
  }
}

=== FILE: membership.dfy ===
/** The roster changes shared by the two classroom controllers, and what
    each does to the invariant `Mirrored`: a user's classroom list names
    exactly the classrooms that have the user as owner or member. */
module Membership {
  import opened Outcome
  import opened Text
  import opened ObjectIds
  import opened UserModel
  import opened Store

  /** The outcome of a roster change made by an owner: the account it
      concerned and the classroom as saved. */
  datatype MemberChange = MemberChange(target: Id, classroom: Classroom)

  /** `user.classroomID.push(c)` */
  function Enrolled(account: Account, c: Id): Account
  {
    account.(classroomIds := account.classroomIds + [c])
  }

  /** `user.classroomID = user.classroomID.filter(room => room.toString() !== c.toString())` */
  function Forget(account: Account, c: Id): Account
  {
    account.(classroomIds := Without(account.classroomIds, c))
  }

  /** `classroom.classroomMembersID.push(u)` */
  function WithMember(room: Classroom, u: Id): Classroom
  {
    room.(memberIds := room.memberIds + [u])
  }

  /** The member list filtered to drop `u`. */
  function WithoutMember(room: Classroom, u: Id): Classroom
  {
    room.(memberIds := Without(room.memberIds, u))
  }

  /** `makeClassRoomOwner`: `u` pushed onto the owners and pulled from the
      members. */
  function Promoted(room: Classroom, u: Id): Classroom
  {
    room.(ownerIds := room.ownerIds + [u], memberIds := Without(room.memberIds, u))
  }

  /** `leaveClassRoom`: `u` filtered out of both lists. */
  function Departed(room: Classroom, u: Id): Classroom
  {
    room.(memberIds := Without(room.memberIds, u), ownerIds := Without(room.ownerIds, u))
  }

  /** An account found by `User.findOne({ email })`; the `trim` setter runs
      on the filter, and an absent email matches nothing. */
  predicate HasEmail(account: Account, email: Option<string>)
  {
    email.Some? && account.email == Trim(email.value)
  }

  predicate EmailKnown(users: map<Id, Account>, email: Option<string>)
  {
    exists u :: u in users && HasEmail(users[u], email)
  }

  /** A user joining (or being added to) a classroom keeps the mirror. */
  lemma JoinKeepsMirror(users: map<Id, Account>, classrooms: map<Id, Classroom>, c: Id, u: Id)
    requires Mirrored(users, classrooms) && c in classrooms && u in users
    ensures Mirrored(users[u := Enrolled(users[u], c)], classrooms[c := WithMember(classrooms[c], u)])
  {
    var users', classrooms' := users[u := Enrolled(users[u], c)], classrooms[c := WithMember(classrooms[c], u)];
    forall v, d | v in users' && d in classrooms'
      ensures InRoster(classrooms'[d], v) <==> d in users'[v].classroomIds
    {
      assert InRoster(classrooms[d], v) <==> d in users[v].classroomIds;
    }
  }

  /** Promoting a member keeps the mirror: the user stays on the roster. */
  lemma PromoteKeepsMirror(users: map<Id, Account>, classrooms: map<Id, Classroom>, c: Id, u: Id)
    requires Mirrored(users, classrooms) && c in classrooms && u in classrooms[c].memberIds
    ensures Mirrored(users, classrooms[c := Promoted(classrooms[c], u)])
  {
    var classrooms' := classrooms[c := Promoted(classrooms[c], u)];
    forall v, d | v in users && d in classrooms'
      ensures InRoster(classrooms'[d], v) <==> d in users[v].classroomIds
    {
      assert InRoster(classrooms[d], v) <==> d in users[v].classroomIds;
    }
  }

  /** Leaving a classroom (both lists filtered, the classroom forgotten)
      keeps the mirror. */
  lemma LeaveKeepsMirror(users: map<Id, Account>, classrooms: map<Id, Classroom>, c: Id, u: Id)
    requires Mirrored(users, classrooms) && c in classrooms && u in users
    ensures Mirrored(users[u := Forget(users[u], c)], classrooms[c := Departed(classrooms[c], u)])
  {
    var users', classrooms' := users[u := Forget(users[u], c)], classrooms[c := Departed(classrooms[c], u)];
    forall v, d | v in users' && d in classrooms'
      ensures InRoster(classrooms'[d], v) <==> d in users'[v].classroomIds
    {
      assert InRoster(classrooms[d], v) <==> d in users[v].classroomIds;
    }
  }

  /** Removing a member who is not also an owner, and forgetting only that
      classroom on the user's side, keeps the mirror. */
  lemma RemoveKeepsMirror(users: map<Id, Account>, classrooms: map<Id, Classroom>, c: Id, u: Id)
    requires Mirrored(users, classrooms) && c in classrooms && u in users && u !in classrooms[c].ownerIds
    ensures Mirrored(users[u := Forget(users[u], c)], classrooms[c := WithoutMember(classrooms[c], u)])
  {
    var users', classrooms' := users[u := Forget(users[u], c)], classrooms[c := WithoutMember(classrooms[c], u)];
    forall v, d | v in users' && d in classrooms'
      ensures InRoster(classrooms'[d], v) <==> d in users'[v].classroomIds
    {
      assert InRoster(classrooms[d], v) <==> d in users[v].classroomIds;
    }
  }

  /** A new classroom whose only roster entry is its creator, recorded on
      the creator's list, keeps the mirror: no list names the new id yet, as
      it is not yet a classroom's. */
  lemma CreateKeepsMirror(users: map<Id, Account>, classrooms: map<Id, Classroom>, c: Id, room: Classroom, creator: Id)
    requires Mirrored(users, classrooms) && c !in classrooms && creator in users
    requires forall v :: InRoster(room, v) <==> v == creator
    ensures Mirrored(users[creator := Enrolled(users[creator], c)], classrooms[c := room])
  {
    var users', classrooms' := users[creator := Enrolled(users[creator], c)], classrooms[c := room];
    forall v, d | v in users' && d in classrooms'
      ensures InRoster(classrooms'[d], v) <==> d in users'[v].classroomIds
    {
      if d != c {
        assert InRoster(classrooms[d], v) <==> d in users[v].classroomIds;
      }
    }
  }

  /** Every account with `c` pulled from its classroom list. */
  function PulledEverywhere(users: map<Id, Account>, c: Id): (r: map<Id, Account>)
    ensures r.Keys == users.Keys
    ensures forall u :: u in r ==> r[u] == Forget(users[u], c)
  {
    map u | u in users :: Forget(users[u], c)
  }

  /** Deleting a classroom and pulling it from every list keeps the mirror,
      and no list names the deleted classroom afterwards. */
  lemma DeleteKeepsMirror(users: map<Id, Account>, classrooms: map<Id, Classroom>, c: Id)
    requires Mirrored(users, classrooms)
    ensures Mirrored(PulledEverywhere(users, c), classrooms - {c})
    ensures forall u :: u in users ==> c !in PulledEverywhere(users, c)[u].classroomIds
  {
    var users', classrooms' := PulledEverywhere(users, c), classrooms - {c};
    forall v, d | v in users' && d in classrooms'
      ensures InRoster(classrooms'[d], v) <==> d in users'[v].classroomIds
    {
      assert InRoster(classrooms[d], v) <==> d in users[v].classroomIds;
    }
  }

  /** Join and leave are inverse on a classroom list that did not name the
      classroom and a member list that did not name the user. */
  lemma JoinThenLeaveRestores(account: Account, room: Classroom, c: Id, u: Id)
    requires c !in account.classroomIds && u !in room.memberIds
    ensures Forget(Enrolled(account, c), c) == account
    ensures WithoutMember(WithMember(room, u), u) == room
  {
    WithoutUndoesPush(account.classroomIds, c);
    WithoutUndoesPush(room.memberIds, u);
  }
}

=== FILE: module_controller.dfy ===
/** The handlers of `controllers/module.controller.js`.  A module belongs to
    a classroom through the classroom's module list; owners create, rename
    and delete modules, and owners and members read them.  The route
    parameters are `Option`s: a missing one is answered 400 before the
    `try`; everything raised inside the `try` reaches the client as 500. */
module ModuleController {
  import opened Outcome
  import opened Text
  import opened ObjectIds
  import opened Store
  import opened ContentTree

  /** The schema's validation of `moduleName` after its `trim` setter. */
  function ModuleNameErrors(name: Option<string>): (r: seq<string>)
    ensures r == [] <==> name.Some? && !Blank(name.value)
  {
    if name.None? || Blank(name.value) then ["moduleName: Please enter module name"] else []
  }

  /** `createModule`: an owner of the classroom saves a module under a fresh
      id and pushes the id onto the classroom's module list. */
  method CreateModule(db: Database, caller: Id, classroomId: Option<Id>, moduleName: Option<string>)
    returns (r: Result<Id>)
    requires db.Valid()
    modifies db`classrooms, db`modules, db`nextId
    ensures db.Valid()
    ensures r.Err? ==> db.classrooms == old(db.classrooms) && db.modules == old(db.modules)
    ensures classroomId.None? ==> r == Err(ApiError(400, "Classroom Id is required"))
    ensures classroomId.Some? && classroomId.value !in old(db.classrooms) ==> r == Err(ApiError(500, "Classroom not found"))
    ensures classroomId.Some? && classroomId.value in old(db.classrooms)
            && caller !in old(db.classrooms)[classroomId.value].ownerIds ==>
      r == Err(ApiError(500, "You are not authorized to create module in this classroom"))
    ensures classroomId.Some? && classroomId.value in old(db.classrooms)
            && caller in old(db.classrooms)[classroomId.value].ownerIds && ModuleNameErrors(moduleName) != [] ==>
      r == Err(ApiError(500, ValidationMessage("Module", ModuleNameErrors(moduleName))))
    ensures r.Ok? <==> (classroomId.Some? && classroomId.value in old(db.classrooms)
                        && caller in old(db.classrooms)[classroomId.value].ownerIds && ModuleNameErrors(moduleName) == [])
    ensures r.Ok? ==>
      var c := classroomId.value;
      r.value !in old(db.modules)
      && db.modules == old(db.modules)[r.value := CourseModule(Trim(moduleName.value), [], [], [])]
      && db.classrooms == old(db.classrooms)[c := old(db.classrooms)[c].(moduleIds := old(db.classrooms)[c].moduleIds + [r.value])]
    ensures r.Ok? && Listed(old(db.classrooms), old(db.modules), ModuleIdsOf) ==> Listed(db.classrooms, db.modules, ModuleIdsOf)
  {
    if classroomId.None? {
      return Err(ApiError(400, "Classroom Id is required"));
    }
    var c := classroomId.value;
    if c !in db.classrooms {
      return Err(Rethrown(ApiError(400, "Classroom not found"), ""));
    }
    if caller !in db.classrooms[c].ownerIds {
      return Err(Rethrown(ApiError(403, "You are not authorized to create module in this classroom"), ""));
    }
    var errors := ModuleNameErrors(moduleName);
    if errors != [] {
      return Err(Rethrown(ApiError(400, ValidationMessage("Module", errors)), ""));
    }
    var m := CourseModule(Trim(moduleName.value), [], [], []);
    var id := db.InsertModule(m);
    var room := db.classrooms[c].(moduleIds := db.classrooms[c].moduleIds + [id]);
    if Listed(old(db.classrooms), old(db.modules), ModuleIdsOf) {
      AddChildKeepsListed(old(db.classrooms), old(db.modules), ModuleIdsOf, c, id, room, m);
    }
    db.SaveClassroom(c, room);
    r := Ok(id);
  }

  /** `getModule`: both ids required (400), then the classroom, the reader's
      place on its roster (owner or member), and the module.  The module is not checked to be
      one of the classroom's. */
  function GetModule(classrooms: map<Id, Classroom>, modules: map<Id, CourseModule>, caller: Id,
                     classroomId: Option<Id>, moduleId: Option<Id>): (r: Result<CourseModule>)
    ensures classroomId.None? ==> r == Err(ApiError(400, "Classroom Id is required"))
    ensures classroomId.Some? && moduleId.None? ==> r == Err(ApiError(400, "Module Id is required"))
    ensures classroomId.Some? && moduleId.Some? && classroomId.value !in classrooms ==>
      r == Err(ApiError(500, "Classroom not found"))
    ensures classroomId.Some? && moduleId.Some? && classroomId.value in classrooms
            && !InRoster(classrooms[classroomId.value], caller) ==>
      r == Err(ApiError(500, "You are not a member of this classroom"))
    ensures classroomId.Some? && moduleId.Some? && classroomId.value in classrooms
            && InRoster(classrooms[classroomId.value], caller) && moduleId.value !in modules ==>
      r == Err(ApiError(500, "Module not found"))
    ensures r.Ok? <==> (classroomId.Some? && moduleId.Some? && classroomId.value in classrooms
                        && InRoster(classrooms[classroomId.value], caller) && moduleId.value in modules)
    ensures r.Ok? ==> r.value == modules[moduleId.value]
  {
    if classroomId.None? then Err(ApiError(400, "Classroom Id is required"))
    else if moduleId.None? then Err(ApiError(400, "Module Id is required"))
    else if classroomId.value !in classrooms then Err(Rethrown(ApiError(400, "Classroom not found"), ""))
    else if !InRoster(classrooms[classroomId.value], caller) then
      Err(Rethrown(ApiError(403, "You are not a member of this classroom"), ""))
    else if moduleId.value !in modules then Err(Rethrown(ApiError(400, "Module not found"), ""))
    else Ok(modules[moduleId.value])
  }

  /** A member of one classroom can read a module that classroom does not
      list. */
  lemma GetModuleIgnoresClassroom(classrooms: map<Id, Classroom>, modules: map<Id, CourseModule>, caller: Id, c: Id, m: Id)
    requires c in classrooms && InRoster(classrooms[c], caller) && m in modules && m !in classrooms[c].moduleIds
    ensures GetModule(classrooms, modules, caller, Some(c), Some(m)) == Ok(modules[m])
  {
  }

  /** `getAllModules`: for an owner or member, the modules the classroom's
      list names. */
  function GetAllModules(classrooms: map<Id, Classroom>, modules: map<Id, CourseModule>, caller: Id,
                         classroomId: Option<Id>): (r: Result<map<Id, CourseModule>>)
    ensures classroomId.None? ==> r == Err(ApiError(400, "Classroom Id is required"))
    ensures classroomId.Some? && classroomId.value !in classrooms ==> r == Err(ApiError(500, "Classroom not found"))
    ensures classroomId.Some? && classroomId.value in classrooms && !InRoster(classrooms[classroomId.value], caller) ==>
      r == Err(ApiError(500, "You are not a member of this classroom"))
    ensures r.Ok? <==> classroomId.Some? && classroomId.value in classrooms && InRoster(classrooms[classroomId.value], caller)
    ensures r.Ok? ==> forall m :: m in r.value <==> m in modules && m in classrooms[classroomId.value].moduleIds
    ensures r.Ok? ==> forall m :: m in r.value ==> r.value[m] == modules[m]
  {
    if classroomId.None? then Err(ApiError(400, "Classroom Id is required"))
    else if classroomId.value !in classrooms then Err(Rethrown(ApiError(400, "Classroom not found"), ""))
    else if !InRoster(classrooms[classroomId.value], caller) then
      Err(Rethrown(ApiError(403, "You are not a member of this classroom"), ""))
    else Ok(ChildrenListed(modules, classrooms[classroomId.value].moduleIds))
  }

  /** After a module is created in a classroom, reading all of the
      classroom's modules gives what it gave before plus the new one. */
  lemma CreatedModuleIsFetched(classrooms: map<Id, Classroom>, modules: map<Id, CourseModule>, caller: Id,
                               c: Id, id: Id, m: CourseModule)
    requires c in classrooms && InRoster(classrooms[c], caller) && id !in modules
    ensures var classrooms' := classrooms[c := classrooms[c].(moduleIds := classrooms[c].moduleIds + [id])];
      GetAllModules(classrooms', modules[id := m], caller, Some(c))
        == Ok(GetAllModules(classrooms, modules, caller, Some(c)).value[id := m])
  {
    var classrooms' := classrooms[c := classrooms[c].(moduleIds := classrooms[c].moduleIds + [id])];
    var before := GetAllModules(classrooms, modules, caller, Some(c)).value;
    var after := GetAllModules(classrooms', modules[id := m], caller, Some(c)).value;
    forall k ensures k in after <==> k in before[id := m] {
      assert k in classrooms'[c].moduleIds <==> k in classrooms[c].moduleIds || k == id;
    }
    assert after == before[id := m];
  }

  /** After a module is deleted and pulled from its classroom, reading all
      of the classroom's modules gives what it gave before without it. */
  lemma DeletedModuleIsGone(classrooms: map<Id, Classroom>, modules: map<Id, CourseModule>, caller: Id, c: Id, id: Id)
    requires c in classrooms && InRoster(classrooms[c], caller)
    ensures var classrooms' := classrooms[c := classrooms[c].(moduleIds := Without(classrooms[c].moduleIds, id))];
      GetAllModules(classrooms', modules - {id}, caller, Some(c))
        == Ok(GetAllModules(classrooms, modules, caller, Some(c)).value - {id})
  {
    var classrooms' := classrooms[c := classrooms[c].(moduleIds := Without(classrooms[c].moduleIds, id))];
    var before := GetAllModules(classrooms, modules, caller, Some(c)).value;
    var after := GetAllModules(classrooms', modules - {id}, caller, Some(c)).value;
    forall k ensures k in after <==> k in before - {id} {
      assert k in classrooms'[c].moduleIds <==> k in classrooms[c].moduleIds && k != id;
    }
    assert after == before - {id};
  }

  /** `updateModule`: both ids (400), the classroom, the module, then the
      owner check, and only then the new name; only the name changes. */
  method UpdateModule(db: Database, caller: Id, classroomId: Option<Id>, moduleId: Option<Id>, moduleName: Option<string>)
    returns (r: Result<CourseModule>)
    modifies db`modules
    ensures r.Err? ==> db.modules == old(db.modules)
    ensures classroomId.None? ==> r == Err(ApiError(400, "Classroom Id is required"))
    ensures classroomId.Some? && moduleId.None? ==> r == Err(ApiError(400, "Module Id is required"))
    ensures classroomId.Some? && moduleId.Some? && classroomId.value !in db.classrooms ==>
      r == Err(ApiError(500, "Classroom not found"))
    ensures classroomId.Some? && moduleId.Some? && classroomId.value in db.classrooms && moduleId.value !in old(db.modules) ==>
      r == Err(ApiError(500, "Module not found"))
    ensures classroomId.Some? && moduleId.Some? && classroomId.value in db.classrooms && moduleId.value in old(db.modules)
            && caller !in db.classrooms[classroomId.value].ownerIds ==>
      r == Err(ApiError(500, "You are not authorized to update module in this classroom"))
    ensures classroomId.Some? && moduleId.Some? && classroomId.value in db.classrooms && moduleId.value in old(db.modules)
            && caller in db.classrooms[classroomId.value].ownerIds && Falsy(moduleName) ==>
      r == Err(ApiError(500, "Module name is required"))
    ensures classroomId.Some? && moduleId.Some? && classroomId.value in db.classrooms && moduleId.value in old(db.modules)
            && caller in db.classrooms[classroomId.value].ownerIds && !Falsy(moduleName) && Blank(moduleName.value) ==>
      r == Err(ApiError(500, ValidationMessage("Module", ["moduleName: Please enter module name"])))
    ensures r.Ok? <==> (classroomId.Some? && moduleId.Some? && classroomId.value in db.classrooms && moduleId.value in old(db.modules)
                        && caller in db.classrooms[classroomId.value].ownerIds && ModuleNameErrors(moduleName) == [])
    ensures r.Ok? ==>
      db.modules == old(db.modules)[moduleId.value := old(db.modules)[moduleId.value].(name := Trim(moduleName.value))]
      && r.value == db.modules[moduleId.value]
    ensures Linked(old(db.modules), db.lectures, LectureIdsOf, ModuleOfLecture) ==>
      Linked(db.modules, db.lectures, LectureIdsOf, ModuleOfLecture)
    ensures Linked(old(db.modules), db.notes, NoteIdsOf, ModuleOfNote) ==> Linked(db.modules, db.notes, NoteIdsOf, ModuleOfNote)
    ensures Linked(old(db.modules), db.homeworks, HomeworkIdsOf, ModuleOfHomework) ==>
      Linked(db.modules, db.homeworks, HomeworkIdsOf, ModuleOfHomework)
  {
    if classroomId.None? {
      return Err(ApiError(400, "Classroom Id is required"));
    }
    if moduleId.None? {
      return Err(ApiError(400, "Module Id is required"));
    }
    var c, m := classroomId.value, moduleId.value;
    if c !in db.classrooms {
      return Err(Rethrown(ApiError(400, "Classroom not found"), ""));
    }
    if m !in db.modules {
      return Err(Rethrown(ApiError(400, "Module not found"), ""));
    }
    if caller !in db.classrooms[c].ownerIds {
      return Err(Rethrown(ApiError(403, "You are not authorized to update module in this classroom"), ""));
    }
    if Falsy(moduleName) {
      return Err(Rethrown(ApiError(400, "Module name is required"), ""));
    }
    if Blank(moduleName.value) {
      return Err(Rethrown(ApiError(400, ValidationMessage("Module", ["moduleName: Please enter module name"])), ""));
    }
    var updated := db.modules[m].(name := Trim(moduleName.value));
    RenameKeepsLinks(db.modules, db.lectures, db.notes, db.homeworks, m, updated);
    db.SaveModule(m, updated);
    r := Ok(updated);
  }

  /** A module saved again with its three lists untouched keeps every
      link to its lectures, notes and homeworks. */
  lemma RenameKeepsLinks(modules: map<Id, CourseModule>, lectures: map<Id, Lecture>, notes: map<Id, Note>,
                         homeworks: map<Id, Homework>, m: Id, updated: CourseModule)
    requires m in modules && updated.lectureIds == modules[m].lectureIds
    requires updated.noteIds == modules[m].noteIds && updated.homeworkIds == modules[m].homeworkIds
    ensures Linked(modules, lectures, LectureIdsOf, ModuleOfLecture) ==>
      Linked(modules[m := updated], lectures, LectureIdsOf, ModuleOfLecture)
    ensures Linked(modules, notes, NoteIdsOf, ModuleOfNote) ==>
      Linked(modules[m := updated], notes, NoteIdsOf, ModuleOfNote)
    ensures Linked(modules, homeworks, HomeworkIdsOf, ModuleOfHomework) ==>
      Linked(modules[m := updated], homeworks, HomeworkIdsOf, ModuleOfHomework)
  {
    if Linked(modules, lectures, LectureIdsOf, ModuleOfLecture) {
      ReplaceParentKeepsLinked(modules, lectures, LectureIdsOf, ModuleOfLecture, m, updated);
    }
    if Linked(modules, notes, NoteIdsOf, ModuleOfNote) {
      ReplaceParentKeepsLinked(modules, notes, NoteIdsOf, ModuleOfNote, m, updated);
    }
    if Linked(modules, homeworks, HomeworkIdsOf, ModuleOfHomework) {
      ReplaceParentKeepsLinked(modules, homeworks, HomeworkIdsOf, ModuleOfHomework, m, updated);
    }
  }

  /** `deleteModule`: both ids (400), the classroom, the module, the owner
      check; the module is deleted and pulled from this classroom's list. */
  method DeleteModule(db: Database, caller: Id, classroomId: Option<Id>, moduleId: Option<Id>) returns (r: Result<string>)
    modifies db`classrooms, db`modules
    ensures r.Err? ==> db.classrooms == old(db.classrooms) && db.modules == old(db.modules)
    ensures classroomId.None? ==> r == Err(ApiError(400, "Classroom Id is required"))
    ensures classroomId.Some? && moduleId.None? ==> r == Err(ApiError(400, "Module Id is required"))
    ensures classroomId.Some? && moduleId.Some? && classroomId.value !in old(db.classrooms) ==>
      r == Err(ApiError(500, "Classroom not found"))
    ensures classroomId.Some? && moduleId.Some? && classroomId.value in old(db.classrooms) && moduleId.value !in old(db.modules) ==>
      r == Err(ApiError(500, "Module not found"))
    ensures classroomId.Some? && moduleId.Some? && classroomId.value in old(db.classrooms) && moduleId.value in old(db.modules)
            && caller !in old(db.classrooms)[classroomId.value].ownerIds ==>
      r == Err(ApiError(500, "You are not authorized to delete module in this classroom"))
    ensures r.Ok? <==> (classroomId.Some? && moduleId.Some? && classroomId.value in old(db.classrooms)
                        && moduleId.value in old(db.modules) && caller in old(db.classrooms)[classroomId.value].ownerIds)
    ensures r.Ok? ==>
      var c, m := classroomId.value, moduleId.value;
      r.value == "Module deleted successfully"
      && db.modules == old(db.modules) - {m}
      && db.classrooms == old(db.classrooms)[c := old(db.classrooms)[c].(moduleIds := Without(old(db.classrooms)[c].moduleIds, m))]
    ensures r.Ok? && Listed(old(db.classrooms), old(db.modules), ModuleIdsOf)
            && (forall d :: d in old(db.classrooms) && d != classroomId.value ==> moduleId.value !in old(db.classrooms)[d].moduleIds) ==>
      Listed(db.classrooms, db.modules, ModuleIdsOf)
    ensures old(db.Valid()) ==> db.Valid()
  {
    if classroomId.None? {
      return Err(ApiError(400, "Classroom Id is required"));
    }
    if moduleId.None? {
      return Err(ApiError(400, "Module Id is required"));
    }
    var c, m := classroomId.value, moduleId.value;
    if c !in db.classrooms {
      return Err(Rethrown(ApiError(400, "Classroom not found"), ""));
    }
    if m !in db.modules {
      return Err(Rethrown(ApiError(400, "Module not found"), ""));
    }
    if caller !in db.classrooms[c].ownerIds {
      return Err(Rethrown(ApiError(403, "You are not authorized to delete module in this classroom"), ""));
    }
    var room := db.classrooms[c].(moduleIds := Without(db.classrooms[c].moduleIds, m));
    if Listed(db.classrooms, db.modules, ModuleIdsOf)
       && (forall d :: d in db.classrooms && d != c ==> m !in db.classrooms[d].moduleIds) {
      RemoveChildKeepsListed(db.classrooms, db.modules, ModuleIdsOf, c, m, room);
    }
    db.RemoveModule(m);
    db.SaveClassroom(c, room);
    r := Ok("Module deleted successfully");
  }
}

=== FILE: multer.dfy ===
/** The upload middleware of `middlewares/multer.js`: the name a stored file
    gets and the filter that admits only images. */
module Multer {
  import opened Outcome
  import opened Text

  /** `/jpeg|jpg|png/.test(s)`: the regular expression is not anchored, so
      it matches any string containing one of the three words. */
  predicate IsImageWord(s: string)
  {
    Contains(s, "jpeg") || Contains(s, "jpg") || Contains(s, "png")
  }

  /** `name` without the run of "/" that ends it: `path.extname` skips
      trailing separators before it looks for the last segment. */
  function WithoutTrailingSlashes(name: string): (r: string)
    ensures |r| <= |name| && r == name[..|r|]
    ensures r == [] || r[|r| - 1] != '/'
    ensures forall i :: |r| <= i < |name| ==> name[i] == '/'
  {
    if name != [] && name[|name| - 1] == '/' then WithoutTrailingSlashes(name[..|name| - 1]) else name
  }

  /** The extension of one path segment: from its last "." on; empty when
      the segment has no ".", when its only dot leads it (".profile"), and
      for "..". */
  function SegmentExt(base: string): (ext: string)
    ensures ext == [] <==> '.' !in base || '.' !in base[1..] || base == ".."
    ensures ext != [] ==> |ext| <= |base| && ext == base[|base| - |ext|..] && ext[0] == '.' && '.' !in ext[1..]
    ensures forall ch :: ch in ext ==> ch in base
  {
    var tail := AfterLast(base, '.');
    AfterLastFacts(base, '.');
    LastDotFacts(base);
    if |tail| == |base| || |tail| + 1 == |base| || base == ".." then [] else ['.'] + tail
  }

  /** `path.extname(name)`: the extension of the final segment, once
      trailing "/" are skipped. */
  function ExtName(name: string): (ext: string)
    ensures var base := AfterLast(WithoutTrailingSlashes(name), '/');
      (ext == [] <==> '.' !in base || '.' !in base[1..] || base == "..")
      && (ext != [] ==> |ext| <= |base| && ext == base[|base| - |ext|..] && ext[0] == '.' && '.' !in ext[1..])
    ensures '/' !in ext
  {
    AfterLastFacts(WithoutTrailingSlashes(name), '/');
    SegmentExt(AfterLast(WithoutTrailingSlashes(name), '/'))
  }

  /** A trailing "/" does not change the extension: "a.png/" gives ".png". */
  lemma TrailingSlashIgnored(name: string)
    ensures ExtName(name + "/") == ExtName(name)
  {
    assert (name + "/")[..|name|] == name;
  }

  /** What follows the last dot of a segment: the segment has a dot exactly
      when something precedes that tail, and a dot after its first character
      exactly when more than the dot itself precedes it. */
  lemma LastDotFacts(base: string)
    ensures var tail := AfterLast(base, '.');
      ('.' in base <==> |tail| < |base|)
      && (|tail| < |base| ==> base[|base| - |tail| - 1..] == ['.'] + tail
                               && ('.' in base[1..] <==> |tail| + 1 < |base|))
  {
    var tail := AfterLast(base, '.');
    AfterLastFacts(base, '.');
    if |tail| < |base| {
      var d := |base| - |tail| - 1;
      assert base[d] == '.';
      assert base[d..] == ['.'] + tail;
      if d >= 1 { assert base[1..][d - 1] == '.'; }
    } else {
      assert tail == base;
    }
  }

  /** A last segment made of a stem and an extension joined by a dot gives
      that extension back, unless the segment is "..". */
  lemma ExtNameOfSegment(name: string, stem: string, ext: string)
    requires stem != [] && '/' !in stem && '/' !in ext && '.' !in ext
    requires stem + "." + ext != ".." && AfterLast(WithoutTrailingSlashes(name), '/') == stem + "." + ext
    ensures ExtName(name) == "." + ext
  {
    var base := stem + "." + ext;
    assert base[1..][|stem| - 1] == '.';
    var r := ExtName(name);
    assert r != [];
    assert r == base[|stem|..] == "." + ext;
  }

  /** `path.extname(dir + "/" + stem + "." + ext)` is `"." + ext`. */
  lemma ExtNameOfDottedName(dir: string, stem: string, ext: string)
    requires stem != [] && '/' !in stem && '/' !in ext && '.' !in ext
    requires stem + "." + ext != ".."
    ensures ExtName(dir + "/" + stem + "." + ext) == "." + ext
  {
    var base := stem + "." + ext;
    assert dir + "/" + stem + "." + ext == (dir + "/") + base;
    AfterLastOfTail(dir + "/", base, '/');
    ExtNameOfSegment(dir + "/" + stem + "." + ext, stem, ext);
  }

  /** `path.extname(stem + "." + ext)` for a name without a directory is
      `"." + ext`. */
  lemma ExtNameOfPlainName(stem: string, ext: string)
    requires stem != [] && '/' !in stem && '/' !in ext && '.' !in ext
    requires stem + "." + ext != ".."
    ensures ExtName(stem + "." + ext) == "." + ext
  {
    NoSepAfterLast(stem + "." + ext, '/');
    ExtNameOfSegment(stem + "." + ext, stem, ext);
  }

  /** The `filename` callback: field name, "-", the upload time in
      milliseconds, and the original extension. */
  function FileName(fieldname: string, originalname: string, now: nat): (name: string)
    ensures |name| > |fieldname| + 1 && name[..|fieldname| + 1] == fieldname + "-"
  {
    fieldname + "-" + DecimalString(now) + ExtName(originalname)
  }

  /** The `fileFilter` callback: the file is accepted when both its declared
      mimetype and its lower-cased extension match the image words; otherwise
      the upload fails with 400 "Only images are allowed". */
  function FileFilter(mimetype: string, originalname: string): (r: Result<bool>)
    ensures r.Ok? <==> IsImageWord(mimetype) && IsImageWord(ToLower(ExtName(originalname)))
    ensures r.Ok? ==> r.value
    ensures r.Err? ==> r.error == ApiError(400, "Only images are allowed")
  {
    if IsImageWord(mimetype) && IsImageWord(ToLower(ExtName(originalname))) then Ok(true)
    else Err(ApiError(400, "Only images are allowed"))
  }

  /** The image test holds exactly when "jpeg", "jpg" or "png" occurs
      somewhere in the string. */
  lemma ImageWordIffOccurs(s: string)
    ensures IsImageWord(s) <==>
      (exists i :: OccursAt(s, "jpeg", i)) || (exists i :: OccursAt(s, "jpg", i))
      || (exists i :: OccursAt(s, "png", i))
  {
    ContainsIffOccurs(s, "jpeg");
    ContainsIffOccurs(s, "jpg");
    ContainsIffOccurs(s, "png");
  }

  /** A string contains a non-empty word only if it contains the word's
      first character. */
  lemma {:induction false} ContainsFirstChar(s: string, sub: string)
    requires sub != [] && Contains(s, sub)
    ensures sub[0] in s
  {
    if |sub| <= |s| && s[..|sub|] == sub {
      assert s[0] == sub[0];
    } else {
      ContainsFirstChar(s[1..], sub);
    }
  }

  /** The mimetype is matched as sent: one written in capitals, such as
      "IMAGE/PNG", has no lower-case "j" or "p" and is refused whatever the
      file is called. */
  lemma CapitalMimetypeRefused(mimetype: string, originalname: string)
    requires 'j' !in mimetype && 'p' !in mimetype
    ensures FileFilter(mimetype, originalname) == Err(ApiError(400, "Only images are allowed"))
  {
    if Contains(mimetype, "jpeg") { ContainsFirstChar(mimetype, "jpeg"); }
    if Contains(mimetype, "jpg") { ContainsFirstChar(mimetype, "jpg"); }
    if Contains(mimetype, "png") { ContainsFirstChar(mimetype, "png"); }
  }

  /** The extension is lower-cased before the test: any plain name ending
      in ".PNG" passes with an image mimetype. */
  lemma CapitalExtensionAccepted(stem: string)
    requires stem != [] && '/' !in stem
    ensures FileFilter("image/png", stem + ".PNG") == Ok(true)
  {
    assert stem + ".PNG" == stem + "." + "PNG";
    ExtNameOfPlainName(stem, "PNG");
    assert ToLower(".PNG") == ".png";
    PngExtensionIsImage();
    PngMimetypeIsImage();
  }

  lemma PngExtensionIsImage()
    ensures IsImageWord(".png")
  {
    ContainsIffOccurs(".png", "png");
    assert OccursAt(".png", "png", 1);
  }

  lemma PngMimetypeIsImage()
    ensures IsImageWord("image/png")
  {
    ContainsIffOccurs("image/png", "png");
    assert OccursAt("image/png", "png", 6);
  }

  /** Appending text free of `c` extends what follows the last `c`. */
  lemma {:induction false} AfterLastAppend(p: string, q: string, c: char)
    requires c !in q
    ensures AfterLast(p + q, c) == AfterLast(p, c) + q
  {
    if q != [] {
      var n := |q|;
      var s := p + q;
      assert s[..|s| - 1] == p + q[..n - 1];
      assert s[|s| - 1] == q[n - 1] != c;
      assert AfterLast(s, c) == AfterLast(s[..|s| - 1], c) + [s[|s| - 1]];
      AfterLastAppend(p, q[..n - 1], c);
      assert q == q[..n - 1] + [q[n - 1]];
    } else {
      assert p + q == p;
    }
  }

  /** A string that ends in a character other than `c` has a non-empty part
      after its last `c`, ending in that same character. */
  lemma AfterLastOfNonSeparatorEnd(s: string, c: char)
    requires s != [] && s[|s| - 1] != c
    ensures AfterLast(s, c) != [] && AfterLast(s, c)[|AfterLast(s, c)| - 1] == s[|s| - 1]
  {
  }

  /** The stored name keeps the original extension: `path.extname` of the
      name produced by `FileName` is the extension of the uploaded file,
      whenever that file has one. */
  lemma FileNameKeepsExtension(fieldname: string, originalname: string, now: nat)
    requires ExtName(originalname) != []
    ensures ExtName(FileName(fieldname, originalname, now)) == ExtName(originalname)
  {
    var digits := DecimalString(now);
    var p := fieldname + "-" + digits;
    assert FileName(fieldname, originalname, now) == p + ExtName(originalname);
    assert p[|p| - 1] == digits[|digits| - 1];
    ExtNameOfSuffix(p, ExtName(originalname));
  }

  /** A name whose text ends in neither "/" nor "." before a dotted
      extension keeps that extension. */
  lemma ExtNameOfSuffix(p: string, e: string)
    requires p != [] && p[|p| - 1] != '/' && p[|p| - 1] != '.'
    requires e != [] && e[0] == '.' && '.' !in e[1..] && '/' !in e
    ensures ExtName(p + e) == e
  {
    var name := p + e;
    assert WithoutTrailingSlashes(name) == name by { assert name[|name| - 1] == e[|e| - 1]; }
    AfterLastAppend(p, e, '/');
    var stem := AfterLast(p, '/');
    AfterLastOfNonSeparatorEnd(p, '/');
    AfterLastFacts(p, '/');
    var t := e[1..];
    assert stem + "." + t == stem + e by { assert e == "." + t; }
    assert (stem + "." + t)[|stem| - 1] == stem[|stem| - 1];
    ExtNameOfSegment(name, stem, t);
  }
}

=== FILE: note_controller.dfy ===
/** The handlers of `controllers/note.controller.js` (the file the notes
    router mounts).  A note belongs to a module: the module lists it and the
    note points back at the module.  Its file is the secure URL the asset
    store returns for the upload.  No handler checks the caller's place on
    a roster. */
module NoteController {
  import opened Outcome
  import opened Text
  import opened ObjectIds
  import opened Store
  import opened ContentTree
  import opened Cloudinary

  /** The `Note` schema's validation of the file about to be saved. */
  function NoteErrors(file: string): (r: seq<string>)
    ensures r == [] <==> file != ""
  {
    if file == "" then ["notesFile: Please upload a file"] else []
  }

  /** `addNote`: the module id (400), then the module, the uploaded file and
      the store's reply.  The new note's id is pushed onto the module's list
      and the module saved before the note itself is validated and saved, so
      a note that fails validation leaves its id on the module's list. */
  method AddNote(db: Database, moduleId: Option<Id>, file: Option<string>, upload: string -> UploadOutcome)
    returns (r: Result<Id>)
    requires db.Valid()
    modifies db`modules, db`notes, db`nextId
    ensures db.Valid()
    ensures moduleId.None? ==> r == Err(ApiError(400, "Module Id is required"))
    ensures moduleId.Some? && moduleId.value !in old(db.modules) ==> r == Err(ApiError(500, "Module not found"))
    ensures moduleId.Some? && moduleId.value in old(db.modules) && Falsy(file) ==>
      r == Err(ApiError(500, "Note file is required"))
    ensures moduleId.Some? && moduleId.value in old(db.modules) && !Falsy(file) && upload(file.value).UploadFailed? ==>
      r == Err(Rethrown(ApiError(500, upload(file.value).message), "An error occurred while adding notefile"))
    ensures moduleId.Some? && moduleId.value in old(db.modules) && !Falsy(file) && upload(file.value).Uploaded?
            && upload(file.value).secureUrl == "" ==>
      r == Err(ApiError(500, ValidationMessage("Note", NoteErrors(""))))
      && db.notes == old(db.notes)
      && exists id :: (id !in old(db.notes)
                       && db.modules == old(db.modules)[moduleId.value := old(db.modules)[moduleId.value].(
                                          noteIds := old(db.modules)[moduleId.value].noteIds + [id])])
    ensures r.Err? && !(moduleId.Some? && moduleId.value in old(db.modules) && !Falsy(file) && upload(file.value).Uploaded?) ==>
      db.modules == old(db.modules) && db.notes == old(db.notes)
    ensures r.Ok? <==> moduleId.Some? && moduleId.value in old(db.modules) && !Falsy(file)
                       && upload(file.value).Uploaded? && upload(file.value).secureUrl != ""
    ensures r.Ok? ==>
      var m := moduleId.value;
      r.value !in old(db.notes)
      && db.notes == old(db.notes)[r.value := Note(upload(file.value).secureUrl, m)]
      && db.modules == old(db.modules)[m := old(db.modules)[m].(noteIds := old(db.modules)[m].noteIds + [r.value])]
    ensures r.Ok? && Linked(old(db.modules), old(db.notes), NoteIdsOf, ModuleOfNote) ==>
      Linked(db.modules, db.notes, NoteIdsOf, ModuleOfNote)
  {
    if moduleId.None? {
      return Err(ApiError(400, "Module Id is required"));
    }
    var m := moduleId.value;
    if m !in db.modules {
      return Err(Rethrown(ApiError(404, "Module not found"), "An error occurred while adding notefile"));
    }
    if Falsy(file) {
      return Err(Rethrown(ApiError(400, "Note file is required"), "An error occurred while adding notefile"));
    }
    var uploaded := UploadOnCloudinary(file, upload);
    if uploaded.response.Err? {
      return Err(Rethrown(uploaded.response.error, "An error occurred while adding notefile"));
    }
    // the path is not empty, so the store was called and its response is a value
    var url := uploaded.response.value.value.secureUrl;
    var id := db.NewId();
    var updated := db.modules[m].(noteIds := db.modules[m].noteIds + [id]);
    db.SaveModule(m, updated);
    var errors := NoteErrors(url);
    if errors != [] {
      return Err(Rethrown(ApiError(400, ValidationMessage("Note", errors)), "An error occurred while adding notefile"));
    }
    var note := Note(url, m);
    if Linked(old(db.modules), old(db.notes), NoteIdsOf, ModuleOfNote) {
      AddChildKeepsLinked(old(db.modules), old(db.notes), NoteIdsOf, ModuleOfNote, m, id, updated, note);
    }
    db.SaveNewNote(id, note);
    r := Ok(id);
  }

  /** `getNotes`: the notes that point at the module.  (`find` yields a
      list, possibly empty, never nothing, so the "No notes found" branch is
      never taken.) */
  function GetNotes(modules: map<Id, CourseModule>, notes: map<Id, Note>, moduleId: Option<Id>): (r: Result<map<Id, Note>>)
    ensures moduleId.None? ==> r == Err(ApiError(400, "Module Id is required"))
    ensures moduleId.Some? && moduleId.value !in modules ==> r == Err(ApiError(500, "Module not found"))
    ensures r.Ok? <==> moduleId.Some? && moduleId.value in modules
    ensures r.Ok? ==> forall n :: n in r.value <==> n in notes && notes[n].moduleId == moduleId.value
    ensures r.Ok? ==> forall n :: n in r.value ==> r.value[n] == notes[n]
  {
    if moduleId.None? then Err(ApiError(400, "Module Id is required"))
    else if moduleId.value !in modules then Err(Rethrown(ApiError(404, "Module not found"), ""))
    else Ok(ChildrenOf(notes, ModuleOfNote, moduleId.value))
  }

  /** While modules and notes are linked, the notes found by their
      back-reference are exactly those the module lists. */
  lemma AllNotesAreListed(modules: map<Id, CourseModule>, notes: map<Id, Note>, m: Id)
    requires Linked(modules, notes, NoteIdsOf, ModuleOfNote) && m in modules
    ensures GetNotes(modules, notes, Some(m)) == Ok(ChildrenListed(notes, modules[m].noteIds))
  {
    LookupsAgree(modules, notes, NoteIdsOf, ModuleOfNote, m);
  }

  /** The store results `deleteNote` accepts. */
  predicate Accepted(result: string)
  {
    result == "ok" || result == "not found"
  }

  /** The delete wrapper called with the note's public id (the handler cuts
      the URL down itself, and the wrapper derives the public id again),
      stated against the URL: the asset destroyed is the one the URL names. */
  function DestroyNoteFile(file: string, destroy: string -> DestroyOutcome): (r: Result<string>)
    ensures GetPublicIdFromUrl(file) == "" ==> r == Err(ApiError(400, "Invalid URL of cloudinary asset"))
    ensures r.Ok? <==> GetPublicIdFromUrl(file) != "" && destroy(GetPublicIdFromUrl(file)).Destroyed?
    ensures r.Ok? ==> r.value == destroy(GetPublicIdFromUrl(file)).result
    ensures r.Err? ==> r.error.status == 400
  {
    PublicIdIdempotent(file);
    DeleteFromCloudinaryIntended(Some(GetPublicIdFromUrl(file)), destroy)
  }

  /** Deleting a note that points at the module it is pulled from keeps
      modules and notes linked. */
  lemma NoteRemovalKeepsLinked(modules: map<Id, CourseModule>, notes: map<Id, Note>, m: Id, n: Id)
    requires m in modules && n in notes
    ensures Linked(modules, notes, NoteIdsOf, ModuleOfNote) && notes[n].moduleId == m ==>
      Linked(modules[m := modules[m].(noteIds := Without(modules[m].noteIds, n))], notes - {n}, NoteIdsOf, ModuleOfNote)
  {
    if Linked(modules, notes, NoteIdsOf, ModuleOfNote) && notes[n].moduleId == m {
      var updated := modules[m].(noteIds := Without(modules[m].noteIds, n));
      RemoveChildKeepsLinked(modules, notes, NoteIdsOf, ModuleOfNote, m, n, updated);
    }
  }

  /** `deleteNote`: both ids (400), the module, the note; the asset the
      note's URL names is destroyed, and unless the store answers "ok" or
      "not found" nothing changes; then the note is pulled from this
      module's list and deleted.  The note is not checked to be one of the
      module's. */
  method DeleteNote(db: Database, moduleId: Option<Id>, noteId: Option<Id>, destroy: string -> DestroyOutcome)
    returns (r: Result<string>)
    modifies db`modules, db`notes
    ensures r.Err? ==> db.modules == old(db.modules) && db.notes == old(db.notes)
    ensures moduleId.None? ==> r == Err(ApiError(400, "Module Id is required"))
    ensures moduleId.Some? && noteId.None? ==> r == Err(ApiError(400, "Note Id is required"))
    ensures moduleId.Some? && noteId.Some? && moduleId.value !in old(db.modules) ==> r == Err(ApiError(500, "Module not found"))
    ensures moduleId.Some? && noteId.Some? && moduleId.value in old(db.modules) && noteId.value !in old(db.notes) ==>
      r == Err(ApiError(500, "Note not found"))
    ensures moduleId.Some? && noteId.Some? && moduleId.value in old(db.modules) && noteId.value in old(db.notes)
            && DestroyNoteFile(old(db.notes)[noteId.value].file, destroy).Err? ==>
      r == Err(Rethrown(DestroyNoteFile(old(db.notes)[noteId.value].file, destroy).error, "An error occurred while deleting note"))
    ensures moduleId.Some? && noteId.Some? && moduleId.value in old(db.modules) && noteId.value in old(db.notes)
            && DestroyNoteFile(old(db.notes)[noteId.value].file, destroy).Ok?
            && !Accepted(DestroyNoteFile(old(db.notes)[noteId.value].file, destroy).value) ==>
      r == Err(ApiError(500, "An error occurred while deleting note file"))
    ensures r.Ok? <==> moduleId.Some? && noteId.Some? && moduleId.value in old(db.modules) && noteId.value in old(db.notes)
                       && DestroyNoteFile(old(db.notes)[noteId.value].file, destroy).Ok?
                       && Accepted(DestroyNoteFile(old(db.notes)[noteId.value].file, destroy).value)
    ensures r.Ok? ==>
      var m, n := moduleId.value, noteId.value;
      r.value == "Note deleted successfully"
      && destroy(GetPublicIdFromUrl(old(db.notes)[n].file)).Destroyed?
      && Accepted(destroy(GetPublicIdFromUrl(old(db.notes)[n].file)).result)
      && db.notes == old(db.notes) - {n}
      && db.modules == old(db.modules)[m := old(db.modules)[m].(noteIds := Without(old(db.modules)[m].noteIds, n))]
    ensures r.Ok? && Linked(old(db.modules), old(db.notes), NoteIdsOf, ModuleOfNote)
            && old(db.notes)[noteId.value].moduleId == moduleId.value ==>
      Linked(db.modules, db.notes, NoteIdsOf, ModuleOfNote)
    ensures old(db.Valid()) ==> db.Valid()
  {
    if moduleId.None? {
      return Err(ApiError(400, "Module Id is required"));
    }
    if noteId.None? {
      return Err(ApiError(400, "Note Id is required"));
    }
    var m, n := moduleId.value, noteId.value;
    if m !in db.modules {
      return Err(Rethrown(ApiError(404, "Module not found"), "An error occurred while deleting note"));
    }
    if n !in db.notes {
      return Err(Rethrown(ApiError(404, "Note not found"), "An error occurred while deleting note"));
    }
    var deleted := DestroyNoteFile(db.notes[n].file, destroy);
    if deleted.Err? {
      return Err(Rethrown(deleted.error, "An error occurred while deleting note"));
    }
    if !Accepted(deleted.value) {
      return Err(Rethrown(ApiError(500, "An error occurred while deleting note file"), "An error occurred while deleting note"));
    }
    NoteRemovalKeepsLinked(db.modules, db.notes, m, n);
    db.SaveModule(m, db.modules[m].(noteIds := Without(db.modules[m].noteIds, n)));
    db.RemoveNote(n);
    r := Ok("Note deleted successfully");
  }
}

=== FILE: object_ids.dfy ===
/** Document identifiers.  MongoDB's ObjectIds are modelled as natural
    numbers; what matters to the handlers is that they are unique and that
    `toString()` gives each one its own comma-free text. */
module ObjectIds {
  import opened Text

  type Id = nat

  /** `id.toString()`. */
  function IdText(id: Id): (t: string)
    ensures t != [] && ',' !in t
  {
    DecimalString(id)
  }

  /** A number of ten or more has at least two digits. */
  lemma {:induction false} DecimalStringLength(n: nat)
    ensures n >= 10 <==> |DecimalString(n)| >= 2
  {
    if n >= 10 {
      assert |DecimalString(n / 10)| >= 1;
    }
  }

  lemma DigitCharInjective(a: nat, b: nat)
    requires a < 10 && b < 10 && DigitChar(a) == DigitChar(b)
    ensures a == b
  {
  }

  /** Different ids print differently, so comparing `toString()` texts
      compares the ids. */
  lemma {:induction false} IdTextInjective(a: Id, b: Id)
    requires IdText(a) == IdText(b)
    ensures a == b
  {
    DecimalStringLength(a);
    DecimalStringLength(b);
    var s := DecimalString(a);
    if a >= 10 {
      assert DecimalString(a) == DecimalString(a / 10) + [DigitChar(a % 10)];
      assert DecimalString(b) == DecimalString(b / 10) + [DigitChar(b % 10)];
      assert s[|s| - 1] == DigitChar(a % 10) == DigitChar(b % 10);
      DigitCharInjective(a % 10, b % 10);
      assert s[..|s| - 1] == DecimalString(a / 10) == DecimalString(b / 10);
      IdTextInjective(a / 10, b / 10);
    } else {
      DigitCharInjective(a, b);
    }
  }
}

=== FILE: outcome.dfy ===
/** Results of request handlers: an HTTP error (status and message) or a value.

    The handlers of the backend signal failure by throwing an `ApiError`
    (status, message); the error middleware turns the thrown value into the
    response.  Here every handler returns a `Result` instead. */
module Outcome {

  datatype Option<+T> = None | Some(value: T)

  /** A request field that JavaScript treats as falsy: absent or "". */
  predicate Falsy(field: Option<string>)
  {
    field.None? || field.value == ""
  }

  /** The thrown error: an HTTP status code and a human-readable message. */
  datatype ApiError = ApiError(status: int, message: string)

  datatype Result<+T> = Ok(value: T) | Err(error: ApiError)

  /** The message of a failed schema validation: the model's name, then
      each failing path's error, joined by ", ". */
  function ValidationMessage(model: string, errors: seq<string>): string
  {
    model + " validation failed: " + CommaSeparated(errors)
  }

  /** The texts joined by ", ". */
  function CommaSeparated(parts: seq<string>): string
  {
    if parts == [] then []
    else if |parts| == 1 then parts[0]
    else parts[0] + ", " + CommaSeparated(parts[1..])
  }

  /** What a `catch (error) { throw new ApiError(500, error.message || fallback) }`
      block rethrows: whatever was thrown inside the `try`, with status 500.
      An empty message is falsy in JavaScript, so the fallback replaces it. */
  function Rethrown(thrown: ApiError, fallback: string): (e: ApiError)
    ensures e.status == 500
    ensures thrown.message != "" ==> e.message == thrown.message
    ensures thrown.message == "" ==> e.message == fallback
  {
    ApiError(500, if thrown.message == "" then fallback else thrown.message)
  }

  /** A 404 raised inside a `try` reaches the client as a 500 with the
      same message. */
  lemma NotFoundMaskedAs500(message: string, fallback: string)
    requires message != ""
    ensures Rethrown(ApiError(404, message), fallback) == ApiError(500, message)
  {
  }
}

=== FILE: routed_classroom_controller.dfy ===
/** The classroom handlers of `controllers/classroom.contoller.js`, the
    variant that `routes/classroom.routes.js` mounts.  This variant keeps a
    single member list (`classroomMembers`), records the creator as a
    member, and decides ownership by comparing the printed owner array with
    the caller's printed id.  Its handlers read the classroom id from
    `req.params.id`, while the routes declare the parameter as
    `:classroomId`; each handler therefore takes the id as an `Option`, and
    `Param` says what the routes actually deliver.  Errors raised inside a
    `try` reach the client as 500 with their message (`Outcome.Rethrown`). */
module RoutedClassroomController {
  import opened Outcome
  import opened Text
  import opened ObjectIds
  import opened UserModel
  import opened Store
  import opened Membership

  /** `req.params[name]`: the route parameter of that name, absent when
      the route does not declare one.  The handlers read `Param(params, "id")`;
      the routes declare "classroomId". */
  function Param(params: map<string, Id>, name: string): (r: Option<Id>)
    ensures r.Some? <==> name in params
    ensures r.Some? ==> r.value == params[name]
  {
    if name in params then Some(params[name]) else None
  }

  /** A request routed through `/:classroomId` carries no "id" parameter,
      so every handler sees `None`; reading "classroomId" gives the id. */
  lemma RoutedRequestsCarryNoId(x: Id)
    ensures Param(map["classroomId" := x], "id") == None
    ensures Param(map["classroomId" := x], "classroomId") == Some(x)
  {
  }

  /** `Classroom.findById(id)`: `findById(undefined)` finds nothing. */
  function FindById(classrooms: map<Id, Classroom>, id: Option<Id>): (r: Option<Classroom>)
    ensures r.Some? <==> id.Some? && id.value in classrooms
    ensures r.Some? ==> r.value == classrooms[id.value]
  {
    if id.Some? && id.value in classrooms then Some(classrooms[id.value]) else None
  }

  /** `ids.map(id => id.toString())` */
  function IdTexts(ids: seq<Id>): (r: seq<string>)
    ensures |r| == |ids|
    ensures forall i :: 0 <= i < |ids| ==> r[i] == IdText(ids[i])
  {
    if ids == [] then [] else [IdText(ids[0])] + IdTexts(ids[1..])
  }

  /** The owner check as written, `classroom.classroomOwnerId.toString() ===
      req.user._id.toString()`: the owner array prints as its ids joined by
      commas. */
  predicate OwnerCheckAsWritten(owners: seq<Id>, caller: Id)
  {
    Join(IdTexts(owners), ',') == IdText(caller)
  }

  /** The as-written check passes exactly for a classroom whose one and only
      owner is the caller. */
  lemma OwnerCheckAsWrittenIff(owners: seq<Id>, caller: Id)
    ensures OwnerCheckAsWritten(owners, caller) <==> owners == [caller]
  {
    var parts := IdTexts(owners);
    if |owners| == 1 {
      if OwnerCheckAsWritten(owners, caller) {
        IdTextInjective(owners[0], caller);
      }
    } else if |owners| >= 2 {
      var j := Join(parts, ',');
      assert j == parts[0] + [','] + Join(parts[1..], ',');
      assert j[|parts[0]|] == ',';
    }
  }

  /** With two owners or more, nobody passes the as-written check. */
  lemma NoOwnerPassesAmongSeveral(owners: seq<Id>, caller: Id)
    requires |owners| >= 2
    ensures !OwnerCheckAsWritten(owners, caller)
  {
    OwnerCheckAsWrittenIff(owners, caller);
  }

  /** The evidently intended owner check: the caller is one of the owners. */
  predicate IsOwner(owners: seq<Id>, caller: Id)
  {
    caller in owners
  }

  /** The two checks agree on a single-owner classroom; after a promotion
      the intended check keeps both owners in, the as-written one shuts
      both out. */
  lemma OwnerChecksAfterPromotion(owner: Id, promoted: Id)
    requires owner != promoted
    ensures OwnerCheckAsWritten([owner], owner) && IsOwner([owner], owner)
    ensures IsOwner([owner] + [promoted], owner) && IsOwner([owner] + [promoted], promoted)
    ensures !OwnerCheckAsWritten([owner] + [promoted], owner) && !OwnerCheckAsWritten([owner] + [promoted], promoted)
  {
    OwnerCheckAsWrittenIff([owner], owner);
    NoOwnerPassesAmongSeveral([owner] + [promoted], owner);
    NoOwnerPassesAmongSeveral([owner] + [promoted], promoted);
  }

  /** Every owner is also on the member list; the creator is entered on
      both, and only a member can be promoted. */
  predicate OwnersAreMembers(room: Classroom)
  {
    forall u :: u in room.ownerIds ==> u in room.memberIds
  }

  /** `getClassRoom`: the id is required (400), then the classroom must
      exist. */
  function GetClassRoom(classrooms: map<Id, Classroom>, id: Option<Id>): (r: Result<Classroom>)
    ensures id.None? ==> r == Err(ApiError(400, "Classroom ID is required"))
    ensures id.Some? && id.value !in classrooms ==> r == Err(ApiError(500, "Classroom not found"))
    ensures r.Ok? <==> id.Some? && id.value in classrooms
    ensures r.Ok? ==> r.value == classrooms[id.value]
  {
    if id.None? then Err(ApiError(400, "Classroom ID is required"))
    else if id.value !in classrooms then Err(Rethrown(ApiError(404, "Classroom not found"), ""))
    else Ok(classrooms[id.value])
  }

  /** Through the routes, `getClassRoom` always answers 400, whether or
      not the classroom exists. */
  lemma RoutedGetNeverFinds(classrooms: map<Id, Classroom>, x: Id)
    ensures GetClassRoom(classrooms, Param(map["classroomId" := x], "id")) == Err(ApiError(400, "Classroom ID is required"))
  {
    RoutedRequestsCarryNoId(x);
  }

  /** Reading the parameter the routes declare, `getClassRoom` finds every
      stored classroom and answers 500 "Classroom not found" for any other
      id. */
  lemma DeclaredParamFinds(classrooms: map<Id, Classroom>, x: Id)
    ensures x in classrooms ==> GetClassRoom(classrooms, Param(map["classroomId" := x], "classroomId")) == Ok(classrooms[x])
    ensures x !in classrooms ==> GetClassRoom(classrooms, Param(map["classroomId" := x], "classroomId")) == Err(ApiError(500, "Classroom not found"))
  {
    RoutedRequestsCarryNoId(x);
  }

  /** `field?.trim() === ""`: a present field that is blank. */
  predicate PresentAndBlank(field: Option<string>)
  {
    field.Some? && Blank(field.value)
  }

  /** The schema's `required` errors for the absent fields, in schema order. */
  function RequiredErrors(name: Option<string>, desc: Option<string>, code: Option<string>): (r: seq<string>)
    ensures r == [] <==> name.Some? && desc.Some? && code.Some?
  {
    (if name.None? then ["classroomName: Please enter classroom name"] else [])
    + (if desc.None? then ["classroomDesc: Please enter classroom Description"] else [])
    + (if code.None? then ["classroomCode: Please enter classroom code"] else [])
  }

  /** `createClassRoom`: only a present blank field is refused (400); an
      absent field reaches `Classroom.create` and fails its validation.  A
      created classroom has the creator as its owner, its owner name and its
      only member; the creator's own list is not touched, and no response is
      sent. */
  method CreateClassRoom(db: Database, caller: Id, name: Option<string>, desc: Option<string>, code: Option<string>)
    returns (r: Result<Id>)
    requires db.Valid()
    modifies db`classrooms, db`nextId
    ensures db.Valid()
    ensures r.Err? ==> db.classrooms == old(db.classrooms)
    ensures PresentAndBlank(code) || PresentAndBlank(desc) || PresentAndBlank(name) ==>
      r == Err(ApiError(400, "All the fields are required"))
    ensures !PresentAndBlank(code) && !PresentAndBlank(desc) && !PresentAndBlank(name)
            && (name.None? || desc.None? || code.None?) ==>
      r == Err(ApiError(500, ValidationMessage("Classroom", RequiredErrors(name, desc, code))))
    ensures r.Ok? <==> name.Some? && desc.Some? && code.Some? && !Blank(name.value) && !Blank(desc.value) && !Blank(code.value)
    ensures r.Ok? ==>
      r.value !in old(db.classrooms)
      && db.classrooms == old(db.classrooms)[r.value := Classroom(Trim(name.value), desc.value, code.value,
                                                                   [caller], [caller], [OwnerById(caller)], [])]
      && OwnersAreMembers(db.classrooms[r.value]) && OwnerCheckAsWritten(db.classrooms[r.value].ownerIds, caller)
  {
    if PresentAndBlank(code) || PresentAndBlank(desc) || PresentAndBlank(name) {
      return Err(ApiError(400, "All the fields are required"));
    }
    var missing := RequiredErrors(name, desc, code);
    if missing != [] {
      return Err(Rethrown(ApiError(400, ValidationMessage("Classroom", missing)), ""));
    }
    var room := Classroom(Trim(name.value), desc.value, code.value, [caller], [caller], [OwnerById(caller)], []);
    OwnerCheckAsWrittenIff([caller], caller);
    var created := db.InsertClassroom(room);
    r := Ok(created);
  }

  /** `deleteClassRoom`: the id is required (400, outside the `try`), then
      the classroom must exist and the caller pass the owner check.  Only the
      classroom document goes; no user list is touched. */
  method DeleteClassRoom(db: Database, caller: Id, id: Option<Id>) returns (r: Result<string>)
    modifies db`classrooms
    ensures r.Err? ==> db.classrooms == old(db.classrooms)
    ensures id.None? ==> r == Err(ApiError(400, "Classroom ID is required"))
    ensures id.Some? && id.value !in old(db.classrooms) ==> r == Err(ApiError(500, "Classroom not found"))
    ensures id.Some? && id.value in old(db.classrooms) && !OwnerCheckAsWritten(old(db.classrooms)[id.value].ownerIds, caller) ==>
      r == Err(ApiError(500, "You are not authorized to delete this classroom"))
    ensures r.Ok? <==> id.Some? && id.value in old(db.classrooms) && old(db.classrooms)[id.value].ownerIds == [caller]
    ensures r.Ok? ==> r.value == "Classroom deleted successfully" && db.classrooms == old(db.classrooms) - {id.value}
    ensures old(db.Valid()) ==> db.Valid()
  {
    if id.None? {
      return Err(ApiError(400, "Classroom ID is required"));
    }
    if id.value !in db.classrooms {
      return Err(Rethrown(ApiError(404, "Classroom not found"), ""));
    }
    OwnerCheckAsWrittenIff(db.classrooms[id.value].ownerIds, caller);
    if !OwnerCheckAsWritten(db.classrooms[id.value].ownerIds, caller) {
      return Err(Rethrown(ApiError(403, "You are not authorized to delete this classroom"), ""));
    }
    db.classrooms := db.classrooms - {id.value};
    assert db.AllIds() <= old(db.AllIds());
    r := Ok("Classroom deleted successfully");
  }

  /** `updateClassRoom`: both fields required (400), then the classroom and
      the owner check; the name passes the `trim` setter and must not end up
      empty. */
  method UpdateClassRoom(db: Database, caller: Id, id: Option<Id>, name: Option<string>, desc: Option<string>)
    returns (r: Result<Classroom>)
    modifies db`classrooms
    ensures r.Err? ==> db.classrooms == old(db.classrooms)
    ensures Falsy(name) || Falsy(desc) ==> r == Err(ApiError(400, "All fields are required"))
    ensures !Falsy(name) && !Falsy(desc) && FindById(old(db.classrooms), id).None? ==>
      r == Err(ApiError(500, "Classroom not found"))
    ensures !Falsy(name) && !Falsy(desc) && FindById(old(db.classrooms), id).Some?
            && !OwnerCheckAsWritten(old(db.classrooms)[id.value].ownerIds, caller) ==>
      r == Err(ApiError(500, "You are not authorized to update this classroom"))
    ensures !Falsy(name) && !Falsy(desc) && FindById(old(db.classrooms), id).Some?
            && OwnerCheckAsWritten(old(db.classrooms)[id.value].ownerIds, caller) && Blank(name.value) ==>
      r == Err(ApiError(500, "Classroom validation failed: classroomName: Please enter classroom name"))
    ensures r.Ok? <==> (!Falsy(name) && !Falsy(desc) && FindById(old(db.classrooms), id).Some?
                        && OwnerCheckAsWritten(old(db.classrooms)[id.value].ownerIds, caller) && !Blank(name.value))
    ensures r.Ok? ==>
      db.classrooms == old(db.classrooms)[id.value := old(db.classrooms)[id.value].(name := Trim(name.value), desc := desc.value)]
      && r.value == db.classrooms[id.value]
      && (OwnersAreMembers(old(db.classrooms)[id.value]) ==> OwnersAreMembers(r.value))
  {
    if Falsy(name) || Falsy(desc) {
      return Err(ApiError(400, "All fields are required"));
    }
    if FindById(db.classrooms, id).None? {
      return Err(Rethrown(ApiError(404, "Classroom not found"), ""));
    }
    if !OwnerCheckAsWritten(db.classrooms[id.value].ownerIds, caller) {
      return Err(Rethrown(ApiError(403, "You are not authorized to update this classroom"), ""));
    }
    if Blank(name.value) {
      return Err(Rethrown(ApiError(400, "Classroom validation failed: classroomName: Please enter classroom name"), ""));
    }
    var room := db.classrooms[id.value].(name := Trim(name.value), desc := desc.value);
    db.SaveClassroom(id.value, room);
    r := Ok(room);
  }

  /** The checks `addClassRoomMember`, `makeClassRoomOwner` and
      `removeClassRoomMember` share, in order: the classroom, the user found
      by email, the owner check (the message differs per handler). */
  function RosterCheck(users: map<Id, Account>, classrooms: map<Id, Classroom>, caller: Id, id: Option<Id>,
                       email: Option<string>, refusal: string): (r: Option<ApiError>)
    ensures FindById(classrooms, id).None? ==> r == Some(ApiError(500, "Classroom not found"))
    ensures FindById(classrooms, id).Some? && !EmailKnown(users, email) ==> r == Some(ApiError(500, "User not found"))
    ensures FindById(classrooms, id).Some? && EmailKnown(users, email)
            && !OwnerCheckAsWritten(classrooms[id.value].ownerIds, caller) && refusal != "" ==>
      r == Some(ApiError(500, refusal))
    ensures r.None? <==> FindById(classrooms, id).Some? && EmailKnown(users, email)
                         && classrooms[id.value].ownerIds == [caller]
  {
    if FindById(classrooms, id).None? then Some(Rethrown(ApiError(404, "Classroom not found"), ""))
    else if !EmailKnown(users, email) then Some(Rethrown(ApiError(404, "User not found"), ""))
    else
      OwnerCheckAsWrittenIff(classrooms[id.value].ownerIds, caller);
      if !OwnerCheckAsWritten(classrooms[id.value].ownerIds, caller) then Some(Rethrown(ApiError(403, refusal), ""))
      else None
  }

  /** The refusals of the sole-owner check in the roster handlers. */
  const AddDenied := "You are not authorized to add members to this classroom"
  const PromoteDenied := "You are not authorized to make members owner of this classroom"
  const RemoveDenied := "You are not authorized to remove members from this classroom"

  /** `addClassRoomMember`: the user found by email is pushed onto the
      member list; the user's own list is not touched. */
  method AddClassRoomMember(db: Database, caller: Id, id: Option<Id>, email: Option<string>)
    returns (r: Result<MemberChange>)
    modifies db`classrooms
    ensures r.Err? ==> db.classrooms == old(db.classrooms)
    ensures RosterCheck(db.users, old(db.classrooms), caller, id, email, AddDenied).Some? ==>
      r == Err(RosterCheck(db.users, old(db.classrooms), caller, id, email, AddDenied).value)
    ensures RosterCheck(db.users, old(db.classrooms), caller, id, email, AddDenied).None?
            && (forall u :: u in db.users && HasEmail(db.users[u], email) ==> u in old(db.classrooms)[id.value].memberIds) ==>
      r == Err(ApiError(500, "User is already a member of this classroom"))
    ensures RosterCheck(db.users, old(db.classrooms), caller, id, email, AddDenied).None?
            && (forall u :: u in db.users && HasEmail(db.users[u], email) ==> u !in old(db.classrooms)[id.value].memberIds) ==>
      r.Ok?
    ensures r.Ok? ==>
      var t := r.value.target;
      RosterCheck(db.users, old(db.classrooms), caller, id, email, AddDenied).None?
      && t in db.users && HasEmail(db.users[t], email) && t !in old(db.classrooms)[id.value].memberIds
      && db.classrooms == old(db.classrooms)[id.value := WithMember(old(db.classrooms)[id.value], t)]
      && r.value.classroom == db.classrooms[id.value]
      && (OwnersAreMembers(old(db.classrooms)[id.value]) ==> OwnersAreMembers(r.value.classroom))
  {
    var check := RosterCheck(db.users, db.classrooms, caller, id, email, AddDenied);
    if check.Some? {
      return Err(check.value);
    }
    var t :| t in db.users && HasEmail(db.users[t], email);
    if t in db.classrooms[id.value].memberIds {
      return Err(Rethrown(ApiError(400, "User is already a member of this classroom"), ""));
    }
    db.SaveClassroom(id.value, WithMember(db.classrooms[id.value], t));
    r := Ok(MemberChange(t, db.classrooms[id.value]));
  }

  /** `makeClassRoomOwner` as written: a member's id is pushed onto the
      owners and the username onto the owner names; the member list is left
      as it is.  With two owners, nobody passes the owner check any more. */
  method MakeClassRoomOwner(db: Database, caller: Id, id: Option<Id>, email: Option<string>)
    returns (r: Result<MemberChange>)
    modifies db`classrooms
    ensures r.Err? ==> db.classrooms == old(db.classrooms)
    ensures RosterCheck(db.users, old(db.classrooms), caller, id, email, PromoteDenied).Some? ==>
      r == Err(RosterCheck(db.users, old(db.classrooms), caller, id, email, PromoteDenied).value)
    ensures RosterCheck(db.users, old(db.classrooms), caller, id, email, PromoteDenied).None?
            && (forall u :: u in db.users && HasEmail(db.users[u], email) ==> u !in old(db.classrooms)[id.value].memberIds) ==>
      r == Err(ApiError(500, "User is not a member of this classroom"))
    ensures RosterCheck(db.users, old(db.classrooms), caller, id, email, PromoteDenied).None?
            && (forall u :: u in db.users && HasEmail(db.users[u], email) ==> u in old(db.classrooms)[id.value].memberIds) ==>
      r.Ok?
    ensures r.Ok? ==>
      RosterCheck(db.users, old(db.classrooms), caller, id, email, PromoteDenied).None?
      && var t := r.value.target;
      var room := old(db.classrooms)[id.value];
      t in db.users && HasEmail(db.users[t], email) && t in room.memberIds
      && db.classrooms == old(db.classrooms)[id.value := room.(ownerIds := room.ownerIds + [t],
                                                               ownerNames := room.ownerNames + [OwnerByName(db.users[t].username)])]
      && r.value.classroom == db.classrooms[id.value]
      && (OwnersAreMembers(room) ==> OwnersAreMembers(r.value.classroom))
      && (forall v :: !OwnerCheckAsWritten(r.value.classroom.ownerIds, v))
  {
    var check := RosterCheck(db.users, db.classrooms, caller, id, email, PromoteDenied);
    if check.Some? {
      return Err(check.value);
    }
    var t :| t in db.users && HasEmail(db.users[t], email);
    var room := db.classrooms[id.value];
    if t !in room.memberIds {
      return Err(Rethrown(ApiError(400, "User is not a member of this classroom"), ""));
    }
    var promoted := room.(ownerIds := room.ownerIds + [t], ownerNames := room.ownerNames + [OwnerByName(db.users[t].username)]);
    forall v ensures !OwnerCheckAsWritten(promoted.ownerIds, v) {
      NoOwnerPassesAmongSeveral(promoted.ownerIds, v);
    }
    db.SaveClassroom(id.value, promoted);
    r := Ok(MemberChange(t, promoted));
  }

  /** `removeClassRoomMember`: the member is filtered out of the member
      list; the user's own list is not touched. */
  method RemoveClassRoomMember(db: Database, caller: Id, id: Option<Id>, email: Option<string>)
    returns (r: Result<MemberChange>)
    modifies db`classrooms
    ensures r.Err? ==> db.classrooms == old(db.classrooms)
    ensures RosterCheck(db.users, old(db.classrooms), caller, id, email, RemoveDenied).Some? ==>
      r == Err(RosterCheck(db.users, old(db.classrooms), caller, id, email, RemoveDenied).value)
    ensures RosterCheck(db.users, old(db.classrooms), caller, id, email, RemoveDenied).None?
            && (forall u :: u in db.users && HasEmail(db.users[u], email) ==> u !in old(db.classrooms)[id.value].memberIds) ==>
      r == Err(ApiError(500, "User is not a member of this classroom"))
    ensures RosterCheck(db.users, old(db.classrooms), caller, id, email, RemoveDenied).None?
            && (forall u :: u in db.users && HasEmail(db.users[u], email) ==> u in old(db.classrooms)[id.value].memberIds) ==>
      r.Ok?
    ensures r.Ok? ==>
      var t := r.value.target;
      RosterCheck(db.users, old(db.classrooms), caller, id, email, RemoveDenied).None?
      && t in db.users && HasEmail(db.users[t], email) && t in old(db.classrooms)[id.value].memberIds
      && db.classrooms == old(db.classrooms)[id.value := WithoutMember(old(db.classrooms)[id.value], t)]
      && t !in r.value.classroom.memberIds
      && r.value.classroom == db.classrooms[id.value]
  {
    var check := RosterCheck(db.users, db.classrooms, caller, id, email, RemoveDenied);
    if check.Some? {
      return Err(check.value);
    }
    var t :| t in db.users && HasEmail(db.users[t], email);
    if t !in db.classrooms[id.value].memberIds {
      return Err(Rethrown(ApiError(400, "User is not a member of this classroom"), ""));
    }
    db.SaveClassroom(id.value, WithoutMember(db.classrooms[id.value], t));
    r := Ok(MemberChange(t, db.classrooms[id.value]));
  }

  /** `leaveClassRoom` by the authenticated caller: a member is filtered out
      of the member list (an owner stays an owner) and the classroom out of
      the caller's list. */
  method LeaveClassRoom(db: Database, caller: Id, id: Option<Id>) returns (r: Result<Classroom>)
    modifies db`users, db`classrooms
    ensures r.Err? ==> db.users == old(db.users) && db.classrooms == old(db.classrooms)
    ensures FindById(old(db.classrooms), id).None? ==> r == Err(ApiError(500, "Classroom not found"))
    ensures FindById(old(db.classrooms), id).Some? && caller !in old(db.users) ==> r == Err(ApiError(500, "User not found"))
    ensures FindById(old(db.classrooms), id).Some? && caller in old(db.users)
            && caller !in old(db.classrooms)[id.value].memberIds ==>
      r == Err(ApiError(500, "You are not a member of this classroom"))
    ensures r.Ok? <==> FindById(old(db.classrooms), id).Some? && caller in old(db.users)
                       && caller in old(db.classrooms)[id.value].memberIds
    ensures r.Ok? ==>
      db.classrooms == old(db.classrooms)[id.value := WithoutMember(old(db.classrooms)[id.value], caller)]
      && db.users == old(db.users)[caller := Forget(old(db.users)[caller], id.value)]
      && r.value == db.classrooms[id.value]
    ensures r.Ok? && Mirrored(old(db.users), old(db.classrooms)) && caller !in old(db.classrooms)[id.value].ownerIds ==>
      Mirrored(db.users, db.classrooms)
    ensures old(db.Valid()) ==> db.Valid()
  {
    if FindById(db.classrooms, id).None? {
      return Err(Rethrown(ApiError(404, "Classroom not found"), ""));
    }
    if caller !in db.users {
      return Err(Rethrown(ApiError(404, "User not found"), ""));
    }
    if caller !in db.classrooms[id.value].memberIds {
      return Err(Rethrown(ApiError(400, "You are not a member of this classroom"), ""));
    }
    ghost var users0, classrooms0 := db.users, db.classrooms;
    db.SaveClassroom(id.value, WithoutMember(db.classrooms[id.value], caller));
    db.SaveUser(caller, Forget(db.users[caller], id.value));
    if Mirrored(users0, classrooms0) && caller !in classrooms0[id.value].ownerIds {
      RemoveKeepsMirror(users0, classrooms0, id.value, caller);
    }
    r := Ok(db.classrooms[id.value]);
  }

  /** `joinClassRoom` by the authenticated caller, with the classroom found
      by its code: a caller not on the member list is pushed onto it and the
      classroom onto the caller's list. */
  method JoinClassRoom(db: Database, caller: Id, code: Option<string>) returns (r: Result<Classroom>)
    modifies db`users, db`classrooms
    ensures r.Err? ==> db.users == old(db.users) && db.classrooms == old(db.classrooms)
    ensures Falsy(code) ==> r == Err(ApiError(400, "Classroom code is required"))
    ensures !Falsy(code) && !CodeTaken(old(db.classrooms), code.value) ==> r == Err(ApiError(500, "Classroom not found"))
    ensures !Falsy(code) && CodeTaken(old(db.classrooms), code.value) && caller !in old(db.users) ==>
      r == Err(ApiError(500, "User not found"))
    ensures !Falsy(code) && CodeTaken(old(db.classrooms), code.value) && caller in old(db.users)
            && (forall c :: c in old(db.classrooms) && old(db.classrooms)[c].code == code.value ==> caller in old(db.classrooms)[c].memberIds) ==>
      r == Err(ApiError(500, "You are already a member of this classroom"))
    ensures !Falsy(code) && CodeTaken(old(db.classrooms), code.value) && caller in old(db.users)
            && (forall c :: c in old(db.classrooms) && old(db.classrooms)[c].code == code.value ==> caller !in old(db.classrooms)[c].memberIds) ==>
      r.Ok?
    ensures r.Ok? ==>
      exists c :: (c in old(db.classrooms) && old(db.classrooms)[c].code == code.value
                   && caller in old(db.users) && caller !in old(db.classrooms)[c].memberIds
                   && db.classrooms == old(db.classrooms)[c := WithMember(old(db.classrooms)[c], caller)]
                   && db.users == old(db.users)[caller := Enrolled(old(db.users)[caller], c)]
                   && r.value == db.classrooms[c])
    ensures r.Ok? && Mirrored(old(db.users), old(db.classrooms)) ==> Mirrored(db.users, db.classrooms)
    ensures old(db.Valid()) ==> db.Valid()
  {
    if Falsy(code) {
      return Err(ApiError(400, "Classroom code is required"));
    }
    if !CodeTaken(db.classrooms, code.value) {
      return Err(Rethrown(ApiError(404, "Classroom not found"), ""));
    }
    var c :| c in db.classrooms && db.classrooms[c].code == code.value;
    if caller !in db.users {
      return Err(Rethrown(ApiError(404, "User not found"), ""));
    }
    if caller in db.classrooms[c].memberIds {
      return Err(Rethrown(ApiError(400, "You are already a member of this classroom"), ""));
    }
    ghost var users0, classrooms0 := db.users, db.classrooms;
    db.SaveClassroom(c, WithMember(db.classrooms[c], caller));
    db.SaveUser(caller, Enrolled(db.users[caller], c));
    if Mirrored(users0, classrooms0) {
      JoinKeepsMirror(users0, classrooms0, c, caller);
    }
    r := Ok(db.classrooms[c]);
  }
}

=== FILE: store.dfy ===
/** The database the handlers work on: one collection per model, each a map
    from document id to document, and the id allocator.  Documents follow the
    fields the controllers read and write; where a controller names a list
    differently from its schema, the list the controller evidently means is
    the one modelled. */
module Store {
  import opened ObjectIds
  import opened UserModel

  /** An entry of the routed controller's `classroomOwner_Name` list, which
      receives a user id at creation and a username on promotion. */
  datatype OwnerLabel = OwnerById(id: Id) | OwnerByName(name: string)

  datatype Classroom = Classroom(
    name: string,
    desc: string,
    code: string,
    ownerIds: seq<Id>,
    memberIds: seq<Id>,
    ownerNames: seq<OwnerLabel>,
    moduleIds: seq<Id>)

  /** A course module (the `Module` model). */
  datatype CourseModule = CourseModule(
    name: string,
    lectureIds: seq<Id>,
    noteIds: seq<Id>,
    homeworkIds: seq<Id>)

  datatype Lecture = Lecture(name: string, moduleId: Id, videoIds: seq<Id>, doubtIds: seq<Id>)

  datatype Video = Video(title: string, file: string, lectureId: Id, doubtIds: seq<Id>)

  datatype Submission = Submission(file: string)

  /** A homework; the due date is kept as the text the client sent. */
  datatype Homework = Homework(
    title: string,
    description: string,
    file: string,
    dueDate: string,
    moduleId: Id,
    submissions: seq<Submission>)

  datatype Note = Note(file: string, moduleId: Id)

  /** A doubt asked under a video of a lecture, with the student who asked
      it and the module it concerns. */
  datatype Doubt = Doubt(description: string, lectureId: Id, videoId: Id, studentId: Id, moduleId: Id)

  class Database {
    var users: map<Id, Account>
    var classrooms: map<Id, Classroom>
    var modules: map<Id, CourseModule>
    var lectures: map<Id, Lecture>
    var videos: map<Id, Video>
    var homeworks: map<Id, Homework>
    var notes: map<Id, Note>
    var doubts: map<Id, Doubt>
    /** Every id handed out so far is below this one. */
    var nextId: nat

    ghost function AllIds(): set<Id>
      reads this
    {
      users.Keys + classrooms.Keys + modules.Keys + lectures.Keys
      + videos.Keys + homeworks.Keys + notes.Keys + doubts.Keys
    }

    /** Ids are unique across collections: all of them lie below `nextId`. */
    ghost predicate Valid()
      reads this
    {
      forall id :: id in AllIds() ==> id < nextId
    }

    constructor ()
      ensures Valid()
      ensures users == map[] && classrooms == map[] && modules == map[] && lectures == map[]
      ensures videos == map[] && homeworks == map[] && notes == map[] && doubts == map[]
    {
      users, classrooms, modules, lectures := map[], map[], map[], map[];
      videos, homeworks, notes, doubts := map[], map[], map[], map[];
      nextId := 0;
    }

    /** A fresh ObjectId, used by no document of any collection. */
    method NewId() returns (id: Id)
      requires Valid()
      modifies this`nextId
      ensures Valid()
      ensures id !in AllIds() && id < nextId
    {
      id := nextId;
      nextId := nextId + 1;
      assert AllIds() == old(AllIds());
    }

    /** `User.create(...)`: a new account, on no classroom yet, under a
        fresh id. */
    method InsertUser(account: Account) returns (id: Id)
      requires Valid() && account.classroomIds == []
      modifies this`users, this`nextId
      ensures Valid()
      ensures id !in old(users) && users == old(users)[id := account]
    {
      id := NewId();
      users := users[id := account];
      assert AllIds() == old(AllIds()) + {id};
    }

    /** `Classroom.create(...)`: a new classroom under a fresh id. */
    method InsertClassroom(room: Classroom) returns (id: Id)
      requires Valid()
      modifies this`classrooms, this`nextId
      ensures Valid()
      ensures id !in old(classrooms) && id !in users && classrooms == old(classrooms)[id := room]
    {
      id := NewId();
      classrooms := classrooms[id := room];
      assert AllIds() == old(AllIds()) + {id};
    }

    /** `new Module(...).save()`: a new document under a fresh id. */
    method InsertModule(courseModule: CourseModule) returns (id: Id)
      requires Valid()
      modifies this`modules, this`nextId
      ensures Valid()
      ensures id !in old(modules) && modules == old(modules)[id := courseModule]
    {
      id := NewId();
      modules := modules[id := courseModule];
      assert AllIds() == old(AllIds()) + {id};
    }

    /** `new Lecture(...).save()`: a new document under a fresh id. */
    method InsertLecture(lecture: Lecture) returns (id: Id)
      requires Valid()
      modifies this`lectures, this`nextId
      ensures Valid()
      ensures id !in old(lectures) && lectures == old(lectures)[id := lecture]
    {
      id := NewId();
      lectures := lectures[id := lecture];
      assert AllIds() == old(AllIds()) + {id};
    }

    /** `new Video(...).save()`: a new document under a fresh id. */
    method InsertVideo(video: Video) returns (id: Id)
      requires Valid()
      modifies this`videos, this`nextId
      ensures Valid()
      ensures id !in old(videos) && videos == old(videos)[id := video]
    {
      id := NewId();
      videos := videos[id := video];
      assert AllIds() == old(AllIds()) + {id};
    }

    /** `new Homework(...).save()`: a new document under a fresh id. */
    method InsertHomework(homework: Homework) returns (id: Id)
      requires Valid()
      modifies this`homeworks, this`nextId
      ensures Valid()
      ensures id !in old(homeworks) && homeworks == old(homeworks)[id := homework]
    {
      id := NewId();
      homeworks := homeworks[id := homework];
      assert AllIds() == old(AllIds()) + {id};
    }

    /** `module.save()` for an existing module. */
    method SaveModule(id: Id, courseModule: CourseModule)
      requires id in modules
      modifies this`modules
      ensures modules == old(modules)[id := courseModule]
      ensures AllIds() == old(AllIds())
      ensures old(Valid()) ==> Valid()
    {
      modules := modules[id := courseModule];
      assert modules.Keys == old(modules).Keys;
    }

    /** `user.save()` for an existing account. */
    method SaveUser(id: Id, account: Account)
      requires id in users
      modifies this`users
      ensures users == old(users)[id := account]
      ensures AllIds() == old(AllIds())
      ensures old(Valid()) ==> Valid()
    {
      users := users[id := account];
      assert users.Keys == old(users).Keys;
    }

    /** `lecture.save()` for an existing lecture. */
    method SaveLecture(id: Id, lecture: Lecture)
      requires id in lectures
      modifies this`lectures
      ensures lectures == old(lectures)[id := lecture]
      ensures AllIds() == old(AllIds())
      ensures old(Valid()) ==> Valid()
    {
      lectures := lectures[id := lecture];
      assert lectures.Keys == old(lectures).Keys;
    }

    /** `video.save()` for an existing video. */
    method SaveVideo(id: Id, video: Video)
      requires id in videos
      modifies this`videos
      ensures videos == old(videos)[id := video]
      ensures AllIds() == old(AllIds())
      ensures old(Valid()) ==> Valid()
    {
      videos := videos[id := video];
      assert videos.Keys == old(videos).Keys;
    }

    /** `Module.deleteOne({ _id: id })` */
    method RemoveModule(id: Id)
      modifies this`modules
      ensures modules == old(modules) - {id}
      ensures AllIds() <= old(AllIds())
      ensures old(Valid()) ==> Valid()
    {
      modules := modules - {id};
    }

    /** `lecture.deleteOne()` */
    method RemoveLecture(id: Id)
      modifies this`lectures
      ensures lectures == old(lectures) - {id}
      ensures AllIds() <= old(AllIds())
      ensures old(Valid()) ==> Valid()
    {
      lectures := lectures - {id};
    }

    /** `Video.deleteMany(filter)`: `kept` is what remains of the collection. */
    method KeepVideos(kept: map<Id, Video>)
      requires kept.Keys <= videos.Keys
      modifies this`videos
      ensures videos == kept
      ensures AllIds() <= old(AllIds())
      ensures old(Valid()) ==> Valid()
    {
      videos := kept;
    }

    /** `video.deleteOne()` */
    method RemoveVideo(id: Id)
      modifies this`videos
      ensures videos == old(videos) - {id}
      ensures AllIds() <= old(AllIds())
      ensures old(Valid()) ==> Valid()
    {
      videos := videos - {id};
    }

    /** `Note.deleteOne({ _id: id })` */
    method RemoveNote(id: Id)
      modifies this`notes
      ensures notes == old(notes) - {id}
      ensures AllIds() <= old(AllIds())
      ensures old(Valid()) ==> Valid()
    {
      notes := notes - {id};
    }

    /** `homework.deleteOne()` */
    method RemoveHomework(id: Id)
      modifies this`homeworks
      ensures homeworks == old(homeworks) - {id}
      ensures AllIds() <= old(AllIds())
      ensures old(Valid()) ==> Valid()
    {
      homeworks := homeworks - {id};
    }

    /** `doubt.remove()` */
    method RemoveDoubt(id: Id)
      modifies this`doubts
      ensures doubts == old(doubts) - {id}
      ensures AllIds() <= old(AllIds())
      ensures old(Valid()) ==> Valid()
    {
      doubts := doubts - {id};
    }

    /** `classroom.save()` for an existing classroom. */
    method SaveClassroom(id: Id, room: Classroom)
      requires id in classrooms
      modifies this`classrooms
      ensures classrooms == old(classrooms)[id := room]
      ensures AllIds() == old(AllIds())
      ensures old(Valid()) ==> Valid()
    {
      classrooms := classrooms[id := room];
      assert classrooms.Keys == old(classrooms).Keys;
    }

    /** `note.save()` for a note whose id was drawn from `NewId` when the
        document was built, and is still unused. */
    method SaveNewNote(id: Id, note: Note)
      requires Valid() && id < nextId && id !in AllIds()
      modifies this`notes
      ensures Valid()
      ensures id !in old(notes) && notes == old(notes)[id := note]
    {
      notes := notes[id := note];
      assert AllIds() == old(AllIds()) + {id};
    }

    /** `new Doubt(...).save()`: a new document under a fresh id. */
    method InsertDoubt(doubt: Doubt) returns (id: Id)
      requires Valid()
      modifies this`doubts, this`nextId
      ensures Valid()
      ensures id !in old(doubts) && doubts == old(doubts)[id := doubt]
    {
      id := NewId();
      doubts := doubts[id := doubt];
      assert AllIds() == old(AllIds()) + {id};
    }
  }

  /** The owners and members of a classroom together. */
  predicate InRoster(c: Classroom, u: Id)
  {
    u in c.ownerIds || u in c.memberIds
  }

  /** Each user's `classroomID` list names exactly the classrooms that list
      the user as owner or member: no others, and no deleted ones. */
  predicate Mirrored(users: map<Id, Account>, classrooms: map<Id, Classroom>)
  {
    (forall u, c :: u in users && c in classrooms ==> (InRoster(classrooms[c], u) <==> c in users[u].classroomIds))
    && (forall u, c :: u in users && c in users[u].classroomIds ==> c in classrooms)
  }

  /** `Classroom.findOne({ classroomName: name })` finds a document. */
  predicate NameTaken(classrooms: map<Id, Classroom>, name: string)
  {
    exists c :: c in classrooms && classrooms[c].name == name
  }

  /** `Classroom.findOne({ classroomCode: code })` finds a document. */
  predicate CodeTaken(classrooms: map<Id, Classroom>, code: string)
  {
    exists c :: c in classrooms && classrooms[c].code == code
  }

  /** `list.filter(x => x.toString() !== id.toString())`, and Mongoose's
      `list.pull(id)`: every occurrence of `id` removed, the rest kept in
      order. */
  function Without(xs: seq<Id>, x: Id): (r: seq<Id>)
    ensures x !in r
    ensures forall y :: y in r <==> y in xs && y != x
    ensures |r| <= |xs|
  {
    if xs == [] then []
    else (if xs[0] == x then [] else [xs[0]]) + Without(xs[1..], x)
  }

  /** Removing an id that is not there changes nothing. */
  lemma {:induction false} WithoutAbsent(xs: seq<Id>, x: Id)
    requires x !in xs
    ensures Without(xs, x) == xs
  {
    if xs != [] {
      WithoutAbsent(xs[1..], x);
      assert xs == [xs[0]] + xs[1..];
    }
  }

  /** Removal works piecewise, so the surviving entries keep their order. */
  lemma {:induction false} WithoutAppend(xs: seq<Id>, ys: seq<Id>, x: Id)
    ensures Without(xs + ys, x) == Without(xs, x) + Without(ys, x)
  {
    if xs == [] {
      assert xs + ys == ys;
    } else {
      var head := if xs[0] == x then [] else [xs[0]];
      assert (xs + ys)[0] == xs[0];
      assert (xs + ys)[1..] == xs[1..] + ys;
      calc {
        Without(xs + ys, x);
        head + Without(xs[1..] + ys, x);
        { WithoutAppend(xs[1..], ys, x); }
        head + (Without(xs[1..], x) + Without(ys, x));
        (head + Without(xs[1..], x)) + Without(ys, x);
        Without(xs, x) + Without(ys, x);
      }
    }
  }

  /** Pulling an id that was just pushed onto a list without it restores
      the list. */
  lemma WithoutUndoesPush(xs: seq<Id>, x: Id)
    requires x !in xs
    ensures Without(xs + [x], x) == xs
  {
    WithoutAppend(xs, [x], x);
    WithoutAbsent(xs, x);
    assert Without([x], x) == [];
  }
}

=== FILE: text.dfy ===
/** The JavaScript string operations the handlers rely on: `trim`, splitting
    on a character or on `/\s+/`, unanchored substring tests, lower-casing
    and number-to-decimal conversion. */
module Text {

  /** A character matched by the JavaScript class `\s`, which is also the set
      `String.prototype.trim` removes: white space and line terminators. */
  predicate IsSpace(c: char)
  {
    c == ' ' || c == '\t' || c == '\n' || c == '\U{B}' || c == '\U{C}' || c == '\r'
    || c == '\U{A0}' || c == '\U{1680}' || ('\U{2000}' <= c <= '\U{200A}')
    || c == '\U{2028}' || c == '\U{2029}' || c == '\U{202F}' || c == '\U{205F}'
    || c == '\U{3000}' || c == '\U{FEFF}'
  }

  /** Every character is white space (the empty string included). */
  predicate Blank(s: string)
  {
    forall i :: 0 <= i < |s| ==> IsSpace(s[i])
  }

  /** `s.trimStart()` */
  function TrimStart(s: string): string
  {
    if s == [] || !IsSpace(s[0]) then s else TrimStart(s[1..])
  }

  /** `s.trimEnd()` */
  function TrimEnd(s: string): string
  {
    if s == [] || !IsSpace(s[|s| - 1]) then s else TrimEnd(s[..|s| - 1])
  }

  /** `s.trim()`: the part of `s` left once the white space at both ends is
      cut off.  It is empty exactly for a blank string, and otherwise starts
      and ends with a character that is not white space. */
  function Trim(s: string): (r: string)
    ensures exists i, j :: 0 <= i <= j <= |s| && r == s[i..j] && Blank(s[..i]) && Blank(s[j..])
    ensures r == [] <==> Blank(s)
    ensures r != [] ==> !IsSpace(r[0]) && !IsSpace(r[|r| - 1])
  {
    TrimStartFacts(s);
    var t := TrimStart(s);
    TrimEndFacts(t);
    var i, k := |s| - |t|, |TrimEnd(t)|;
    assert s[i..i + k] == TrimEnd(t);
    assert s[i + k..] == t[k..];
    TrimEnd(t)
  }

  /** `TrimStart` cuts off the longest blank prefix. */
  lemma {:induction false} TrimStartFacts(s: string)
    ensures |TrimStart(s)| <= |s| && TrimStart(s) == s[|s| - |TrimStart(s)|..]
    ensures Blank(s[..|s| - |TrimStart(s)|])
    ensures TrimStart(s) == [] <==> Blank(s)
    ensures TrimStart(s) != [] ==> !IsSpace(TrimStart(s)[0])
  {
    if s != [] && IsSpace(s[0]) {
      var s' := s[1..];
      TrimStartFacts(s');
      var n := |s| - |TrimStart(s)|;
      assert s[n..] == s'[n - 1..];
      forall k | 0 <= k < n ensures IsSpace(s[..n][k]) {
        if k > 0 { assert s[..n][k] == s'[..n - 1][k - 1]; }
      }
      assert Blank(s) <==> Blank(s') by {
        if Blank(s') {
          forall k | 0 <= k < |s| ensures IsSpace(s[k]) {
            if k > 0 { assert s[k] == s'[k - 1]; }
          }
        }
        if Blank(s) {
          forall k | 0 <= k < |s'| ensures IsSpace(s'[k]) {
            assert s'[k] == s[k + 1];
          }
        }
      }
    }
  }

  /** `TrimEnd` cuts off the longest blank suffix; a string that starts with
      a visible character keeps it. */
  lemma {:induction false} TrimEndFacts(s: string)
    ensures |TrimEnd(s)| <= |s| && TrimEnd(s) == s[..|TrimEnd(s)|]
    ensures Blank(s[|TrimEnd(s)|..])
    ensures s != [] && !IsSpace(s[0]) ==> TrimEnd(s) != [] && TrimEnd(s)[0] == s[0]
    ensures TrimEnd(s) != [] ==> !IsSpace(TrimEnd(s)[|TrimEnd(s)| - 1])
  {
    if s != [] && IsSpace(s[|s| - 1]) {
      var p := s[..|s| - 1];
      TrimEndFacts(p);
      var n := |TrimEnd(s)|;
      assert s[n..] == p[n..] + [s[|s| - 1]];
    }
  }

  lemma TrimIdempotent(s: string)
    ensures Trim(Trim(s)) == Trim(s)
  {
  }

  /** Number of maximal runs of characters whose `IsSpace` is `space`. */
  function Runs(s: string, space: bool): nat
  {
    if s == [] then 0
    else Runs(s[..|s| - 1], space)
         + (if IsSpace(s[|s| - 1]) == space && (|s| == 1 || IsSpace(s[|s| - 2]) != space) then 1 else 0)
  }

  /** `s.split(/\s+/).length`: one piece more than there are white-space runs
      (leading or trailing white space yields an empty first or last piece). */
  function RegexSplitCount(s: string): nat
  {
    1 + Runs(s, true)
  }

  /** `s.trim().split(/\s+/).length`, the word count of a description. */
  function WordCount(s: string): (n: nat)
    ensures n >= 1
  {
    RegexSplitCount(Trim(s))
  }

  /** In a string that does not start with white space, the words (maximal
      runs of other characters) outnumber the white-space runs by one unless
      the string ends in white space. */
  lemma {:induction false} RunsAlternate(s: string)
    requires s != [] && !IsSpace(s[0])
    ensures Runs(s, false) == Runs(s, true) + (if IsSpace(s[|s| - 1]) then 0 else 1)
  {
    if |s| > 1 {
      var p := s[..|s| - 1];
      assert p[0] == s[0];
      RunsAlternate(p);
      assert p[|p| - 1] == s[|s| - 2];
    }
  }

  /** For a description that is not blank, the word count is the number of
      words, i.e. of maximal runs of non-white-space characters. */
  lemma WordCountCountsWords(s: string)
    requires !Blank(s)
    ensures WordCount(s) == Runs(Trim(s), false)
  {
    var t := Trim(s);
    RunsAlternate(t);
  }

  /** `s.toLowerCase()` on ASCII letters. */
  function ToLower(s: string): (r: string)
    ensures |r| == |s|
    ensures forall i :: 0 <= i < |s| ==> r[i] == LowerChar(s[i])
  {
    if s == [] then [] else [LowerChar(s[0])] + ToLower(s[1..])
  }

  function LowerChar(c: char): (d: char)
    ensures !('A' <= d <= 'Z')
  {
    if 'A' <= c <= 'Z' then (c as int + 32) as char else c
  }

  predicate IsLower(s: string)
  {
    forall i :: 0 <= i < |s| ==> !('A' <= s[i] <= 'Z')
  }

  lemma ToLowerIdempotent(s: string)
    ensures IsLower(ToLower(s))
    ensures ToLower(ToLower(s)) == ToLower(s)
  {
  }

  /** Lower-casing leaves white space where it is, so the margins `Trim`
      cuts from the lower-cased name are blank in the name as typed. */
  lemma TrimOfLower(username: string)
    ensures exists i, j :: 0 <= i <= j <= |username| && Trim(ToLower(username)) == ToLower(username)[i..j]
                           && Blank(username[..i]) && Blank(username[j..])
  {
    var lower := ToLower(username);
    var i, j :| 0 <= i <= j <= |lower| && Trim(lower) == lower[i..j] && Blank(lower[..i]) && Blank(lower[j..]);
    BlankPrefixUnlowered(username, i);
    BlankSuffixUnlowered(username, j);
  }

  /** A prefix that is blank once lower-cased was blank to begin with. */
  lemma BlankPrefixUnlowered(s: string, i: int)
    requires 0 <= i <= |s| && Blank(ToLower(s)[..i])
    ensures Blank(s[..i])
  {
    var lower := ToLower(s)[..i];
    forall m | 0 <= m < i ensures IsSpace(s[..i][m]) {
      var c := s[..i][m];
      assert lower[m] == LowerChar(c);
      SpaceStaysSpace(c);
    }
  }

  /** A suffix that is blank once lower-cased was blank to begin with. */
  lemma BlankSuffixUnlowered(s: string, j: int)
    requires 0 <= j <= |s| && Blank(ToLower(s)[j..])
    ensures Blank(s[j..])
  {
    var lower := ToLower(s)[j..];
    forall m | 0 <= m < |s| - j ensures IsSpace(s[j..][m]) {
      var c := s[j..][m];
      assert lower[m] == LowerChar(c);
      SpaceStaysSpace(c);
    }
  }

  /** Lower-casing leaves a blank string blank and a non-blank one
      non-blank. */
  lemma BlankUnderLower(s: string)
    ensures Blank(ToLower(s)) <==> Blank(s)
  {
    var lower := ToLower(s);
    forall m | 0 <= m < |s| ensures IsSpace(lower[m]) <==> IsSpace(s[m]) {
      SpaceStaysSpace(s[m]);
    }
  }

  /** Only a white-space character lower-cases to white space. */
  lemma SpaceStaysSpace(c: char)
    ensures IsSpace(LowerChar(c)) ==> IsSpace(c)
  {
    if 'A' <= c <= 'Z' {
      assert 'a' <= LowerChar(c) <= 'z';
    }
  }

  /** `s.length`: the number of UTF-16 code units, two for a character
      outside the Basic Multilingual Plane and one for any other. */
  function Utf16Length(s: string): (n: nat)
    ensures |s| <= n <= 2 * |s|
    ensures n == |s| <==> forall i :: 0 <= i < |s| ==> s[i] as int <= 0xFFFF
  {
    if s == [] then 0
    else
      var p := s[..|s| - 1];
      assert forall i :: 0 <= i < |p| ==> p[i] == s[i];
      Utf16Length(p) + (if s[|s| - 1] as int <= 0xFFFF then 1 else 2)
  }

  /** `s.includes(sub)`, or the test of an unanchored regular expression
      that is the literal `sub`. */
  predicate Contains(s: string, sub: string)
  {
    (|sub| <= |s| && s[..|sub|] == sub) || (s != [] && Contains(s[1..], sub))
  }

  /** `sub` occurs in `s` starting at index `i`. */
  predicate OccursAt(s: string, sub: string, i: int)
  {
    0 <= i && i + |sub| <= |s| && s[i..i + |sub|] == sub
  }

  /** `Contains` is the unanchored substring test: `sub` occurs somewhere. */
  lemma {:induction false} ContainsIffOccurs(s: string, sub: string)
    ensures Contains(s, sub) <==> exists i :: OccursAt(s, sub, i)
  {
    if |sub| <= |s| && s[..|sub|] == sub {
      assert OccursAt(s, sub, 0);
    } else if s != [] {
      ContainsIffOccurs(s[1..], sub);
      if Contains(s[1..], sub) {
        var i :| OccursAt(s[1..], sub, i);
        assert s[i + 1..i + 1 + |sub|] == s[1..][i..i + |sub|];
        assert OccursAt(s, sub, i + 1);
      }
      if i :| OccursAt(s, sub, i) {
        assert i != 0;
        assert s[1..][i - 1..i - 1 + |sub|] == s[i..i + |sub|];
        assert OccursAt(s[1..], sub, i - 1);
      }
    }
  }

  /** `s.split(sep)` for a one-character separator. */
  function Split(s: string, sep: char): (parts: seq<string>)
    ensures |parts| >= 1
    ensures forall i :: 0 <= i < |parts| ==> sep !in parts[i]
  {
    if s == [] then [[]]
    else
      var rest := Split(s[1..], sep);
      if s[0] == sep then [[]] + rest else [[s[0]] + rest[0]] + rest[1..]
  }

  /** `parts.join(sep)`, the inverse of `Split`. */
  function Join(parts: seq<string>, sep: char): string
  {
    if parts == [] then []
    else if |parts| == 1 then parts[0]
    else parts[0] + [sep] + Join(parts[1..], sep)
  }

  lemma {:induction false} JoinSplit(s: string, sep: char)
    ensures Join(Split(s, sep), sep) == s
  {
    if s != [] {
      var rest := Split(s[1..], sep);
      JoinSplit(s[1..], sep);
      if s[0] == sep {
        assert Split(s, sep)[1..] == rest;
      } else {
        var parts := Split(s, sep);
        if |rest| == 1 {
          assert parts == [[s[0]] + rest[0]];
        } else {
          assert parts[1..] == rest[1..];
          assert Join(rest, sep) == rest[0] + [sep] + Join(rest[1..], sep);
        }
      }
    }
  }

  /** A string without the separator is split into itself alone. */
  lemma {:induction false} SplitWithoutSeparator(s: string, sep: char)
    requires sep !in s
    ensures Split(s, sep) == [s]
  {
    if s != [] {
      SplitWithoutSeparator(s[1..], sep);
      assert s == [s[0]] + s[1..];
    }
  }

  /** The part of `s` before the first `c` (all of `s` if there is none). */
  function BeforeFirst(s: string, c: char): string
  {
    if s == [] || s[0] == c then [] else [s[0]] + BeforeFirst(s[1..], c)
  }

  /** The part of `s` after the last `c` (all of `s` if there is none). */
  function AfterLast(s: string, c: char): string
  {
    if s == [] || s[|s| - 1] == c then [] else AfterLast(s[..|s| - 1], c) + [s[|s| - 1]]
  }

  /** `BeforeFirst` is the longest prefix without `c`. */
  lemma {:induction false} BeforeFirstFacts(s: string, c: char)
    ensures var r := BeforeFirst(s, c);
      |r| <= |s| && r == s[..|r|] && c !in r && (|r| < |s| ==> s[|r|] == c)
  {
    if s != [] && s[0] != c {
      BeforeFirstFacts(s[1..], c);
    }
  }

  /** `AfterLast` is the longest suffix without `c`. */
  lemma {:induction false} AfterLastFacts(s: string, c: char)
    ensures var r := AfterLast(s, c);
      |r| <= |s| && r == s[|s| - |r|..] && c !in r && (|r| < |s| ==> s[|s| - |r| - 1] == c)
  {
    if s != [] && s[|s| - 1] != c {
      AfterLastFacts(s[..|s| - 1], c);
    }
  }

  lemma {:induction false} SplitFirstIsBeforeFirst(s: string, c: char)
    ensures Split(s, c)[0] == BeforeFirst(s, c)
  {
    if s != [] {
      SplitFirstIsBeforeFirst(s[1..], c);
    }
  }

  lemma {:induction false} SplitLastIsAfterLast(s: string, c: char)
    ensures Split(s, c)[|Split(s, c)| - 1] == AfterLast(s, c)
  {
    if s != [] {
      SplitLastIsAfterLast(s[1..], c);
      if s[0] == c {
        AfterLastDropFirst(s, c);
      } else if c in s[1..] {
        SplitManyParts(s[1..], c);
        AfterLastDropFirst(s, c);
      } else {
        SplitWithoutSeparator(s[1..], c);
        assert s == [s[0]] + s[1..];
        NoSepAfterLast(s, c);
      }
    }
  }

  lemma {:induction false} SplitManyParts(s: string, c: char)
    requires c in s
    ensures |Split(s, c)| >= 2
  {
    if s[0] != c {
      SplitManyParts(s[1..], c);
    }
  }

  lemma {:induction false} NoSepAfterLast(s: string, c: char)
    requires c !in s
    ensures AfterLast(s, c) == s
  {
    if s != [] {
      NoSepAfterLast(s[..|s| - 1], c);
      assert s == s[..|s| - 1] + [s[|s| - 1]];
    }
  }

  /** After a separator, a stretch without one is all that follows the
      last separator. */
  lemma {:induction false} AfterLastOfTail(prefix: string, tail: string, c: char)
    requires prefix != [] && prefix[|prefix| - 1] == c && c !in tail
    ensures AfterLast(prefix + tail, c) == tail
  {
    if tail != [] {
      var s := prefix + tail;
      var t := tail[..|tail| - 1];
      assert s[..|s| - 1] == prefix + t;
      AfterLastOfTail(prefix, t, c);
      assert tail == t + [tail[|tail| - 1]];
    } else {
      assert prefix + tail == prefix;
    }
  }

  /** Dropping the first character does not change what follows the last
      separator, as long as a separator remains or the dropped one was it. */
  lemma {:induction false} AfterLastDropFirst(s: string, c: char)
    requires s != [] && (s[0] == c || c in s[1..])
    ensures AfterLast(s[1..], c) == AfterLast(s, c)
  {
    var n := |s|;
    if s[n - 1] != c {
      var p := s[..n - 1];
      assert n >= 2;
      assert p[1..] == s[1..][..n - 2];
      if s[0] != c {
        var k :| 1 <= k < n && s[k] == c;
        assert k < n - 1;
        assert p[1..][k - 1] == c;
      }
      AfterLastDropFirst(p, c);
    }
  }

  /** The decimal digits of `n`, as `String(n)` writes a non-negative integer. */
  function DecimalString(n: nat): (r: string)
    ensures r != [] && forall i :: 0 <= i < |r| ==> '0' <= r[i] <= '9'
  {
    if n < 10 then [DigitChar(n)] else DecimalString(n / 10) + [DigitChar(n % 10)]
  }

  function DigitChar(d: nat): (c: char)
    requires d < 10
    ensures '0' <= c <= '9'
  {
    ('0' as int + d) as char
  }
}

=== FILE: user_controller.dfy ===
/** The account handlers of `controllers/user.controller.js`: token issuance,
    login, refresh, logout, password change, registration and the account
    details update.  Each handler is one atomic step on the database; the
    secrets, token lifetimes, current time and the media store are
    parameters. */
module UserController {
  import opened Outcome
  import opened Text
  import opened ObjectIds
  import opened JsonWebToken
  import opened Bcrypt
  import opened UserModel
  import opened Store
  import opened Cloudinary

  /** `ACCESS_TOKEN_SECRET`, `REFRESH_TOKEN_SECRET` and the two lifetimes. */
  datatype Keys = Keys(accessSecret: string, refreshSecret: string, accessTtl: int, refreshTtl: int)

  datatype TokenPair = TokenPair(accessToken: Wire, refreshToken: Wire)

  /** The two tokens the account model signs for account `id` at `now`. */
  function TokensFor(id: Id, account: Account, keys: Keys, now: int): (t: TokenPair)
    ensures t.accessToken == GenerateAccessToken(id, account, keys.accessSecret, now, keys.accessTtl)
    ensures t.refreshToken == GenerateRefreshToken(id, keys.refreshSecret, now, keys.refreshTtl)
  {
    TokenPair(GenerateAccessToken(id, account, keys.accessSecret, now, keys.accessTtl),
              GenerateRefreshToken(id, keys.refreshSecret, now, keys.refreshTtl))
  }

  /** While fresh, the issued access token decodes under the access secret to
      the account's claims and the refresh token under the refresh secret to
      its id. */
  lemma TokensForVerify(id: Id, account: Account, keys: Keys, now: int, later: int)
    requires later < now + keys.accessTtl && later < now + keys.refreshTtl
    ensures Verify(TokensFor(id, account, keys, now).accessToken, keys.accessSecret, later)
         == Decoded(AccessClaims(id, account.email, account.username, account.fullName))
    ensures Verify(TokensFor(id, account, keys, now).refreshToken, keys.refreshSecret, later)
         == Decoded(RefreshClaims(id))
  {
  }

  /** The account with its refresh-token slot set to `token`. */
  function WithRefreshToken(users: map<Id, Account>, id: Id, token: Wire): (r: map<Id, Account>)
    requires id in users
    ensures r.Keys == users.Keys && r[id].refreshToken == Some(token)
    ensures r[id] == users[id].(refreshToken := Some(token))
    ensures forall other :: other in users && other != id ==> r[other] == users[other]
  {
    users[id := users[id].(refreshToken := Some(token))]
  }

  /** `generateAccessAndRefereshTokens(userId)`: signs both tokens, stores the
      refresh token on the account and returns both.  A missing account makes
      the method call throw inside the `try`, which rethrows a fixed 500. */
  method IssueTokens(db: Database, userId: Id, keys: Keys, now: int) returns (r: Result<TokenPair>)
    modifies db`users
    ensures userId !in old(db.users) ==>
      r == Err(ApiError(500, "Something went wrong while generating referesh and access token"))
      && db.users == old(db.users)
    ensures userId in old(db.users) ==>
      r == Ok(TokensFor(userId, old(db.users)[userId], keys, now))
      && db.users == WithRefreshToken(old(db.users), userId, r.value.refreshToken)
  {
    if userId !in db.users {
      return Err(ApiError(500, "Something went wrong while generating referesh and access token"));
    }
    var tokens := TokensFor(userId, db.users[userId], keys, now);
    db.users := WithRefreshToken(db.users, userId, tokens.refreshToken);
    r := Ok(tokens);
  }

  /** The lookup `findOne({ $or: [{ username }, { email }] })`: the schema's
      setters run on the filter, so the username is compared lower-cased and
      trimmed and the email trimmed.  An absent field matches nothing. */
  predicate MatchesIdentity(account: Account, username: Option<string>, email: Option<string>)
  {
    (username.Some? && account.username == StoredUsername(username.value))
    || (email.Some? && account.email == Trim(email.value))
  }

  /** Some account answers the lookup. */
  predicate Taken(users: map<Id, Account>, username: Option<string>, email: Option<string>)
  {
    exists id :: id in users && MatchesIdentity(users[id], username, email)
  }

  /** The body of a successful login. */
  datatype LoginReply = LoginReply(user: Profile, accessToken: Wire, refreshToken: Wire)

  /** `loginUser`.  Errors raised in its `try` go to `next` unchanged, so
      they keep their status.  `bcrypt.compare` throws when no password is
      given. */
  method LoginUser(db: Database, username: Option<string>, email: Option<string>, password: Option<string>,
                   keys: Keys, now: int) returns (r: Result<LoginReply>)
    modifies db`users
    ensures r.Err? ==> db.users == old(db.users)
    ensures Falsy(username) && Falsy(email) ==> r == Err(ApiError(400, "username or email is required"))
    ensures !(Falsy(username) && Falsy(email)) ==>
      (r == Err(ApiError(404, "User does not exist")) <==> !Taken(old(db.users), username, email))
    ensures r.Err? && r.error.status == 404 ==> r.error.message == "User does not exist"
    ensures !(Falsy(username) && Falsy(email)) && password.None?
            && Taken(old(db.users), username, email) ==>
      r == Err(ApiError(500, "data and hash arguments required"))
    ensures !(Falsy(username) && Falsy(email)) && password.Some?
            && Taken(old(db.users), username, email)
            && (forall id :: id in old(db.users) && MatchesIdentity(old(db.users)[id], username, email) ==>
                  !IsPasswordCorrect(old(db.users)[id], password.value)) ==>
      r == Err(ApiError(400, "Invalid Email or Password"))
    ensures !(Falsy(username) && Falsy(email)) && password.Some?
            && Taken(old(db.users), username, email)
            && (forall id :: id in old(db.users) && MatchesIdentity(old(db.users)[id], username, email) ==>
                  IsPasswordCorrect(old(db.users)[id], password.value)) ==>
      r.Ok?
    ensures r.Ok? ==>
      var id := r.value.user.id;
      id in old(db.users) && MatchesIdentity(old(db.users)[id], username, email)
      && password.Some? && IsPasswordCorrect(old(db.users)[id], password.value)
      && r.value.accessToken == TokensFor(id, old(db.users)[id], keys, now).accessToken
      && r.value.refreshToken == TokensFor(id, old(db.users)[id], keys, now).refreshToken
      && db.users == WithRefreshToken(old(db.users), id, r.value.refreshToken)
      && r.value.user == ProfileOf(id, old(db.users)[id])
  {
    if Falsy(username) && Falsy(email) {
      return Err(ApiError(400, "username or email is required"));
    }
    if !Taken(db.users, username, email) {
      return Err(ApiError(404, "User does not exist"));
    }
    var id :| id in db.users && MatchesIdentity(db.users[id], username, email);
    if password.None? {
      return Err(ApiError(500, "data and hash arguments required"));
    }
    if !IsPasswordCorrect(db.users[id], password.value) {
      return Err(ApiError(400, "Invalid Email or Password"));
    }
    var account := db.users[id];
    var issued := IssueTokens(db, id, keys, now);
    var loggedIn := ProfileOf(id, db.users[id]);
    ProfileHidesSecrets(id, account, account.password, Some(issued.value.refreshToken));
    r := Ok(LoginReply(loggedIn, issued.value.accessToken, issued.value.refreshToken));
  }

  /** Logging in is indifferent to the case and surrounding blanks of the
      username typed, as the stored username is normalised the same way. */
  lemma UsernameLookupIgnoresCase(account: Account, typed: string)
    requires account.username == StoredUsername(typed)
    ensures MatchesIdentity(account, Some(ToLower(typed)), None)
  {
    ToLowerIdempotent(typed);
  }

  /** `req.cookies.refreshToken || req.body.refreshToken`. */
  function IncomingRefreshToken(cookie: Option<Wire>, body: Option<Wire>): (t: Option<Wire>)
    ensures cookie.Some? && cookie.value != [] ==> t == cookie
    ensures (cookie.None? || cookie.value == []) ==> t == body
  {
    if cookie.Some? && cookie.value != [] then cookie else body
  }

  /** The checks of `refreshAccessToken` on a presented token: it must verify
      under the refresh secret, name an existing account, and equal the
      token stored on it.  Every failure is rethrown as 401 with its message. */
  function RefreshCheck(users: map<Id, Account>, incoming: Wire, keys: Keys, now: int): (r: Result<Id>)
    ensures r.Ok? <==> (Verify(incoming, keys.refreshSecret, now).Decoded?
                        && Verify(incoming, keys.refreshSecret, now).claims.Subject() in users
                        && users[Verify(incoming, keys.refreshSecret, now).claims.Subject()].refreshToken == Some(incoming))
    ensures r.Ok? ==> r.value == Verify(incoming, keys.refreshSecret, now).claims.Subject()
    ensures r.Err? ==> r.error.status == 401
    ensures Verify(incoming, keys.refreshSecret, now).Rejected? ==>
      r == Err(ApiError(401, Verify(incoming, keys.refreshSecret, now).message))
  {
    match Verify(incoming, keys.refreshSecret, now)
    case Rejected(message) => Err(ApiError(401, if message == "" then "Invalid refresh token" else message))
    case Decoded(claims) =>
      if claims.Subject() !in users then Err(ApiError(401, "Invalid refresh token"))
      else if users[claims.Subject()].refreshToken != Some(incoming) then
        Err(ApiError(401, "Refresh token is expired or used"))
      else Ok(claims.Subject())
  }

  /** What a successful refresh sends: the access token, the value of the
      `refreshToken` cookie, and the `refreshToken` member of the body
      (absent when undefined, as `JSON.stringify` drops it). */
  datatype Refreshed = Refreshed(accessToken: Wire, refreshCookie: Wire, bodyRefreshToken: Option<Wire>)

  /** The text Express writes for a cookie whose value is `undefined`. */
  function UndefinedText(): Wire
  {
    Chars("undefined")
  }

  /** `refreshAccessToken` as written: the helper returns `refreshToken`,
      but the handler destructures `newRefreshToken`, which is undefined.
      The account's slot is rotated to a token the client is never given. */
  method RefreshAccessToken(db: Database, cookie: Option<Wire>, body: Option<Wire>, keys: Keys, now: int)
    returns (r: Result<Refreshed>)
    modifies db`users
    ensures r.Err? ==> db.users == old(db.users)
    ensures var incoming := IncomingRefreshToken(cookie, body);
      (incoming.None? || incoming.value == [] ==> r == Err(ApiError(401, "unauthorized request")))
      && (incoming.Some? && incoming.value != [] && RefreshCheck(old(db.users), incoming.value, keys, now).Err? ==>
            r == Err(RefreshCheck(old(db.users), incoming.value, keys, now).error))
      && (r.Ok? <==> incoming.Some? && incoming.value != [] && RefreshCheck(old(db.users), incoming.value, keys, now).Ok?)
      && (r.Ok? ==>
            var id := RefreshCheck(old(db.users), incoming.value, keys, now).value;
            var tokens := TokensFor(id, old(db.users)[id], keys, now);
            r.value == Refreshed(tokens.accessToken, UndefinedText(), None)
            && db.users == WithRefreshToken(old(db.users), id, tokens.refreshToken))
  {
    var incoming := IncomingRefreshToken(cookie, body);
    if incoming.None? || incoming.value == [] {
      return Err(ApiError(401, "unauthorized request"));
    }
    var check := RefreshCheck(db.users, incoming.value, keys, now);
    if check.Err? {
      return Err(check.error);
    }
    var issued := IssueTokens(db, check.value, keys, now);
    r := Ok(Refreshed(issued.value.accessToken, UndefinedText(), None));
  }

  /** The cookie the as-written refresh leaves behind is not a token: the
      next refresh through the cookie fails with 401 "jwt malformed". */
  lemma UndefinedCookieCannotRefresh(users: map<Id, Account>, body: Option<Wire>, keys: Keys, now: int)
    ensures IncomingRefreshToken(Some(UndefinedText()), body) == Some(UndefinedText())
    ensures RefreshCheck(users, UndefinedText(), keys, now) == Err(ApiError(401, "jwt malformed"))
  {
    PlainTextIsMalformed("undefined", keys.refreshSecret, now);
  }

  /** The evidently intended refresh: the new refresh token is the one
      returned in the body and set as the cookie. */
  method RefreshAccessTokenRotating(db: Database, cookie: Option<Wire>, body: Option<Wire>, keys: Keys, now: int)
    returns (r: Result<Refreshed>)
    modifies db`users
    ensures r.Err? ==> db.users == old(db.users)
    ensures var incoming := IncomingRefreshToken(cookie, body);
      (incoming.None? || incoming.value == [] ==> r == Err(ApiError(401, "unauthorized request")))
      && (incoming.Some? && incoming.value != [] && RefreshCheck(old(db.users), incoming.value, keys, now).Err? ==>
            r == Err(RefreshCheck(old(db.users), incoming.value, keys, now).error))
      && (r.Ok? <==> incoming.Some? && incoming.value != [] && RefreshCheck(old(db.users), incoming.value, keys, now).Ok?)
      && (r.Ok? ==>
            var id := RefreshCheck(old(db.users), incoming.value, keys, now).value;
            var tokens := TokensFor(id, old(db.users)[id], keys, now);
            r.value == Refreshed(tokens.accessToken, tokens.refreshToken, Some(tokens.refreshToken))
            && db.users == WithRefreshToken(old(db.users), id, tokens.refreshToken))
  {
    var incoming := IncomingRefreshToken(cookie, body);
    if incoming.None? || incoming.value == [] {
      return Err(ApiError(401, "unauthorized request"));
    }
    var check := RefreshCheck(db.users, incoming.value, keys, now);
    if check.Err? {
      return Err(check.error);
    }
    var issued := IssueTokens(db, check.value, keys, now);
    r := Ok(Refreshed(issued.value.accessToken, issued.value.refreshToken, Some(issued.value.refreshToken)));
  }

  /** Rotation: once a refresh token is stored, it refreshes while fresh,
      and any other token (an earlier one included) is refused. */
  lemma RotatedTokenRefreshes(users: map<Id, Account>, id: Id, keys: Keys, now: int, later: int, previous: Wire)
    requires id in users && later < now + keys.refreshTtl
    requires previous != TokensFor(id, users[id], keys, now).refreshToken
    ensures var token := TokensFor(id, users[id], keys, now).refreshToken;
      RefreshCheck(WithRefreshToken(users, id, token), token, keys, later) == Ok(id)
      && RefreshCheck(WithRefreshToken(users, id, token), previous, keys, later) != Ok(id)
  {
  }

  /** The accounts after `$unset: { refreshToken: 1 }` on account `id`; an
      update of a missing account changes nothing. */
  function LoggedOut(users: map<Id, Account>, id: Id): (r: map<Id, Account>)
    ensures r.Keys == users.Keys
    ensures id in users ==> r[id] == users[id].(refreshToken := None)
    ensures forall other :: other in users && other != id ==> r[other] == users[other]
  {
    if id in users then users[id := users[id].(refreshToken := None)] else users
  }

  /** `logoutUser` for the authenticated caller. */
  method LogoutUser(db: Database, caller: Id) returns (message: string)
    modifies db`users
    ensures db.users == LoggedOut(old(db.users), caller)
    ensures message == "User logged Out"
  {
    db.users := LoggedOut(db.users, caller);
    message := "User logged Out";
  }

  /** Logging out twice is logging out once, and a logged-out account
      refreshes with no token at all. */
  lemma LogoutIdempotent(users: map<Id, Account>, id: Id, token: Wire, keys: Keys, now: int)
    ensures LoggedOut(LoggedOut(users, id), id) == LoggedOut(users, id)
    ensures RefreshCheck(LoggedOut(users, id), token, keys, now) != Ok(id)
  {
  }

  /** `changeCurrentPassword` for the authenticated caller.  The guard uses
      `&&`, so it rejects only when both passwords are missing; a missing old
      password then fails inside `bcrypt.compare`, a missing new one inside
      `bcrypt.hash` in the pre-save hook. */
  method ChangeCurrentPassword(db: Database, caller: Id, oldPassword: Option<string>, newPassword: Option<string>)
    returns (r: Result<string>)
    modifies db`users
    ensures r.Err? ==> db.users == old(db.users)
    ensures Falsy(oldPassword) && Falsy(newPassword) ==>
      r == Err(ApiError(400, "Both old and new passwords are required"))
    ensures !(Falsy(oldPassword) && Falsy(newPassword)) && caller !in old(db.users) ==>
      r == Err(ApiError(404, "User not found"))
    ensures !(Falsy(oldPassword) && Falsy(newPassword)) && caller in old(db.users) && oldPassword.None? ==>
      r == Err(ApiError(500, "data and hash arguments required"))
    ensures !(Falsy(oldPassword) && Falsy(newPassword)) && caller in old(db.users) && oldPassword.Some?
            && !IsPasswordCorrect(old(db.users)[caller], oldPassword.value) ==>
      r == Err(ApiError(400, "Invalid old password"))
    ensures r.Ok? <==> !(Falsy(oldPassword) && Falsy(newPassword)) && caller in old(db.users)
                       && oldPassword.Some? && IsPasswordCorrect(old(db.users)[caller], oldPassword.value)
                       && newPassword.Some?
    ensures r.Ok? ==>
      r.value == "Password changed successfully"
      && db.users.Keys == old(db.users).Keys
      && db.users[caller] == old(db.users)[caller].(password := PreSave(AssignPassword(newPassword.value)))
      && (forall other :: other in old(db.users) && other != caller ==> db.users[other] == old(db.users)[other])
  {
    if Falsy(oldPassword) && Falsy(newPassword) {
      return Err(ApiError(400, "Both old and new passwords are required"));
    }
    if caller !in db.users {
      return Err(ApiError(404, "User not found"));
    }
    if oldPassword.None? {
      return Err(ApiError(500, "data and hash arguments required"));
    }
    if !IsPasswordCorrect(db.users[caller], oldPassword.value) {
      return Err(ApiError(400, "Invalid old password"));
    }
    if newPassword.None? {
      return Err(ApiError(500, "data and salt arguments required"));
    }
    var account := db.users[caller];
    db.users := db.users[caller := account.(password := PreSave(AssignPassword(newPassword.value)))];
    r := Ok("Password changed successfully");
  }

  /** After a change, the account accepts exactly the new password with its
      surrounding blanks removed (the `trim` setter runs on assignment), and
      its session slot is untouched. */
  lemma ChangedPasswordAccepted(account: Account, newPassword: string, attempt: string)
    ensures var changed := account.(password := PreSave(AssignPassword(newPassword)));
      (IsPasswordCorrect(changed, attempt) <==> attempt == Trim(newPassword))
      && changed.refreshToken == account.refreshToken
  {
    CompareHash(Trim(newPassword), attempt);
  }

  /** A password typed with a leading blank is stored without it, so the
      same text typed at login is refused. */
  lemma PaddedPasswordRefused(account: Account, password: string)
    requires password != [] && IsSpace(password[0])
    ensures !IsPasswordCorrect(account.(password := PreSave(AssignPassword(password))), password)
  {
    CompareHash(Trim(password), password);
  }

  /** `[fullName, email, username, password].some(f => f?.trim() === "")`:
      only a present field that is blank fails; an absent field passes. */
  predicate SomeFieldBlank(fields: seq<Option<string>>)
  {
    exists i :: 0 <= i < |fields| && fields[i].Some? && Blank(fields[i].value)
  }

  /** The registration form. */
  datatype Registration = Registration(
    fullName: Option<string>,
    email: Option<string>,
    username: Option<string>,
    password: Option<string>,
    dob: Option<string>,
    role: Option<string>)

  /** A path's `required` error: a string path fails when, after its
      setters, it is absent or "". */
  function RequiredError(value: Option<string>, path: string, message: string): (e: seq<string>)
    ensures e == [] <==> value.Some? && value.value != ""
  {
    if value.None? || value.value == "" then [path + ": " + message] else []
  }

  /** A text field after the `trim` setter. */
  function Trimmed(field: Option<string>): (t: Option<string>)
    ensures t.Some? <==> field.Some?
    ensures t.Some? ==> t.value == Trim(field.value)
  {
    if field.None? then None else Some(Trim(field.value))
  }

  /** The validation errors of `User.create`, in schema order, once the
      setters have run.  `dob` "" is cast to null and so fails `required`;
      the username is the one the handler lower-cased. */
  function AccountErrors(form: Registration, username: string, avatarUrl: string): (errors: seq<string>)
    ensures errors == [] <==>
      Trimmed(form.fullName) != None && Trimmed(form.fullName) != Some("")
      && Trimmed(form.email) != None && Trimmed(form.email) != Some("")
      && Trimmed(form.password) != None && Trimmed(form.password) != Some("")
      && form.dob.Some? && form.dob.value != ""
      && StoredUsername(username) != "" && RoleError(form.role).None? && avatarUrl != ""
  {
    RequiredError(Trimmed(form.fullName), "fullName", "Please enter your name")
    + RequiredError(Trimmed(form.email), "email", "Please enter your email")
    + RequiredError(Trimmed(form.password), "password", "Please enter your password")
    + RequiredError(form.dob, "dob", "Please enter your date of birth")
    + RequiredError(Some(StoredUsername(username)), "username", "Please enter your username")
    + (if RoleError(form.role).Some? then [RoleError(form.role).value] else [])
    + RequiredError(Some(avatarUrl), "avatar", "Please upload your photo")
  }

  /** The message of calling `toLowerCase` on an absent username. */
  const NoUsernameToLower := "Cannot read properties of undefined (reading 'toLowerCase')"

  /** `User.create` on the form with the uploaded avatar URL.  The handler
      lower-cases the username while building the document, which throws
      when none was sent.  Otherwise the setters trim and lower-case, the
      schema validates every path, and the pre-save hook hashes the trimmed
      password. */
  function NewAccount(form: Registration, avatarUrl: string): (r: Result<Account>)
    ensures form.username.None? ==> r == Err(ApiError(500, NoUsernameToLower))
    ensures form.username.Some? ==> (r.Ok? <==> AccountErrors(form, ToLower(form.username.value), avatarUrl) == [])
    ensures form.username.Some? && r.Err? ==>
      r.error == ApiError(500, ValidationMessage("User", AccountErrors(form, ToLower(form.username.value), avatarUrl)))
    ensures r.Ok? <==> form.fullName.Some? && !Blank(form.fullName.value) && form.email.Some? && !Blank(form.email.value)
                       && form.password.Some? && !Blank(form.password.value) && form.dob.Some? && form.dob.value != ""
                       && form.username.Some? && !Blank(form.username.value)
                       && RoleFromInput(form.role).Ok? && avatarUrl != ""
    ensures r.Ok? ==>
      r.value == Account(Trim(form.fullName.value), Trim(form.email.value),
                         StoredUsername(ToLower(form.username.value)), Hash(Trim(form.password.value)),
                         RoleFromInput(form.role).value, avatarUrl, [], None)
  {
    if form.username.None? then Err(ApiError(500, NoUsernameToLower))
    else
      var lowered := ToLower(form.username.value);
      var errors := AccountErrors(form, lowered, avatarUrl);
      StoredUsernameEmptyIff(lowered);
      BlankUnderLower(form.username.value);
      if errors != [] then Err(ApiError(500, ValidationMessage("User", errors)))
      else
        Ok(Account(Trim(form.fullName.value), Trim(form.email.value),
                   StoredUsername(lowered),
                   PreSave(AssignPassword(form.password.value)),
                   RoleFromInput(form.role).value, avatarUrl, [], None))
  }

  /** A registered username is stored as if typed in lower case, and the
      password is checked in its trimmed form. */
  lemma NewAccountNormalises(form: Registration, avatarUrl: string, attempt: string)
    requires NewAccount(form, avatarUrl).Ok?
    ensures IsLower(NewAccount(form, avatarUrl).value.username)
    ensures NewAccount(form, avatarUrl).value.username == StoredUsername(form.username.value)
    ensures IsPasswordCorrect(NewAccount(form, avatarUrl).value, attempt) <==> attempt == Trim(form.password.value)
  {
    var u := form.username.value;
    ToLowerIdempotent(u);
    CompareHash(Trim(form.password.value), attempt);
  }

  /** `registerUser`: blank check, duplicate check, avatar upload, then the
      new account.  The reply is the new account's profile. */
  method RegisterUser(db: Database, form: Registration, avatarPath: Option<string>, upload: string -> UploadOutcome)
    returns (r: Result<Profile>)
    requires db.Valid()
    modifies db`users, db`nextId
    ensures db.Valid()
    ensures r.Err? ==> db.users == old(db.users)
    ensures SomeFieldBlank([form.fullName, form.email, form.username, form.password]) ==>
      r == Err(ApiError(400, "All fields are required"))
    ensures !SomeFieldBlank([form.fullName, form.email, form.username, form.password])
            && Taken(old(db.users), form.username, form.email) ==>
      r == Err(ApiError(409, "User with email or username already exists"))
    ensures !SomeFieldBlank([form.fullName, form.email, form.username, form.password])
            && !Taken(old(db.users), form.username, form.email)
            && Falsy(avatarPath) ==>
      r == Err(ApiError(400, "Avatar file is required"))
    ensures !SomeFieldBlank([form.fullName, form.email, form.username, form.password])
            && !Taken(old(db.users), form.username, form.email)
            && !Falsy(avatarPath) && upload(avatarPath.value).UploadFailed? ==>
      r == Err(ApiError(500, upload(avatarPath.value).message))
    ensures !SomeFieldBlank([form.fullName, form.email, form.username, form.password])
            && !Taken(old(db.users), form.username, form.email)
            && !Falsy(avatarPath) && upload(avatarPath.value).Uploaded? ==>
      (r.Ok? <==> NewAccount(form, upload(avatarPath.value).url).Ok?)
      && (r.Err? ==> r == Err(NewAccount(form, upload(avatarPath.value).url).error))
    ensures r.Ok? ==>
      !SomeFieldBlank([form.fullName, form.email, form.username, form.password])
      && !Taken(old(db.users), form.username, form.email)
      && !Falsy(avatarPath) && upload(avatarPath.value).Uploaded?
      && r.value.id !in old(db.users)
      && NewAccount(form, upload(avatarPath.value).url).Ok?
      && db.users == old(db.users)[r.value.id := NewAccount(form, upload(avatarPath.value).url).value]
      && r.value == ProfileOf(r.value.id, NewAccount(form, upload(avatarPath.value).url).value)
  {
    if SomeFieldBlank([form.fullName, form.email, form.username, form.password]) {
      return Err(ApiError(400, "All fields are required"));
    }
    if Taken(db.users, form.username, form.email) {
      return Err(ApiError(409, "User with email or username already exists"));
    }
    if Falsy(avatarPath) {
      return Err(ApiError(400, "Avatar file is required"));
    }
    var uploaded := UploadOnCloudinary(avatarPath, upload);
    if uploaded.response.Err? {
      return Err(uploaded.response.error);
    }
    var avatar := uploaded.response.value.value;
    var account := NewAccount(form, avatar.url);
    if account.Err? {
      return Err(account.error);
    }
    var id := db.InsertUser(account.value);
    r := Ok(ProfileOf(id, account.value));
  }

  /** `updateAccountDetails` for the authenticated caller: both fields are
      required; the `trim` setters run on the update.  The reply is the
      updated account, or nothing when the caller's account is gone. */
  method UpdateAccountDetails(db: Database, caller: Id, fullName: Option<string>, email: Option<string>)
    returns (r: Result<Option<Profile>>)
    modifies db`users
    ensures Falsy(fullName) || Falsy(email) ==> r == Err(ApiError(400, "All fields are required")) && db.users == old(db.users)
    ensures !Falsy(fullName) && !Falsy(email) ==> r.Ok?
    ensures r.Ok? && caller !in old(db.users) ==> r.value.None? && db.users == old(db.users)
    ensures r.Ok? && caller in old(db.users) ==>
      db.users == old(db.users)[caller := old(db.users)[caller].(fullName := Trim(fullName.value), email := Trim(email.value))]
      && r.value == Some(ProfileOf(caller, db.users[caller]))
  {
    if Falsy(fullName) || Falsy(email) {
      return Err(ApiError(400, "All fields are required"));
    }
    if caller !in db.users {
      return Ok(None);
    }
    var account := db.users[caller];
    db.users := db.users[caller := account.(fullName := Trim(fullName.value), email := Trim(email.value))];
    r := Ok(Some(ProfileOf(caller, db.users[caller])));
  }
}

=== FILE: user_model.dfy ===
/** The account record of `models/user.model.js`: its fields, the role
    enumeration, the setters that normalise stored text, the pre-save hook
    that hashes a changed password, the password check and the two token
    generators. */
module UserModel {
  import opened Outcome
  import opened Text
  import opened ObjectIds
  import opened JsonWebToken
  import opened Bcrypt

  datatype Role = Student | Teacher | Admin

  /** The text stored for a role. */
  function RoleName(role: Role): string
  {
    match role
    case Student => "student"
    case Teacher => "teacher"
    case Admin => "admin"
  }

  /** The validation error of the `role` path, if any: absent takes the
      default; "" fails `required` before `enum` is tried; any other value
      must be one of the three enumerated names. */
  function RoleError(role: Option<string>): (e: Option<string>)
    ensures e.None? <==> role.None? || role.value == "student" || role.value == "teacher" || role.value == "admin"
    ensures role == Some("") ==> e == Some("role: Please enter your role")
  {
    match role
    case None => None
    case Some(name) =>
      if name == "" then Some("role: Please enter your role")
      else if name == "student" || name == "teacher" || name == "admin" then None
      else Some("role: `" + name + "` is not a valid enum value for path `role`.")
  }

  /** The `role` path: absent means the default "student"; otherwise the
      enumerated name, or saving fails validation with the path's error. */
  function RoleFromInput(role: Option<string>): (r: Result<Role>)
    ensures role.None? ==> r == Ok(Student)
    ensures role.Some? ==> (r.Ok? <==> role.value == "student" || role.value == "teacher" || role.value == "admin")
    ensures r.Ok? && role.Some? ==> RoleName(r.value) == role.value
    ensures r.Err? ==> RoleError(role).Some? && r.error == ApiError(500, ValidationMessage("User", [RoleError(role).value]))
  {
    match role
    case None => Ok(Student)
    case Some(name) =>
      if name == "student" then Ok(Student)
      else if name == "teacher" then Ok(Teacher)
      else if name == "admin" then Ok(Admin)
      else Err(ApiError(500, ValidationMessage("User", [RoleError(role).value])))
  }

  /** An account as stored.  The OTP fields and the date of birth are not
      used by any modelled operation and are left out. */
  datatype Account = Account(
    fullName: string,
    email: string,
    username: string,
    password: Digest,
    role: Role,
    avatar: string,
    classroomIds: seq<Id>,
    refreshToken: Option<Wire>)

  /** An account as handed to handlers and clients: selected with
      `-password -refreshToken`. */
  datatype Profile = Profile(
    id: Id,
    fullName: string,
    email: string,
    username: string,
    role: Role,
    avatar: string,
    classroomIds: seq<Id>)

  function ProfileOf(id: Id, account: Account): (p: Profile)
    ensures p.id == id && p.email == account.email && p.username == account.username
    ensures p.fullName == account.fullName && p.role == account.role
    ensures p.avatar == account.avatar && p.classroomIds == account.classroomIds
  {
    Profile(id, account.fullName, account.email, account.username, account.role, account.avatar, account.classroomIds)
  }

  /** Two accounts that differ only in password or refresh token show the
      same profile: the projection hides both. */
  lemma ProfileHidesSecrets(id: Id, a: Account, password: Digest, token: Option<Wire>)
    ensures ProfileOf(id, a.(password := password, refreshToken := token)) == ProfileOf(id, a)
  {
  }

  /** The `username` setters, `lowercase` then `trim`: the lower-cased
      username with the white space at both of its ends cut off. */
  function StoredUsername(username: string): (u: string)
    ensures exists i, j :: 0 <= i <= j <= |username| && u == ToLower(username)[i..j]
                           && Blank(username[..i]) && Blank(username[j..])
    ensures IsLower(u)
    ensures u == [] || (!IsSpace(u[0]) && !IsSpace(u[|u| - 1]))
  {
    var lower := ToLower(username);
    TrimLower(lower);
    TrimOfLower(username);
    Trim(lower)
  }

  /** Trimming a lower-cased string keeps it lower-cased. */
  lemma TrimLower(s: string)
    requires IsLower(s)
    ensures IsLower(Trim(s))
  {
    TrimStartLower(s);
    TrimEndLower(TrimStart(s));
  }

  lemma {:induction false} TrimStartLower(s: string)
    requires IsLower(s)
    ensures IsLower(TrimStart(s))
  {
    if s != [] && IsSpace(s[0]) {
      TrimStartLower(s[1..]);
    }
  }

  lemma {:induction false} TrimEndLower(s: string)
    requires IsLower(s)
    ensures IsLower(TrimEnd(s))
  {
    if s != [] && IsSpace(s[|s| - 1]) {
      TrimEndLower(s[..|s| - 1]);
    }
  }

  /** Storing an already stored username changes nothing. */
  lemma StoredUsernameIdempotent(username: string)
    ensures StoredUsername(StoredUsername(username)) == StoredUsername(username)
  {
    var u := StoredUsername(username);
    LowerOfLower(u);
    TrimIdempotent(ToLower(username));
  }

  /** A username is stored as "" exactly when it was typed blank. */
  lemma StoredUsernameEmptyIff(username: string)
    ensures StoredUsername(username) == [] <==> Blank(username)
  {
    BlankUnderLower(username);
  }

  /** Lower-casing a string that has no capital letters changes nothing. */
  lemma LowerOfLower(s: string)
    requires IsLower(s)
    ensures ToLower(s) == s
  {
  }

  /** The password path as the pre-save hook sees it: assigned since the
      document was loaded (`isModified("password")`), or as loaded. */
  datatype PasswordSlot = Assigned(plain: string) | AsLoaded(digest: Digest)

  /** `user.password = p`: the `trim` setter runs on assignment. */
  function AssignPassword(plain: string): (slot: PasswordSlot)
    ensures slot.Assigned? && slot.plain == Trim(plain)
  {
    Assigned(Trim(plain))
  }

  /** The pre-save hook: a password assigned since loading is hashed; one
      that was not is stored as it is, never hashed a second time. */
  function PreSave(slot: PasswordSlot): (stored: Digest)
    ensures slot.AsLoaded? ==> stored == slot.digest
    ensures slot.Assigned? ==> Compare(slot.plain, stored)
  {
    match slot
    case Assigned(plain) => Hash(plain)
    case AsLoaded(digest) => digest
  }

  /** Saving twice hashes once: after a save the hash is loaded unchanged. */
  lemma PreSaveHashesOnce(slot: PasswordSlot, other: string)
    ensures PreSave(AsLoaded(PreSave(slot))) == PreSave(slot)
    ensures slot.Assigned? ==> (Compare(other, PreSave(AsLoaded(PreSave(slot)))) <==> other == slot.plain)
  {
    if slot.Assigned? {
      CompareHash(slot.plain, other);
    }
  }

  /** `user.isPasswordCorrect(p)`. */
  predicate IsPasswordCorrect(account: Account, plain: string)
  {
    Compare(plain, account.password)
  }

  /** The check accepts exactly the password whose hash is stored. */
  lemma IsPasswordCorrectIff(account: Account, plain: string, stored: string)
    requires account.password == Hash(stored)
    ensures IsPasswordCorrect(account, plain) <==> plain == stored
  {
    CompareHash(stored, plain);
  }

  /** `user.generateAccessToken()`: `_id`, email, username and full name,
      signed with the access secret. */
  function GenerateAccessToken(id: Id, account: Account, secret: string, now: int, ttl: int): (w: Wire)
    ensures |w| == 1 && w[0].Signed?
    ensures w[0].token.claims == AccessClaims(id, account.email, account.username, account.fullName)
    ensures w[0].token.secret == secret
  {
    Sign(AccessClaims(id, account.email, account.username, account.fullName), secret, now, ttl)
  }

  /** `user.generateRefreshToken()`: only `_id`, signed with the refresh
      secret. */
  function GenerateRefreshToken(id: Id, secret: string, now: int, ttl: int): (w: Wire)
    ensures |w| == 1 && w[0].Signed?
    ensures w[0].token.claims == RefreshClaims(id) && w[0].token.secret == secret
  {
    Sign(RefreshClaims(id), secret, now, ttl)
  }

  /** With distinct secrets, neither token is accepted where the other is
      expected, and both carry the account id as their subject. */
  lemma TokensAreNotInterchangeable(id: Id, account: Account, accessSecret: string, refreshSecret: string,
                                    now: int, ttl: int, later: int)
    requires accessSecret != refreshSecret
    ensures Verify(GenerateAccessToken(id, account, accessSecret, now, ttl), refreshSecret, later).Rejected?
    ensures Verify(GenerateRefreshToken(id, refreshSecret, now, ttl), accessSecret, later).Rejected?
    ensures GenerateAccessToken(id, account, accessSecret, now, ttl)[0].token.claims.Subject() == id
    ensures GenerateRefreshToken(id, refreshSecret, now, ttl)[0].token.claims.Subject() == id
  {
  }
}

=== FILE: video_controller.dfy ===
/** The handlers of `controllers/video.controller.js`.  A video belongs to a
    lecture: the lecture lists it and the video points back at the lecture.
    The asset store is an oracle (`upload`, `destroy`); the video's file is
    the secure URL the store returns. */
module VideoController {
  import opened Outcome
  import opened Text
  import opened ObjectIds
  import opened Store
  import opened ContentTree
  import opened Cloudinary

  /** The `Video` schema's validation of a document about to be saved, after
      the `trim` setter on the title. */
  function VideoErrors(title: string, file: string): (r: seq<string>)
    ensures r == [] <==> !Blank(title) && file != ""
  {
    (if Blank(title) then ["title: Please enter title"] else [])
    + (if file == "" then ["videoFile: Please upload a video file"] else [])
  }

  /** The messages `addVideo` answers with. */
  const LectureIdRequired := "Lecture Id is required"
  const TitleRequired := "Title is required"
  const LectureNotFound := "Lecture not found"
  const FileRequired := "Video file is required"
  const AddFailed := "An error occurred while adding video in lecture"

  /** What `addVideo` decides before it writes: the lecture id and the
      title (400); the lecture, the uploaded file, the store's reply and the
      schema follow inside the `try`.  On success, the video it saves: the
      trimmed title, the secure URL, and a back-reference to the lecture. */
  function AddCheck(lectures: map<Id, Lecture>, lectureId: Option<Id>, title: Option<string>, file: Option<string>,
                    upload: string -> UploadOutcome): (r: Result<Video>)
    ensures lectureId.None? ==> r == Err(ApiError(400, LectureIdRequired))
    ensures lectureId.Some? && Falsy(title) ==> r == Err(ApiError(400, TitleRequired))
    ensures lectureId.Some? && !Falsy(title) && lectureId.value !in lectures ==>
      r == Err(ApiError(500, LectureNotFound))
    ensures lectureId.Some? && !Falsy(title) && lectureId.value in lectures && Falsy(file) ==>
      r == Err(ApiError(500, FileRequired))
    ensures lectureId.Some? && !Falsy(title) && lectureId.value in lectures && !Falsy(file)
            && upload(file.value).UploadFailed? ==>
      r == Err(Rethrown(ApiError(500, upload(file.value).message), AddFailed))
    ensures lectureId.Some? && !Falsy(title) && lectureId.value in lectures && !Falsy(file)
            && upload(file.value).Uploaded? && VideoErrors(Trim(title.value), upload(file.value).secureUrl) != [] ==>
      r == Err(ApiError(500, ValidationMessage("Video", VideoErrors(Trim(title.value), upload(file.value).secureUrl))))
    ensures r.Ok? <==> lectureId.Some? && !Falsy(title) && lectureId.value in lectures && !Falsy(file)
                       && upload(file.value).Uploaded? && VideoErrors(Trim(title.value), upload(file.value).secureUrl) == []
    ensures r.Ok? ==>
      r.value == Video(Trim(title.value), upload(file.value).secureUrl, lectureId.value, [])
  {
    if lectureId.None? then Err(ApiError(400, LectureIdRequired))
    else if Falsy(title) then Err(ApiError(400, TitleRequired))
    else if lectureId.value !in lectures then Err(Rethrown(ApiError(404, LectureNotFound), AddFailed))
    else if Falsy(file) then Err(Rethrown(ApiError(400, FileRequired), AddFailed))
    else
      var uploaded := UploadOnCloudinary(file, upload);
      if uploaded.response.Err? then Err(Rethrown(uploaded.response.error, AddFailed))
      else
        // the path is not empty, so the store was called and its response is a value
        var url := uploaded.response.value.value.secureUrl;
        var errors := VideoErrors(Trim(title.value), url);
        if errors != [] then Err(Rethrown(ApiError(400, ValidationMessage("Video", errors)), AddFailed))
        else Ok(Video(Trim(title.value), url, lectureId.value, []))
  }

  /** `video.save()` followed by the push onto the lecture's list and
      `lecture.save()`: the new video is stored under a fresh id, the
      lecture lists it, and the link is kept. */
  method SaveVideo(db: Database, l: Id, video: Video) returns (id: Id)
    requires db.Valid() && l in db.lectures && video.lectureId == l
    modifies db`lectures, db`videos, db`nextId
    ensures db.Valid()
    ensures id !in old(db.videos) && db.videos == old(db.videos)[id := video]
    ensures db.lectures == old(db.lectures)[l := old(db.lectures)[l].(videoIds := old(db.lectures)[l].videoIds + [id])]
    ensures Linked(old(db.lectures), old(db.videos), VideoIdsOf, LectureOfVideo) ==>
      Linked(db.lectures, db.videos, VideoIdsOf, LectureOfVideo)
  {
    id := db.InsertVideo(video);
    ghost var ids := db.AllIds();
    var updated := db.lectures[l].(videoIds := db.lectures[l].videoIds + [id]);
    if Linked(old(db.lectures), old(db.videos), VideoIdsOf, LectureOfVideo) {
      AddChildKeepsLinked(old(db.lectures), old(db.videos), VideoIdsOf, LectureOfVideo, l, id, updated, video);
    }
    db.lectures := db.lectures[l := updated];
    assert db.AllIds() == ids;
  }

  /** `addVideo`: answers with the error `AddCheck` finds, changing nothing;
      otherwise the video it describes is saved and pushed onto the
      lecture's video list. */
  method AddVideo(db: Database, lectureId: Option<Id>, title: Option<string>, file: Option<string>,
                  upload: string -> UploadOutcome) returns (r: Result<Id>)
    requires db.Valid()
    modifies db`lectures, db`videos, db`nextId
    ensures db.Valid()
    ensures r.Ok? <==> AddCheck(old(db.lectures), lectureId, title, file, upload).Ok?
    ensures r.Err? ==>
      r.error == AddCheck(old(db.lectures), lectureId, title, file, upload).error
      && db.lectures == old(db.lectures) && db.videos == old(db.videos)
    ensures r.Ok? ==>
      var l := lectureId.value;
      r.value !in old(db.videos)
      && db.videos == old(db.videos)[r.value := AddCheck(old(db.lectures), lectureId, title, file, upload).value]
      && db.lectures == old(db.lectures)[l := old(db.lectures)[l].(videoIds := old(db.lectures)[l].videoIds + [r.value])]
    ensures r.Ok? && Linked(old(db.lectures), old(db.videos), VideoIdsOf, LectureOfVideo) ==>
      Linked(db.lectures, db.videos, VideoIdsOf, LectureOfVideo)
  {
    var checked := AddCheck(db.lectures, lectureId, title, file, upload);
    if checked.Err? {
      return Err(checked.error);
    }
    var id := SaveVideo(db, lectureId.value, checked.value);
    r := Ok(id);
  }

  /** `getVideos`: the videos the lecture's list names. */
  function GetVideos(lectures: map<Id, Lecture>, videos: map<Id, Video>, lectureId: Option<Id>): (r: Result<map<Id, Video>>)
    ensures lectureId.None? ==> r == Err(ApiError(400, "Lecture Id is required"))
    ensures lectureId.Some? && lectureId.value !in lectures ==> r == Err(ApiError(500, "Lecture not found"))
    ensures r.Ok? <==> lectureId.Some? && lectureId.value in lectures
    ensures r.Ok? ==> forall v :: v in r.value <==> v in videos && v in lectures[lectureId.value].videoIds
    ensures r.Ok? ==> forall v :: v in r.value ==> r.value[v] == videos[v]
  {
    if lectureId.None? then Err(ApiError(400, "Lecture Id is required"))
    else if lectureId.value !in lectures then Err(Rethrown(ApiError(404, "Lecture not found"), ""))
    else Ok(ChildrenListed(videos, lectures[lectureId.value].videoIds))
  }

  /** While lectures and videos are linked, a lecture's listed videos are
      exactly the videos that point at it. */
  lemma ListedVideosPointBack(lectures: map<Id, Lecture>, videos: map<Id, Video>, l: Id)
    requires Linked(lectures, videos, VideoIdsOf, LectureOfVideo) && l in lectures
    ensures GetVideos(lectures, videos, Some(l)) == Ok(ChildrenOf(videos, LectureOfVideo, l))
  {
    LookupsAgree(lectures, videos, VideoIdsOf, LectureOfVideo, l);
  }

  /** The lectures whose video list names `v` (`Lecture.findOne({ videos: v })`
      returns one of them). */
  predicate ListsVideo(lectures: map<Id, Lecture>, v: Id)
  {
    exists l :: l in lectures && v in lectures[l].videoIds
  }

  /** The asset path `deleteVideo` hands to the delete wrapper: the last
      "/"-separated segment of the file URL. */
  function VideoAssetPath(file: string): (path: string)
    ensures GetPublicIdFromUrl(path) == GetPublicIdFromUrl(file)
  {
    PublicIdOfLastSegment(file);
    AfterLast(file, '/')
  }

  /** A video deleted and pulled from a lecture that lists it keeps
      lectures and videos linked: under the link, that lecture is the one
      the video points at. */
  lemma VideoRemovalKeepsLinked(lectures: map<Id, Lecture>, videos: map<Id, Video>, l: Id, v: Id)
    requires l in lectures && v in lectures[l].videoIds && v in videos
    ensures Linked(lectures, videos, VideoIdsOf, LectureOfVideo) ==>
      Linked(lectures[l := lectures[l].(videoIds := Without(lectures[l].videoIds, v))], videos - {v},
             VideoIdsOf, LectureOfVideo)
  {
    if Linked(lectures, videos, VideoIdsOf, LectureOfVideo) {
      assert v in VideoIdsOf(lectures[l]);
      var updated := lectures[l].(videoIds := Without(lectures[l].videoIds, v));
      RemoveChildKeepsLinked(lectures, videos, VideoIdsOf, LectureOfVideo, l, v, updated);
    }
  }

  /** `deleteVideo`: the video, a lecture that lists it, then the asset is
      destroyed, the video deleted and pulled from that lecture's list.  The
      asset destroyed is the one the video's file URL names. */
  method DeleteVideo(db: Database, videoId: Option<Id>, destroy: string -> DestroyOutcome) returns (r: Result<string>)
    modifies db`lectures, db`videos
    ensures r.Err? ==> db.lectures == old(db.lectures) && db.videos == old(db.videos)
    ensures videoId.None? ==> r == Err(ApiError(400, "Video Id is required"))
    ensures videoId.Some? && videoId.value !in old(db.videos) ==> r == Err(ApiError(500, "Video not found"))
    ensures videoId.Some? && videoId.value in old(db.videos) && !ListsVideo(old(db.lectures), videoId.value) ==>
      r == Err(ApiError(500, "Lecture not found"))
    ensures videoId.Some? && videoId.value in old(db.videos) && ListsVideo(old(db.lectures), videoId.value)
            && DeleteFromCloudinaryIntended(Some(VideoAssetPath(old(db.videos)[videoId.value].file)), destroy).Err? ==>
      r == Err(Rethrown(DeleteFromCloudinaryIntended(Some(VideoAssetPath(old(db.videos)[videoId.value].file)), destroy).error,
                        "An error occurred while deleting video"))
    ensures r.Ok? <==> videoId.Some? && videoId.value in old(db.videos) && ListsVideo(old(db.lectures), videoId.value)
                       && DeleteFromCloudinaryIntended(Some(VideoAssetPath(old(db.videos)[videoId.value].file)), destroy).Ok?
    ensures r.Ok? ==>
      var v := videoId.value;
      r.value == "Video deleted successfully"
      && destroy(GetPublicIdFromUrl(old(db.videos)[v].file)).Destroyed?
      && db.videos == old(db.videos) - {v}
      && (exists l :: (l in old(db.lectures) && v in old(db.lectures)[l].videoIds
                       && db.lectures == old(db.lectures)[l := old(db.lectures)[l].(videoIds := Without(old(db.lectures)[l].videoIds, v))]))
    ensures Linked(old(db.lectures), old(db.videos), VideoIdsOf, LectureOfVideo) ==>
      Linked(db.lectures, db.videos, VideoIdsOf, LectureOfVideo)
    ensures old(db.Valid()) ==> db.Valid()
  {
    if videoId.None? {
      return Err(ApiError(400, "Video Id is required"));
    }
    var v := videoId.value;
    if v !in db.videos {
      return Err(Rethrown(ApiError(404, "Video not found"), "An error occurred while deleting video"));
    }
    if !ListsVideo(db.lectures, v) {
      return Err(Rethrown(ApiError(404, "Lecture not found"), "An error occurred while deleting video"));
    }
    var l :| l in db.lectures && v in db.lectures[l].videoIds;
    var destroyed := DeleteFromCloudinaryIntended(Some(VideoAssetPath(db.videos[v].file)), destroy);
    if destroyed.Err? {
      return Err(Rethrown(destroyed.error, "An error occurred while deleting video"));
    }
    VideoRemovalKeepsLinked(db.lectures, db.videos, l, v);
    var updated := db.lectures[l].(videoIds := Without(db.lectures[l].videoIds, v));
    db.RemoveVideo(v);
    db.SaveLecture(l, updated);
    r := Ok("Video deleted successfully");
  }
}
